=== FILE: README.md ===
# Cable-tree engine of tr-wfcrp, modelled in Dafny

tr-wfcrp routes the collection cables of a wind farm. It uses a
transgenetic algorithm. A layout is a spanning tree over node 0 (the
substation) and the turbines 1..n. Each turbine sends its power to its
parent. Every edge carries one unit per turbine below it. The layout's
cost has three parts:

- each cable's price, which is its length times the per-meter cost of the
  smallest cable that carries the edge's power, plus a penalty M1 per unit
  above the largest capacity;
- a penalty M2 per substation connection above the capacity C;
- a penalty M3 per pair of crossing edges.

The model covers these parts of the repository:

- **The `Solution` class.** A `State` value holds the parent map, the
  children sets and the caches for power, cable cost, substation
  connections and crossings. `build` recomputes everything. `move`
  re-attaches one turbine and updates every cache incrementally. The
  snapshot of `move` lets `move_back` undo it.
- **Construction helpers.** These are `node_power`, `cable_cost`, `prim`,
  the sort by distance, `_sweep_groups` and `sweep`.
- **Geometry.** These are `_direction`, `intersect` and `is_proper_tree`.
- **Instance tables.** These are the cable-index lookup table, the
  substation capacity check and the distance fill.
- **Local-search operators.** These are `cut_branch`, the single-branch
  and between-branches transposons, `move_to_better_trasposon` and
  `plasmid`.
- **`best_sweep`.**

Modules and files:

| module | file | contents |
|---|---|---|
| `Sums` | sums.dfy | sums over index ranges, with their algebra |
| `Sorting` | sorting.dfy | a stable insertion sort under a total preorder |
| `Geometry` | geometry.dfy | `_direction` and `intersect` on integer points |
| `Tree` | tree.dfy | parent maps, paths to the substation, branches, subtree sizes |
| `Reattach` | reattach.dfy | what `parent[c := p]` does to a tree |
| `Branches` | branches.dfy | `is_node_in_branch`, `get_branch_nodes`, `cut_branch` |
| `ProperTree` | propertree.dfy | `is_proper_tree` |
| `Power` | power.dfy | `node_power` |
| `Instance` | instance.dfy | the instance tables |
| `Costs` | costs.dfy | the from-scratch cost definitions |
| `Solution` | solution.dfy | the `Solution` class |
| `Construction` | construction.dfy | `prim`, `_sweep_groups`, `sweep` |
| `Transposons` | transposons.dfy | the two transposons and `move_to_better_trasposon` |
| `Plasmids` | plasmid.dfy | `plasmid` |
| `BestSweep` | bestsweep.dfy | `best_sweep` |

Conventions:

- Every layout is a `seq<nat>` parent map with `parent[0] == 0`.
- A branch and a subtree size are defined from the paths to the
  substation (`Tree.Chain`), not from any traversal. So each traversal in
  the source is proved against an independent reference.
- Python iterates a `set` in an unspecified order. The model iterates a
  children set in ascending order.
- Distances are a non-negative, symmetric integer table with a zero
  diagonal. Positions are integer points. Costs are exact integers.

## Model

| member | source | states |
|---|---|---|
| Geometry.DirectionCross | src/utils.py:4-9 | `_direction(p, q, r)` is the negated cross product, and it is 0 exactly when the three points are collinear |
| Geometry.DirectionSwap | src/utils.py:4-9 | swapping the first two points negates `_direction` |
| Geometry.OppositeSidesProduct | src/utils.py:32-33 | "d1 >= 0 and d2 <= 0, or d1 <= 0 and d2 >= 0" holds exactly when d1 * d2 <= 0 |
| Geometry.IntersectGeneral | src/utils.py:32-35 | outside the collinear case, two segments intersect iff each one's endpoints lie weakly on opposite sides of the other's line, so touching counts |
| Geometry.IntersectCollinear | src/utils.py:25-30 | in the collinear case, the segments intersect iff one x-range contains the other |
| Geometry.PartialOverlapNotCrossing | src/utils.py:25-30 | any two collinear segments whose x-ranges overlap only partly, either one reaching further left and with the ends of each in either order, are reported as not crossing |
| Geometry.VerticalAlwaysCrossing | src/utils.py:25-30 | any two segments on one vertical line intersect, whatever their y-ranges, because y is never compared |
| Geometry.IntersectReverseFirst | src/utils.py:12-35 | reversing the first segment's endpoints does not change `intersect` |
| Geometry.IntersectReverseSecond | src/utils.py:12-35 | reversing the second segment's endpoints does not change `intersect` |
| Geometry.CollinearBothWays | src/utils.py:25 | for non-degenerate segments, if both of one segment's endpoints are on the other's line, the converse holds too |
| Geometry.IntersectSymmetric | src/utils.py:12-35 | for non-degenerate segments, `intersect` is symmetric in the two segments |
| Geometry.DegenerateAsymmetric | src/utils.py:12-35 | for a zero-length segment, `intersect` is not symmetric: a point above a horizontal segment "crosses" it in one order and not in the other |
| Tree.WalkShape | src/solution.py:141-146 | the walk up the parents climbs one hop per step through turbines only, and it ends at the substation exactly when the substation is reachable |
| Tree.ChainEnds | src/solution.py:141-146 | in a proper tree, the path from v ends at 0, stays within the nodes, and follows the parent map |
| Tree.ChainDistinct | src/solution.py:141-146 | in a proper tree, the path from a node to the substation never repeats a node |
| Tree.ChainLength | src/solution.py:141-146 | the path is no longer than the number of nodes, so the upward walks of `move` terminate |
| Tree.InBranchTrans | src/solution.py:195-199 | branch membership is transitive |
| Tree.InBranchAntisym | src/solution.py:195-199 | two nodes each in the other's branch are equal |
| Tree.InBranchParent | src/solution.py:195-199 | a turbine is in its parent's branch, and its parent is not in its branch |
| Tree.SubtreeSizeRoot | src/tools.py:22-45 | the substation's subtree holds every node, so its power is the number of nodes |
| Tree.SubtreeSizeBounds | src/tools.py:22-45 | every subtree size is between 1 and the number of nodes |
| Tree.BranchSmaller | src/tools.py:37-42 | a proper descendant has a strictly smaller subtree |
| Reattach.MoveKeepsProper | src/solution.py:122-125 | re-attaching c under a node p outside c's branch keeps the layout a proper tree |
| Reattach.MoveKeepsBranch | src/solution.py:122-125 | the move does not change which nodes lie in c's branch |
| Reattach.ChainOutside | src/solution.py:122-125 | the path of a node outside c's branch is unchanged by the move |
| Reattach.ChainInside | src/solution.py:147-154 | the path of a node inside c's branch becomes its old path up to c, followed by p's path |
| Reattach.MoveInBranchInside | src/solution.py:139-154 | after the move, a node in c's branch has as ancestors its ancestors up to c plus the ancestors of p |
| Reattach.SubtreeSizeAfterMove | src/solution.py:139-154 | a node's subtree shrinks by c's subtree size if it was on c's old path, and grows by it if it is on p's path; no other node changes |
| Branches.IsNodeInBranchCorrect | src/solution.py:195-199 | the recursive test over the children sets holds iff x is r or a descendant of r |
| Branches.ChildList | src/solution.py:198 | a children set is iterated as the ascending list of exactly its members |
| Branches.BranchNodesMembers | src/solution.py:201-208 | `get_branch_nodes(r)` lists exactly r and its descendants |
| Branches.BranchNodes | src/solution.py:201-208 | `get_branch_nodes(r)` lists r first |
| Branches.BranchNodesDistinct | src/solution.py:201-208 | `get_branch_nodes` never lists a node twice |
| Branches.BranchNodesParentsFirst | src/solution.py:201-208 | the listing is a pre-order: every node after r has its parent listed earlier |
| Branches.CutBranchEdges | src/transgenetic.py:10-17 | `cut_branch(r)` is the edge (v, parent[v]) of every node of `get_branch_nodes(r)` after r, in the same pre-order |
| ProperTree.DfsTree | src/utils.py:43-49 | on a proper tree, the DFS from r over the children lists visits exactly r's branch and never revisits a node |
| ProperTree.DfsForestTree | src/utils.py:48-49 | the DFS over a list of distinct sibling subtrees visits exactly their branches and never revisits a node |
| ProperTree.ProperTreeAccepted | src/utils.py:38-52 | `is_proper_tree` accepts the children lists of every proper tree, rooted at the substation |
| ProperTree.DfsReachedOnce | src/utils.py:43-49 | a search without a revisit started at an unvisited node; its lists name only nodes it marked, no node twice and never the start, and each marked node other than the start is named by one of them |
| ProperTree.DfsListReachedOnce | src/utils.py:48-49 | the same for the searches over a list: the listed nodes were unvisited, are marked, and are distinct |
| ProperTree.ProperTreeReachedOnce | src/utils.py:38-52 | the converse of `ProperTreeAccepted`: for any adjacency lists, when `is_proper_tree` accepts, every node was reached, the root is in no list, and every other node is named by exactly one entry of all the lists |
| ProperTree.CycleRejected | src/utils.py:38-52 | `is_proper_tree` rejects a two-node cycle |
| ProperTree.SharedChildFirstVisit | src/utils.py:43-49 | in a graph where a node has two parents, the DFS reaches the shared child on the first path |
| ProperTree.SharedChildRejected | src/utils.py:38-52 | `is_proper_tree` rejects a graph in which a node has two parents, even though every node is reached |
| Power.NodePowerIsSubtreeSize | src/tools.py:37-42 | the recursive power of a node is its subtree size |
| Power.ForestPowerIsSum | src/tools.py:39-41 | the power a node adds up from its children is the sum of their subtree sizes |
| Power.NodePowers | src/tools.py:22-45 | `node_power` gives every node its subtree size |
| Power.SubtreeSizeRecurrence | src/tools.py:41 | a subtree's size is 1 plus the sizes of the children's subtrees |
| Power.ChildBranchesColumn | src/tools.py:37-42 | a node is in v's branch iff it is v or it is in exactly one child's branch |
| Instance.SortCables | src/instance.py:135 | the sorted catalogue is a permutation of the input, ordered by (capacity, cost, availability), so its last capacity is the largest |
| Instance.CableIndexTable | src/instance.py:141-152 | for 1 <= p <= max capacity, entry p is the first cable whose capacity covers p, and entry 0 is 0; the loop terminates because the last cable has the maximum capacity |
| Instance.CableIndex | src/instance.py:69-72 | the chosen index is in range; power 0, or a largest capacity of 0, reads entry 0, the first cable; otherwise it is the first cable that covers min(power, max capacity); beyond a positive maximum it is a cable of the largest capacity |
| Instance.SubstationCapacity | src/instance.py:84-102 | Cmin is one below the negated third header field; C = 0 gives exactly (Cmin, Cmin + 1); a C below Cmin, other than 0, is an error, and only then; any other C is kept |
| Instance.FillDistances | src/instance.py:117-123 | the table is square, has a zero diagonal and is symmetric, and each entry above the diagonal is the metric of its two positions |
| Instance.FillRow | src/instance.py:119-123 | one pass of the outer loop finishes row i, keeping the earlier rows |
| Instance.MeasurePair | src/instance.py:121-123 | one pass of the inner loop measures (i, j) and mirrors it to (j, i) |
| Instance.Mirror | src/instance.py:122-123 | writing (i, j) and its mirror leaves every other entry alone |
| Instance.Nodes | src/instance.py:154 | `nodes` is 0..n in order |
| Costs.CableCostOverflow | src/tools.py:6-19 | within capacity a cable costs its length times the chosen cable's per-meter price; above capacity it costs what the largest cable costs plus M1 per unit of excess |
| Costs.CableCostSymmetric | src/tools.py:16 | a cable costs the same in both directions |
| Costs.FanInPenalty | src/solution.py:112-113 | the connection penalty is never negative, is 0 exactly when the connections are at most C, and is M2 per connection above C |
| Costs.FanInBounds | src/solution.py:104-110 | the connection count is between 0 and n |
| Costs.FanInPositive | src/solution.py:104-110 | a proper tree with a turbine has at least one substation connection |
| Costs.FanInAfterMove | src/solution.py:156-157 | after re-attaching c, the count loses 1 if c was on the substation and gains 1 if it now is |
| Costs.CrossingSymmetric | src/solution.py:85-97 | with distinct sites, whether two edges of a tree count as crossing does not depend on which is taken first |
| Costs.CrossingsAfterMove | src/solution.py:159-185 | with distinct sites, the crossing count after a legal move is the old count, minus c's old edge's crossings, plus c's new edge's crossings |
| Solution.GetEdges | src/solution.py:66-67 | `get_edges` is (i, parent[i]) for i = 1..n, in index order |
| Solution.GetEdgesRoundTrip | src/solution.py:58-67 | building from `get_edges()` gives back the same parent map and exactly the same children sets |
| Solution.GetEdgesRebuild | src/solution.py:58-67 | `get_edges()` names every turbine once as a child, and applying it to any start gives back the parent map |
| Solution.ApplyEdgesAt | src/solution.py:62-63 | after `build`'s write loop, a turbine named as a child has the parent its edge gives, and any other entry keeps its old value |
| Solution.EdgeChildrenMembers | src/solution.py:59-63 | after `build`'s write loop, u is in children[v] iff (u, v) is one of the edges |
| Solution.SpanningEdgesTree | src/solution.py:58-64 | an edge list that names every turbine once as child makes the children sets the exact inverse of the parent map |
| Solution.ChildrenOfUnique | src/solution.py:58-64 | the children sets are determined by the parent map |
| Solution.ConsistentUnique | src/solution.py:58-64 | a consistent state is determined by its parent map and its crossing count |
| Solution.WriteEdges | src/solution.py:59-63 | `build`'s write loop produces the parent map and children sets of the edge list |
| Solution.WrittenEdges | src/solution.py:58-63 | for any in-range list, unnamed parent entries are kept, named ones take their edge's parent when each child is named once, the children sets hold exactly the listed edges, and they invert the parent map when every turbine is named once |
| Solution.UnnamedLeavesChildren | src/solution.py:58-63 | a turbine the list leaves out keeps its old parent but joins no children set, so the children sets no longer invert the parent map |
| Solution.Rewire | src/solution.py:59-63 | the write loop leaves the parent entries the list names set to their edge's parent (when each child is named once) and the others kept, children sets holding exactly the listed edges, and children sets that invert the parent map when every turbine is named once |
| Solution.RebuildOwn | src/solution.py:58-67 | a state rebuilt from a consistent state's own `get_edges()`, with powers, cable cost and connections recomputed and crossings kept or recounted, is that same state |
| Solution.Recount | src/solution.py:115-120 | `cost(recalculate=True)` sets power to the subtree sizes, the cable cost and the connection count to their from-scratch values, and recounts the crossings unless they are ignored |
| Solution.CableSum | src/solution.py:72-79 | `cost_for_cables` is the sum over every turbine of its edge's cable cost at its power |
| Solution.CountConnections | src/solution.py:104-110 | `connections_to_substation` counts exactly the turbines whose parent is 0 |
| Solution.CountCrossings | src/solution.py:81-99 | `number_of_crossings` counts exactly the pairs i < j of edges that share no end and intersect |
| Solution.Build | src/solution.py:58-64 | for any in-range edge list that leaves a proper tree: the parent entries the edges name are set, and the others are kept; the children sets hold exactly the listed edges, which invert the parent map (a consistent state) when every turbine is named once; power, cable cost and connections equal their from-scratch values; the crossing count is recomputed unless ignored, then kept; the cost returned is the state's cost; rebuilding a consistent state from its own edges is the identity |
| Solution.New | src/solution.py:40-56 | a new solution starts from all-zero parents: unnamed turbines stay on 0 and join no children set, the children sets hold exactly the listed edges, powers are subtree sizes and the crossing count is exact; from spanning tree edges it is consistent and every edge is its child's parent entry |
| Solution.CostIsLayoutCost | src/solution.py:115-120 | on a consistent state with exact crossings, `cost()` equals the from-scratch cost of the layout |
| Solution.JustMoveChildrenOf | src/solution.py:122-125 | `_just_move` keeps the children sets the inverse of the parent map |
| Solution.MovedConsistent | src/solution.py:127-185 | the state after a legal move is consistent: power, cable cost and connections equal their from-scratch values for the new tree |
| Solution.Move | src/solution.py:127-185 | after a legal move: the state is the re-attached state and is consistent; the snapshot records c and its old parent; `move_back` on it restores the state exactly; with distinct sites, an exact crossing count stays exact |
| Solution.ShiftPower | src/solution.py:139-154 | the two upward walks produce the power and cable cost of the re-attached tree |
| Solution.AddAlongPath | src/solution.py:141-146 | a walk adds delta to the power of exactly the turbines on the path from its start, and adjusts the cable cost so that its difference from the edge-cost sum is unchanged |
| Solution.Repower | src/solution.py:143-145 | one walk step changes one node's power and re-prices its edge, keeping cable cost minus edge-cost sum invariant |
| Solution.PathDone | src/solution.py:141 | the walk stops at 0 after visiting exactly the turbines of the path |
| Solution.EdgeCostReparent | src/solution.py:140-148 | re-parenting c changes the edge-cost sum by exactly c's old and new edge prices |
| Solution.EdgeCostRepower | src/solution.py:143-145 | changing one turbine's power changes the edge-cost sum by exactly that edge's old and new price |
| Solution.AboveChildIsHeavier | src/solution.py:144 | a node on c's old path has a subtree larger than c's, so subtracting c's power leaves it positive |
| Solution.MoveResult | src/solution.py:139-154 | subtracting c's power along the old path and adding it along the new path gives the re-attached tree's power and cable cost |
| Solution.StarCount | src/solution.py:159-170 | each crossing loop counts c's edge against every edge that shares no end with it |
| Solution.MovedCrossingsExact | src/solution.py:159-185 | with distinct sites, the incremental crossing update gives the from-scratch count of the new tree |
| Solution.MoveBackChildren | src/solution.py:187-193 | `_just_move` back to the old parent restores the children sets exactly |
| Solution.MovedTwice | src/solution.py:187-193 | moving c back to its old parent is a legal move, and it restores the whole state |
| Construction.Closest | src/tools.py:100-107 | the scan picks a tree-by-fringe pair of minimum distance, and every pair scanned before it is strictly farther (ties go to the first) |
| Construction.ScanRow | src/tools.py:103-107 | the inner loop scans every fringe node against one tree node and keeps the first minimum |
| Construction.PrimStep | src/tools.py:109-112 | appending the chosen edge keeps the list a grown tree whose every edge is a greedy choice |
| Construction.PrimGrow | src/tools.py:99-112 | one pass of the loop moves one node from the fringe into the tree |
| Construction.Prim | src/tools.py:80-114 | `prim` returns min(size, number of nodes) - 1 edges, or all nodes when size is negative; each edge hangs a new node under a node already in the tree; every edge is the first closest tree-by-fringe pair of its step |
| Construction.GrownLegal | src/tools.py:109-112 | a grown edge list from the substation applied to the star is a sequence of legal moves and gives a proper tree |
| Construction.HostListLegal | src/transgenetic.py:43-47 | a host list (prim grown from any node r, the substation included, then sorted) that never takes the substation in as a child hangs turbines under their parents in one proper tree, so it is a legal donor list from the star |
| Construction.SortByDistance | src/tools.py:117-123 | the sorted group is a permutation of the input, non-decreasing in distance to the substation, and stable: turbines at the same distance keep their input order |
| Sorting.InsertStable | src/tools.py:121-123 | inserting x into a sorted list puts it behind every element that sorts equal to it and keeps their order among themselves |
| Sorting.SortStable | src/tools.py:121-123 | the sort keeps the order of every run of elements that sort equal |
| Construction.VisitPermutation | src/tools.py:137-154 | the two phases meet every turbine 1..n exactly once |
| Construction.FillGroup | src/tools.py:139-142 | the inner loop takes the next run of turbines until the group holds tpg (counting the carry) or the phase's turbines run out |
| Construction.Fill | src/tools.py:137-144 | a phase appends exactly its turbines, in order, in groups that are full except the last, with j reduced modulo tpg |
| Construction.SweepPhases | src/tools.py:132-154 | the two phases group exactly the sweep order of the turbines into non-empty groups of at most tpg that run consecutively by +1 or -1, cut where the source cuts: each phase's groups are full except its last, and the second phase's first group counts the size the first phase hands on (j %= tpg) |
| Construction.PhasesOf | src/tools.py:137-154 | the first phase's groups followed by the second phase's, continuing its count, are the two phases' groups |
| Construction.ChunkedUnique | src/tools.py:139-144 | groups that are full except the last are fixed by what they flatten to and the starting count: the cut points follow from tpg |
| Construction.PhasesUnique | src/tools.py:132-154 | only one list of groups meets the two phases' description, so it determines the grouping |
| Construction.SweepsTwoTurbines | src/tools.py:126-161 | for two turbines from turbine 1 clockwise with tpg 2, the only sweep grouping is [[1, 2]] |
| Construction.RotateGroups | src/tools.py:156-159 | the rotation rotates the flattened turbine order and keeps the group bounds |
| Construction.SweepGroups | src/tools.py:126-161 | tpg = 0 fails on the modulo; otherwise every turbine is in exactly one group, every group is non-empty with at most tpg members running by +1 or -1, and the result is the two phases' groups (cut as the source cuts them) rotated to the group holding turbine 1 |
| Construction.GroupEdges | src/tools.py:171-172 | a group's edges grow a tree from the substation over exactly the group; the first turbine of the stable distance sort (a nearest one) hangs on 0, and every other edge is prim's first-closest choice over the sorted group from that turbine |
| Construction.CollectEdges | src/tools.py:172-173 | the concatenated group trees grow one tree over the substation and all turbines |
| Construction.GrownSpanning | src/tools.py:172-173 | an edge list that grows a tree over all nodes names every turbine exactly once as child |
| Construction.Sweep | src/tools.py:164-173 | tpg = 0 fails; otherwise `sweep` returns n edges, naming every turbine once as child, forming a proper tree, made of one group tree per sweep group, each hanging the sorted group's first turbine on 0 and attaching the rest by prim's choices, over groups cut as `_sweep_groups` cuts them |
| Construction.SweptTree | src/tools.py:164-173 | the group trees of a sweep make a spanning, proper tree |
| Transposons.OutsideBranch | src/transgenetic.py:92 | a node outside the first-layer branch is outside the branch of every node in it, so every between-branches trial is legal |
| Transposons.FirstLayerAll | src/transgenetic.py:82 | the first-layer list holds every turbine attached to the substation |
| Transposons.RecordIsBest | src/transgenetic.py:64-78 | the kept trial's edges describe a proper tree whose cost is at most the starting cost |
| Transposons.Keep | src/transgenetic.py:74-76 | a strictly cheaper trial replaces the best, and anything else keeps it |
| Transposons.Finish | src/transgenetic.py:78 | rebuilding from the best edges gives that tree, and with distinct sites its cost is the kept cost |
| Transposons.SingleBranchTransposon | src/transgenetic.py:60-78 | the result is consistent; it is the start or one same-branch move from it whose trial cost is strictly below the start's (a tie keeps the start); it costs no more than the start or any same-branch trial |
| Transposons.SameBranchScan | src/transgenetic.py:66-77 | the scan over all first-layer branches beats every same-branch trial |
| Transposons.SameBranchTrials | src/transgenetic.py:67-77 | the scan of one branch beats every same-branch trial in it |
| Transposons.SameBranchRow | src/transgenetic.py:69-77 | the scan of one source node beats every same-branch trial from it |
| Transposons.SameBranchStep | src/transgenetic.py:70-71 | a pair that fails the branch test is skipped; otherwise it is tried |
| Transposons.SameBranchTrial | src/transgenetic.py:72-77 | one trial, undone by moving back to the old parent, is kept only if strictly cheaper |
| Transposons.BetweenBranchesTransposon | src/transgenetic.py:81-99 | the result is consistent; it is the start or one cross-branch move from it whose trial cost is strictly below the start's (a tie keeps the start); it costs no more than the start or any cross-branch trial |
| Transposons.CrossBranchScan | src/transgenetic.py:87-98 | the scan over all first-layer branches beats every cross-branch trial |
| Transposons.CrossBranchTrials | src/transgenetic.py:88-98 | the scan of one branch beats every cross-branch trial from it |
| Transposons.CrossBranchRow | src/transgenetic.py:90-98 | the scan of one source node beats every cross-branch trial from it |
| Transposons.CrossBranchStep | src/transgenetic.py:91-92 | a destination inside the branch is skipped; any other destination is tried |
| Transposons.CrossBranchTrial | src/transgenetic.py:93-98 | one trial, undone by `move_back`, is kept only if strictly cheaper |
| Transposons.MoveToBetter | src/transgenetic.py:102-117 | with no strictly improving legal move, the answer is false and the state is unchanged; otherwise the answer is true, one legal move is applied, the cost drops strictly, no legal move is cheaper, and every move scanned earlier is strictly dearer |
| Transposons.ScanAll | src/transgenetic.py:105-112 | the double loop scans every legal move |
| Transposons.ScanTurbine | src/transgenetic.py:106-112 | one pass of the outer loop scans every destination of one turbine |
| Transposons.ScanPair | src/transgenetic.py:107 | an illegal pair is skipped and a legal pair is tried |
| Transposons.ScanTrial | src/transgenetic.py:108-112 | one trial, undone by `move_back`, replaces the best move only if strictly cheaper |
| Transposons.ScanStep | src/transgenetic.py:109-111 | a strict improvement becomes the first strictly best move so far |
| Plasmids.EdgeEnds | src/transgenetic.py:126-129 | `edges_set` holds exactly the nodes the donor edges mention |
| Plasmids.StarPhase | src/transgenetic.py:122-123 | the first phase hangs every turbine on the substation and keeps the state consistent |
| Plasmids.DonorPhase | src/transgenetic.py:124-125 | the donor phase applies the donor edges in order and keeps the state consistent |
| Plasmids.RestorePhase | src/transgenetic.py:130-132 | the restore phase leaves each node where it was or on its original parent, and never moves a donor-mentioned node |
| Plasmids.Restore | src/transgenetic.py:131-132 | one restore step either skips or applies a legal move to the original parent |
| Plasmids.LegalSequenceProper | src/transgenetic.py:124-125 | donor edges applied as legal moves keep the tree proper |
| Plasmids.SubForestLegal | src/transgenetic.py:124-125 | a donor list whose edges hang distinct turbines under their parents in one proper tree, in any order, is legal on the star, and every edge names its child for the last time |
| Plasmids.CutBranchLegal | src/transgenetic.py:10-17 | a `cut_branch` list is such a donor list |
| Plasmids.OwnEdgesLegal | src/transgenetic.py:121 | a solution's own `get_edges()` is a legal donor list on the star |
| Plasmids.ApplyEdgesLast | src/transgenetic.py:124-125 | an edge that is the last to name its child decides that child's parent |
| Plasmids.PlacedKeepsDonors | src/transgenetic.py:120-132 | after the three phases, every donor edge that last names its child is in the layout |
| Plasmids.PlacedOthers | src/transgenetic.py:130-132 | a turbine the donor does not mention ends on its original parent or on the substation |
| Plasmids.PlacedOwnEdges | src/transgenetic.py:120-132 | with the solution's own edges as donor, the parent map is unchanged |
| Plasmids.Plasmid | src/transgenetic.py:120-132 | the result is consistent; every donor edge that last names its child holds; donor-mentioned nodes sit where the donor puts them; other nodes sit on their original parent or on the substation; the own-edges donor changes nothing |
| BestSweep.Row | src/best_sweep.py:14 | the tpg loop enumerates n // C through the maximum capacity, in order |
| BestSweep.CandidatesMembers | src/best_sweep.py:12-14 | the enumeration holds exactly the starting turbines 1..n, both directions and tpg from n // C to the maximum capacity |
| BestSweep.CandidatesOrdered | src/best_sweep.py:12-14 | the enumeration is ordered by turbine, then counter-clockwise first, then tpg |
| BestSweep.CandidatesFirst | src/best_sweep.py:12-14 | the first candidate is turbine 1, counter-clockwise, with the lowest tpg |
| BestSweep.StarNoCrossings | src/best_sweep.py:10 | the initial star has no crossings, because all its edges share node 0 |
| BestSweep.InitialSolution | src/best_sweep.py:10 | the initial solution is the star with a crossing count of 0 |
| BestSweep.BuiltScore | src/best_sweep.py:16-17 | a sweep built with crossings ignored costs its cables plus the connection penalty, because the crossing cache stays 0 |
| BestSweep.Consider | src/best_sweep.py:16-20 | one round keeps the first cheapest edge list among those tried |
| BestSweep.Improves | src/best_sweep.py:18-20 | a strictly cheaper list becomes the choice |
| BestSweep.Keeps | src/best_sweep.py:18 | a list that is not strictly cheaper leaves the choice in place |
| BestSweep.Round | src/best_sweep.py:15-20 | a round fails exactly when its tpg is 0; otherwise it records the candidate's sweep and keeps the first cheapest |
| BestSweep.Best | src/best_sweep.py:6-22 | the result fails exactly when n // C is 0 and there is a turbine; otherwise one sweep is recorded per candidate in enumeration order; the result is [] when no sweep scores below the sentinel, and otherwise it is the first sweep of minimum score |
| BestSweep.SearchDone | src/best_sweep.py:10-22 | after the last candidate every recorded list is its candidate's sweep and a proper tree, and the running choice is [] with no sweep below the sentinel, or the first sweep of minimum score |

## Left out

- Instance.WellFormed: requires a largest cable capacity of at least 0. A
  largest capacity of 0 is modelled: the lookup table is [0] and every
  power gets cable 0. With a negative largest capacity the source builds an
  empty lookup table and every lookup raises IndexError (src/instance.py:69-72,
  141-152), so no such catalogue is a loaded instance here.
- Costs.M1, Costs.M2 and Costs.M3: fixed at 1_000_000_000. In the source they are
  constructor arguments of the solution with that default (src/solution.py:40-52),
  along with an M4 that nothing reads. Every solution the repository
  creates uses the defaults.
- src/plot.py, file parsing in `Instance.__init__` and the driver loops
  `transgenetic` and `transgenetic_debug`: these are I/O, randomness,
  timing and printing.
- `generate_population` and `initialize_host_repository`: these only
  deduplicate and truncate lists built by the modelled operations.
- The angular sort of turbines by `arccos` and the Euclidean distance
  values: these are floating point. Positions are given integer points in
  sorted order. `Instance.FillDistances` takes the metric as a parameter.
- The `int(...)` truncation in `cost`: every cost is an exact integer,
  because distances are integers.
- The unused constant M4.
- `node_power_branch`: nothing in the repository calls it. It is the
  recursion of `node_power` over one branch, with its nodes renumbered.
  `Power.NodePowerIsSubtreeSize` covers that recursion at any root; the
  renumbering is not modelled.
- Recursion depth of the Python DFS helpers: Dafny's recursion has no such
  limit.
- Iteration order of `set`: Python leaves it unspecified. The model
  iterates children sets, and the fringe of `prim`, in ascending order.
- The 1e18 sentinels in `prim` and `best_sweep`: every distance is
  required to be below `Construction.Sentinel`.
- Construction.Prim: requires every distance between listed nodes to be
  below the sentinel. Otherwise the source would remove an unbound node.
- Instance.SubstationCapacity: the error text is fixed. The source's
  message also quotes the requested C and Cmin.
- Construction.SweepGroups: requires tpg >= 0. With a negative tpg the
  source loops for ever, because the inner loop never runs.
- BestSweep.Best: requires C >= 1. With C = 0 the source raises on
  n // C. With a negative C the tpg range starts below 0 and a sweep loops
  for ever.
- Solution.Build: requires every edge's ends to be nodes and the parent
  map it leaves to be a proper tree. On an out-of-range end the source
  raises IndexError. A parent map with a cycle is cut off from the
  substation, so `node_power`, which searches from node 0, leaves the
  cycle's nodes at power 1, which is not a subtree size. A list that
  leaves turbines out, as `Solution(instance, [])` does, is modelled:
  those turbines keep their old parent but join no children set
  (`Solution.UnnamedLeavesChildren`), so the state is `Consistent` only
  for a list naming every turbine once.
- Solution.Move: requires the new parent to be outside c's branch and c to
  be a turbine. Both upward walks read the parent map before `_just_move`,
  so they always end. A new parent inside c's branch cuts a cycle loose
  from the tree and leaves the caches wrong. With c = 0 `_just_move`
  raises KeyError.
- Solution.Move: keeps the crossing count exact only when no two nodes
  share a site (`Costs.DistinctSites`). `intersect` is not symmetric for
  zero-length segments (`Geometry.DegenerateAsymmetric`). The incremental
  update always takes the moved edge first, whereas `number_of_crossings`
  takes the lower-numbered edge first.
- Transposons.SingleBranchTransposon: relates its cost to the start's
  from-scratch cost only when sites are distinct and the start's crossing
  count is exact, for the same reason.
- Transposons.BetweenBranchesTransposon: the same restriction.
- Plasmids.Plasmid: requires the donor list to be a legal sequence of
  moves from the star. Two kinds of donor are excluded. A donor that names
  the substation as a child makes the source raise KeyError in
  `_just_move`; a host list grown by `prim` from a turbine whose tree
  takes in node 0 is one. A donor edge whose child lies above its new
  parent cuts a cycle loose, and a later upward walk that enters it never
  ends. `cut_branch` lists, a solution's own edges and sorted host lists that
  do not name node 0 as a child are legal (`Plasmids.CutBranchLegal`,
  `Plasmids.OwnEdgesLegal`, `Construction.HostListLegal`, all through
  `Plasmids.SubForestLegal`).
- The snapshot of `move`: it is a value returned by `Solution.Move`, not a
  field of the solution. So `move_back` restores exactly the state that
  the move was applied to.

=== FILE: bestsweep.dfy ===
/**
 best_sweep: build every sweep the enumeration allows (each starting
 turbine, counter-clockwise then clockwise, each tpg from n / C up to the
 largest cable capacity), price each with its crossings left out, and keep
 the first cheapest.
 */
module BestSweep {
  import opened Sums
  import opened Tree
  import opened Instance
  import opened Costs
  import opened Power
  import opened Solution
  import opened Plasmids
  import opened Construction

  /** One sweep of the enumeration. */
  datatype Candidate = Candidate(start: nat, clockwise: bool, tpg: nat)

  /** The enumeration meets a before b: lower starting turbine, then counter-clockwise first, then lower tpg. */
  predicate Before(a: Candidate, b: Candidate)
  {
    || a.start < b.start
    || (a.start == b.start && !a.clockwise && b.clockwise)
    || (a.start == b.start && a.clockwise == b.clockwise && a.tpg < b.tpg)
  }

  /** The tpg loop for one starting turbine and direction: lo through hi. */
  function Row(start: nat, clockwise: bool, lo: nat, hi: int): (r: seq<Candidate>)
    ensures |r| == (if hi >= lo then hi - lo + 1 else 0)
    ensures forall k :: 0 <= k < |r| ==> r[k] == Candidate(start, clockwise, lo + k)
  {
    seq(if hi >= lo then hi - lo + 1 else 0, (k: int) requires 0 <= k => Candidate(start, clockwise, (lo + k) as nat))
  }

  /** The three loops of best_sweep, in the order they run, for starting turbines 1..n. */
  function Candidates(n: nat, lo: nat, hi: int): seq<Candidate>
  {
    if n == 0 then [] else Candidates(n - 1, lo, hi) + Row(n, false, lo, hi) + Row(n, true, lo, hi)
  }

  /** The enumeration holds exactly the starting turbines 1..n with the tpg values lo..hi. */
  lemma {:induction false} CandidatesMembers(n: nat, lo: nat, hi: int)
    ensures forall c :: c in Candidates(n, lo, hi) <==> 1 <= c.start <= n && lo <= c.tpg <= hi
  {
    if n > 0 {
      CandidatesMembers(n - 1, lo, hi);
      var a := Row(n, false, lo, hi);
      var b := Row(n, true, lo, hi);
      forall c: Candidate | 1 <= c.start <= n && lo <= c.tpg <= hi
        ensures c in Candidates(n, lo, hi)
      {
        if c.start == n {
          if c.clockwise { assert b[c.tpg - lo] == c; } else { assert a[c.tpg - lo] == c; }
        }
      }
    }
  }

  /** The enumeration runs strictly forward in the Before order, so it meets each sweep once. */
  lemma {:induction false} CandidatesOrdered(n: nat, lo: nat, hi: int)
    ensures forall i, j :: 0 <= i < j < |Candidates(n, lo, hi)| ==>
      Before(Candidates(n, lo, hi)[i], Candidates(n, lo, hi)[j])
  {
    if n > 0 {
      CandidatesOrdered(n - 1, lo, hi);
      CandidatesMembers(n - 1, lo, hi);
      var p := Candidates(n - 1, lo, hi);
      var a := Row(n, false, lo, hi);
      var b := Row(n, true, lo, hi);
      var cs := p + a + b;
      forall i, j | 0 <= i < j < |cs|
        ensures Before(cs[i], cs[j])
      {
        if i < |p| {
          assert cs[i] == p[i] && cs[i] in p;
          if j >= |p| {
            assert cs[j].start == n;
          } else {
            assert cs[j] == p[j];
          }
        }
      }
    }
  }

  /** With at least one turbine and a non-empty tpg range, the enumeration opens with turbine 1, counter-clockwise, tpg lo. */
  lemma {:induction false} CandidatesFirst(n: nat, lo: nat, hi: int)
    requires n >= 1 && lo <= hi
    ensures |Candidates(n, lo, hi)| >= 1 && Candidates(n, lo, hi)[0] == Candidate(1, false, lo)
  {
    if n > 1 {
      CandidatesFirst(n - 1, lo, hi);
    }
  }

  /** The star layout: every turbine on the substation. */
  lemma StarNoCrossings(inst: Instance)
    requires Fits(inst, Star(Size(inst)))
    ensures Crossings(inst, Star(Size(inst))) == 0
  {
    var parent := Star(Size(inst));
    forall i, j | 1 <= i < j < |parent|
      ensures CrossingPairs(inst, parent)(i, j) == 0
    {
      assert !ShareNoEnd(parent, i, j);
    }
    PairSumZero(CrossingPairs(inst, parent), 1, |parent|);
  }

  /**
   Solution(instance, []): a parent map of zeros, empty children sets, and
   build of no edges, which counts the crossings of the star layout.  The
   crossing count it caches is 0: every star edge ends at the substation.
   */
  method InitialSolution(inst: Instance) returns (s: State)
    requires WellFormed(inst)
    ensures s.parent == Star(Size(inst)) && Fits(inst, s.parent)
    ensures s.crossings == 0
  {
    var n := Size(inst);
    var parent := Star(n);
    StarProper(n);
    var power := NodePowers(parent);
    forall v | 0 <= v < n
      ensures power[v] >= 0
    {
      SubtreeSizeBounds(parent, v);
    }
    var cable := CableSum(inst, parent, power);
    var fanIn := CountConnections(parent);
    var crossings := CountCrossings(inst, parent);
    StarNoCrossings(inst);
    s := State(parent, seq(n, _ => {}), power, cable, fanIn, crossings);
  }

  /**
   What the sweep of candidate c returned, as sweep promises it: grown
   from the substation with one edge per turbine, and built group by group
   from the groups _sweep_groups forms for c.
   */
  ghost predicate SweepOutcome(inst: Instance, c: Candidate, edges: seq<(nat, nat)>)
  {
    && Grown(0, edges) && SpanningEdges(edges, Size(inst))
    && |edges| == Size(inst) - 1
    && exists groups, parts :: Swept(inst, c.start, c.clockwise, c.tpg, groups, parts, edges)
  }

  /**
   What best_sweep compares for an edge list: the cable cost plus the
   substation-connection penalty of its layout, crossings not counted.
   */
  function Score(inst: Instance, edges: seq<(nat, nat)>): int
    requires WellFormed(inst) && Proper(ApplyEdges(Star(Size(inst)), edges))
  {
    var parent := ApplyEdges(Star(Size(inst)), edges);
    CableTotal(inst, parent, NodePowers(parent)) + FanInPenalty(inst, FanIn(parent))
  }

  /** Entry b is the first of the cheapest entries, and is below the starting sentinel. */
  ghost predicate FirstCheapest(inst: Instance, tried: seq<seq<(nat, nat)>>, b: nat)
    requires WellFormed(inst) && forall k :: 0 <= k < |tried| ==> Proper(ApplyEdges(Star(Size(inst)), tried[k]))
  {
    && b < |tried| && Score(inst, tried[b]) < Sentinel
    && (forall j :: 0 <= j < b ==> Score(inst, tried[b]) < Score(inst, tried[j]))
    && (forall j :: 0 <= j < |tried| ==> Score(inst, tried[b]) <= Score(inst, tried[j]))
  }

  /** Nothing tried comes below the starting sentinel. */
  ghost predicate NoneCheaper(inst: Instance, tried: seq<seq<(nat, nat)>>)
    requires WellFormed(inst) && forall k :: 0 <= k < |tried| ==> Proper(ApplyEdges(Star(Size(inst)), tried[k]))
  {
    forall k :: 0 <= k < |tried| ==> Score(inst, tried[k]) >= Sentinel
  }

  /** A spanning edge list sets every entry but the substation's, so the list it starts from does not matter. */
  lemma SpanningBaseFree(base: seq<nat>, other: seq<nat>, edges: seq<(nat, nat)>)
    requires |base| == |other| >= 1 && base[0] == 0 && other[0] == 0
    requires SpanningEdges(edges, |base|)
    ensures ApplyEdges(base, edges) == ApplyEdges(other, edges)
  {
    SpanningEdgesParent(base, edges);
    SpanningEdgesParent(other, edges);
    var p := ApplyEdges(base, edges);
    var q := ApplyEdges(other, edges);
    forall v | 0 <= v < |p|
      ensures p[v] == q[v]
    {
      if v == 0 {
        ApplyEdgesUnnamed(base, edges, 0);
        ApplyEdgesUnnamed(other, edges, 0);
      } else {
        assert Named(edges, v);
        var k :| 0 <= k < |edges| && edges[k].0 == v;
      }
    }
  }

  /**
   The running choice of best_sweep over the lists tried so far: nothing
   yet below the sentinel (bi < 0, best empty, bestCost the sentinel), or
   the first cheapest list, at index bi, with its score.
   */
  ghost predicate BestSoFar(inst: Instance, tried: seq<seq<(nat, nat)>>, best: seq<(nat, nat)>, bestCost: int, bi: int)
    requires WellFormed(inst) && forall k :: 0 <= k < |tried| ==> Proper(ApplyEdges(Star(Size(inst)), tried[k]))
  {
    || (bi < 0 && best == [] && bestCost == Sentinel && NoneCheaper(inst, tried))
    || (0 <= bi < |tried| && best == tried[bi] && bestCost == Score(inst, best) && FirstCheapest(inst, tried, bi))
  }

  /**
   One round of best_sweep's loop body after the sweep: build the layout
   with crossings ignored, read its cost, and keep it if strictly cheaper.
   The cached crossing count stays 0, so the cost read is the score.
   */
  method Consider(inst: Instance, s: State, edges: seq<(nat, nat)>, ghost tried: seq<seq<(nat, nat)>>,
                  best: seq<(nat, nat)>, bestCost: int, ghost bi: int)
    returns (s': State, best': seq<(nat, nat)>, bestCost': int, ghost bi': int)
    requires WellFormed(inst) && SpanningEdges(edges, Size(inst)) && Proper(ApplyEdges(Star(Size(inst)), edges))
    requires Fits(inst, s.parent) && s.parent[0] == 0 && s.crossings == 0
    requires forall k :: 0 <= k < |tried| ==> Proper(ApplyEdges(Star(Size(inst)), tried[k]))
    requires BestSoFar(inst, tried, best, bestCost, bi)
    ensures Fits(inst, s'.parent) && s'.parent[0] == 0 && s'.crossings == 0
    ensures BestSoFar(inst, tried + [edges], best', bestCost', bi')
  {
    var n := Size(inst);
    SpanningBaseFree(s.parent, Star(n), edges);
    var built;
    s', built := Build(inst, s, edges, true);
    var cost := Cost(inst, s', false);
    BuiltScore(inst, s', edges);
    if cost < bestCost {
      Improves(inst, tried, edges, best, bestCost, bi);
      best', bestCost', bi' := edges, cost, |tried|;
    } else {
      Keeps(inst, tried, edges, best, bestCost, bi);
      best', bestCost', bi' := best, bestCost, bi;
    }
  }

  /** Once built, a sweep's cost as read with the crossing count still 0 is its score. */
  lemma BuiltScore(inst: Instance, s: State, edges: seq<(nat, nat)>)
    requires Consistent(inst, s) && s.crossings == 0
    requires s.parent == ApplyEdges(Star(Size(inst)), edges)
    ensures Cost(inst, s, false) == Score(inst, edges)
  {
    assert s.power == NodePowers(s.parent);
  }

  /** A strictly cheaper new list becomes the choice. */
  lemma Improves(inst: Instance, tried: seq<seq<(nat, nat)>>, edges: seq<(nat, nat)>,
                 best: seq<(nat, nat)>, bestCost: int, bi: int)
    requires WellFormed(inst) && Proper(ApplyEdges(Star(Size(inst)), edges))
    requires forall k :: 0 <= k < |tried| ==> Proper(ApplyEdges(Star(Size(inst)), tried[k]))
    requires BestSoFar(inst, tried, best, bestCost, bi)
    requires Score(inst, edges) < bestCost
    ensures BestSoFar(inst, tried + [edges], edges, Score(inst, edges), |tried|)
  {
    var all := tried + [edges];
    assert forall k :: 0 <= k < |tried| ==> all[k] == tried[k];
    if bi >= 0 {
      assert forall j :: 0 <= j < |tried| ==> Score(inst, tried[bi]) <= Score(inst, tried[j]);
    }
  }

  /** A list no cheaper than the choice leaves it in place. */
  lemma Keeps(inst: Instance, tried: seq<seq<(nat, nat)>>, edges: seq<(nat, nat)>,
              best: seq<(nat, nat)>, bestCost: int, bi: int)
    requires WellFormed(inst) && Proper(ApplyEdges(Star(Size(inst)), edges))
    requires forall k :: 0 <= k < |tried| ==> Proper(ApplyEdges(Star(Size(inst)), tried[k]))
    requires BestSoFar(inst, tried, best, bestCost, bi)
    requires Score(inst, edges) >= bestCost
    ensures BestSoFar(inst, tried + [edges], best, bestCost, bi)
  {
    var all := tried + [edges];
    assert forall k :: 0 <= k < |tried| ==> all[k] == tried[k];
  }

  /** The loop state of best_sweep after the first i candidates. */
  ghost predicate SearchState(inst: Instance, cs: seq<Candidate>, i: nat, tried: seq<seq<(nat, nat)>>, s: State,
                              best: seq<(nat, nat)>, bestCost: int, bi: int)
  {
    && WellFormed(inst) && |tried| == i
    && (forall k :: 0 <= k < i ==> Proper(ApplyEdges(Star(Size(inst)), tried[k])))
    && i <= |cs| && (forall k :: 0 <= k < i ==> SweepOutcome(inst, cs[k], tried[k]))
    && Fits(inst, s.parent) && s.parent[0] == 0 && s.crossings == 0
    && BestSoFar(inst, tried, best, bestCost, bi)
  }

  /** One pass of best_sweep's innermost loop: sweep the candidate, then consider its edges. */
  method Round(inst: Instance, cs: seq<Candidate>, i: nat, ghost tried: seq<seq<(nat, nat)>>, s: State,
               best: seq<(nat, nat)>, bestCost: int, ghost bi: int)
    returns (ok: bool, err: string, s': State, best': seq<(nat, nat)>, bestCost': int,
             ghost bi': int, ghost tried': seq<seq<(nat, nat)>>)
    requires SearchState(inst, cs, i, tried, s, best, bestCost, bi) && i < |cs|
    requires forall a, b :: 0 <= a < Size(inst) && 0 <= b < Size(inst) ==> Dist(inst.distance, a, b) < Sentinel
    requires 1 <= cs[i].start < Size(inst)
    ensures ok <==> cs[i].tpg != 0
    ensures ok ==> SearchState(inst, cs, i + 1, tried', s', best', bestCost', bi')
  {
    var c := cs[i];
    var res, groups, parts := Sweep(inst, c.start, c.clockwise, c.tpg);
    if res.Failure? {
      return false, res.error, s, best, bestCost, bi, tried;
    }
    ok, err := true, "";
    s', best', bestCost', bi' := Consider(inst, s, res.value, tried, best, bestCost, bi);
    tried' := tried + [res.value];
    assert SweepOutcome(inst, c, res.value);
    TriedStep(inst, cs, i, tried, res.value);
  }

  /** Recording one more candidate's sweep keeps the per-candidate facts. */
  lemma TriedStep(inst: Instance, cs: seq<Candidate>, i: nat, tried: seq<seq<(nat, nat)>>, edges: seq<(nat, nat)>)
    requires i < |cs| && |tried| == i
    requires forall k :: 0 <= k < i ==> Proper(ApplyEdges(Star(Size(inst)), tried[k]))
    requires forall k :: 0 <= k < i ==> SweepOutcome(inst, cs[k], tried[k])
    requires Proper(ApplyEdges(Star(Size(inst)), edges)) && SweepOutcome(inst, cs[i], edges)
    ensures forall k :: 0 <= k < i + 1 ==> Proper(ApplyEdges(Star(Size(inst)), (tried + [edges])[k]))
    ensures forall k :: 0 <= k < i + 1 ==> SweepOutcome(inst, cs[k], (tried + [edges])[k])
  {
    TriedProper(inst, tried, edges);
    TriedSwept(inst, cs, tried, edges);
  }

  /** Appending a proper edge list keeps every recorded list proper. */
  lemma TriedProper(inst: Instance, tried: seq<seq<(nat, nat)>>, edges: seq<(nat, nat)>)
    requires forall k :: 0 <= k < |tried| ==> Proper(ApplyEdges(Star(Size(inst)), tried[k]))
    requires Proper(ApplyEdges(Star(Size(inst)), edges))
    ensures forall k :: 0 <= k < |tried| + 1 ==> Proper(ApplyEdges(Star(Size(inst)), (tried + [edges])[k]))
  {
    var t := tried + [edges];
    forall k | 0 <= k < |tried| + 1
      ensures Proper(ApplyEdges(Star(Size(inst)), t[k]))
    {
      if k < |tried| {
        assert t[k] == tried[k];
      }
    }
  }

  /** Appending the next candidate's sweep keeps every recorded list its candidate's sweep. */
  lemma TriedSwept(inst: Instance, cs: seq<Candidate>, tried: seq<seq<(nat, nat)>>, edges: seq<(nat, nat)>)
    requires |tried| < |cs|
    requires forall k :: 0 <= k < |tried| ==> SweepOutcome(inst, cs[k], tried[k])
    requires SweepOutcome(inst, cs[|tried|], edges)
    ensures forall k :: 0 <= k < |tried| + 1 ==> SweepOutcome(inst, cs[k], (tried + [edges])[k])
  {
    var t := tried + [edges];
    forall k | 0 <= k < |tried| + 1
      ensures SweepOutcome(inst, cs[k], t[k])
    {
      if k < |tried| {
        assert t[k] == tried[k];
        assert SweepOutcome(inst, cs[k], tried[k]);
      } else {
        assert t[k] == edges;
      }
    }
  }

  /**
   best_sweep: sweep every candidate in enumeration order and return the
   first cheapest edge list, or the empty list when none scores below the
   sentinel.  When n / C is 0 and there is a turbine, the very first sweep
   has tpg 0 and fails on the modulo.  `tried` records every swept list.
   */
  method Best(inst: Instance) returns (r: Result<seq<(nat, nat)>>, ghost tried: seq<seq<(nat, nat)>>)
    requires WellFormed(inst) && inst.C >= 1
    requires forall a, b :: 0 <= a < Size(inst) && 0 <= b < Size(inst) ==> Dist(inst.distance, a, b) < Sentinel
    ensures r.Failure? <==> Size(inst) >= 2 && (Size(inst) - 1) / inst.C == 0
    ensures r.Success? ==> |tried| == |Candidates(Size(inst) - 1, (Size(inst) - 1) / inst.C, inst.maxCap)|
    ensures r.Success? ==> forall k :: 0 <= k < |tried| ==>
      SweepOutcome(inst, Candidates(Size(inst) - 1, (Size(inst) - 1) / inst.C, inst.maxCap)[k], tried[k])
    ensures r.Success? ==> forall k :: 0 <= k < |tried| ==> Proper(ApplyEdges(Star(Size(inst)), tried[k]))
    ensures r.Success? ==>
      || (r.value == [] && NoneCheaper(inst, tried))
      || (exists b: nat :: FirstCheapest(inst, tried, b) && r.value == tried[b])
  {
    var n := Size(inst) - 1;
    var lo := n / inst.C;
    var cs := Candidates(n, lo, inst.maxCap);
    CandidatesMembers(n, lo, inst.maxCap);
    if n >= 1 && lo == 0 {
      CandidatesFirst(n, lo, inst.maxCap);
    }
    var s := InitialSolution(inst);
    var best: seq<(nat, nat)> := [];
    var bestCost := Sentinel;
    ghost var bi := -1;
    tried := [];
    var i := 0;
    while i < |cs|
      invariant SearchState(inst, cs, i, tried, s, best, bestCost, bi)
      invariant lo == 0 ==> i == 0
    {
      assert cs[i] in cs;
      var ok, err;
      ok, err, s, best, bestCost, bi, tried := Round(inst, cs, i, tried, s, best, bestCost, bi);
      if !ok {
        return Failure(err), tried;
      }
      i := i + 1;
    }
    SearchDone(inst, cs, tried, s, best, bestCost, bi);
    r := Success(best);
  }

  /** Once every candidate is swept, the running choice is the answer best_sweep returns. */
  lemma SearchDone(inst: Instance, cs: seq<Candidate>, tried: seq<seq<(nat, nat)>>, s: State,
                   best: seq<(nat, nat)>, bestCost: int, bi: int)
    requires SearchState(inst, cs, |cs|, tried, s, best, bestCost, bi)
    ensures |tried| == |cs|
    ensures forall k :: 0 <= k < |tried| ==> SweepOutcome(inst, cs[k], tried[k])
    ensures forall k :: 0 <= k < |tried| ==> Proper(ApplyEdges(Star(Size(inst)), tried[k]))
    ensures || (best == [] && NoneCheaper(inst, tried))
            || (exists b: nat :: FirstCheapest(inst, tried, b) && best == tried[b])
  {
    if bi >= 0 {
      assert FirstCheapest(inst, tried, bi as nat) && best == tried[bi];
    }
  }
}

=== FILE: branches.dfy ===
/**
 Branch queries of src/solution.py and src/transgenetic.py over the
 children sets: is_node_in_branch, get_branch_nodes (pre-order DFS) and
 cut_branch (the edges of a branch in the same order).  A set is iterated in
 ascending order of its elements.
 */
module Branches {
  import opened Sums
  import opened Tree

  /** children[v] is exactly the set of turbines whose parent is v. */
  predicate ChildrenOf(parent: seq<nat>, children: seq<set<nat>>)
  {
    && |children| == |parent|
    && (forall v :: 0 <= v < |parent| ==> forall u :: u in children[v] ==> 1 <= u < |parent| && parent[u] == v)
    && (forall u :: 1 <= u < |parent| ==> parent[u] < |parent| && u in children[parent[u]])
  }

  /** The elements of s in [lo, hi), in ascending order. */
  function AscendingBetween(s: set<nat>, lo: nat, hi: nat): (r: seq<nat>)
    ensures forall x :: x in r <==> x in s && lo <= x < hi
    ensures forall i :: 0 <= i < |r| ==> lo <= r[i] < hi
    ensures forall i, j :: 0 <= i < j < |r| ==> r[i] < r[j]
    decreases hi - lo
  {
    if lo >= hi then []
    else if lo in s then
      var rest := AscendingBetween(s, lo + 1, hi);
      [lo] + rest
    else AscendingBetween(s, lo + 1, hi)
  }

  /** The children of r, in ascending order: the order in which a children set is iterated. */
  function ChildList(parent: seq<nat>, children: seq<set<nat>>, r: nat): (cs: seq<nat>)
    requires ChildrenOf(parent, children) && r < |parent|
    ensures forall x :: x in cs <==> x in children[r]
    ensures forall i :: 0 <= i < |cs| ==> cs[i] in children[r]
    ensures forall i, j :: 0 <= i < j < |cs| ==> cs[i] < cs[j]
  {
    AscendingBetween(children[r], 0, |parent|)
  }

  /** Every child has a strictly smaller branch than its parent. */
  lemma ChildrenSmaller(parent: seq<nat>, children: seq<set<nat>>, r: nat)
    requires Proper(parent) && ChildrenOf(parent, children) && r < |parent|
    ensures SubtreeSize(parent, r) >= 1
    ensures forall ch :: ch in children[r] ==> ch < |parent| && SubtreeSize(parent, ch) < SubtreeSize(parent, r)
  {
    SubtreeSizeBounds(parent, r);
    forall ch | ch in children[r]
      ensures ch < |parent| && SubtreeSize(parent, ch) < SubtreeSize(parent, r)
    {
      ChildSmaller(parent, ch);
    }
  }

  /**
   The recursive branch test: x is the root or lies in the branch of one of
   the root's children.
   */
  predicate IsNodeInBranch(parent: seq<nat>, children: seq<set<nat>>, r: nat, x: nat)
    requires Proper(parent) && ChildrenOf(parent, children) && r < |parent|
    decreases SubtreeSize(parent, r)
  {
    ChildrenSmaller(parent, children, r);
    r == x || exists ch :: ch in children[r] && IsNodeInBranch(parent, children, ch, x)
  }

  /** The recursive test over the children sets agrees with the path-based branch relation. */
  lemma {:induction false} IsNodeInBranchCorrect(parent: seq<nat>, children: seq<set<nat>>, r: nat, x: nat)
    requires Proper(parent) && ChildrenOf(parent, children) && r < |parent| && x < |parent|
    ensures IsNodeInBranch(parent, children, r, x) <==> InBranch(parent, r, x)
    decreases SubtreeSize(parent, r)
  {
    ChildrenSmaller(parent, children, r);
    if r == x {
      InBranchSelf(parent, r);
    } else {
      if IsNodeInBranch(parent, children, r, x) {
        var ch :| ch in children[r] && IsNodeInBranch(parent, children, ch, x);
        IsNodeInBranchCorrect(parent, children, ch, x);
        InBranchParent(parent, ch);
        InBranchTrans(parent, r, ch, x);
      }
      if InBranch(parent, r, x) {
        var ch := ChildOnPath(parent, r, x);
        IsNodeInBranchCorrect(parent, children, ch, x);
      }
    }
  }

  /** The pre-order listing of r's branch: r, then each child's listing in ascending child order. */
  function BranchNodes(parent: seq<nat>, children: seq<set<nat>>, r: nat): (b: seq<nat>)
    requires Proper(parent) && ChildrenOf(parent, children) && r < |parent|
    ensures |b| >= 1 && b[0] == r
    ensures forall i :: 0 <= i < |b| ==> b[i] < |parent|
    decreases SubtreeSize(parent, r), 1
  {
    [r] + ForestNodes(parent, children, r, ChildList(parent, children, r))
  }

  /** The listings of the branches of some children of r, one after the other. */
  function ForestNodes(parent: seq<nat>, children: seq<set<nat>>, r: nat, chs: seq<nat>): (f: seq<nat>)
    requires Proper(parent) && ChildrenOf(parent, children) && r < |parent|
    requires forall i :: 0 <= i < |chs| ==> chs[i] in children[r]
    ensures forall i :: 0 <= i < |f| ==> f[i] < |parent|
    decreases SubtreeSize(parent, r), 0, |chs|
  {
    if chs == [] then []
    else
      ChildrenSmaller(parent, children, r);
      BranchNodes(parent, children, chs[0]) + ForestNodes(parent, children, r, chs[1..])
  }

  /** Every parent on a listing appears before its child (relative to the nodes in `before`). */
  predicate ParentsFirst(parent: seq<nat>, before: seq<nat>, s: seq<nat>)
  {
    forall i :: 0 <= i < |s| ==> s[i] < |parent| && parent[s[i]] in before + s[..i]
  }

  /** Membership in a forest listing: membership in one of the listed children's branches. */
  lemma {:induction false} ForestNodesMembers(parent: seq<nat>, children: seq<set<nat>>, r: nat, chs: seq<nat>, x: nat)
    requires Proper(parent) && ChildrenOf(parent, children) && r < |parent|
    requires forall i :: 0 <= i < |chs| ==> chs[i] in children[r]
    ensures x in ForestNodes(parent, children, r, chs) <==>
      exists i :: 0 <= i < |chs| && x in BranchNodes(parent, children, chs[i])
    decreases |chs|
  {
    if chs != [] {
      ForestNodesMembers(parent, children, r, chs[1..], x);
      if x in ForestNodes(parent, children, r, chs[1..]) {
        var i :| 0 <= i < |chs[1..]| && x in BranchNodes(parent, children, chs[1..][i]);
        assert chs[1..][i] == chs[i + 1];
      }
      if exists i :: 0 <= i < |chs| && x in BranchNodes(parent, children, chs[i]) {
        var i :| 0 <= i < |chs| && x in BranchNodes(parent, children, chs[i]);
        if i > 0 {
          assert chs[1..][i - 1] == chs[i];
        }
      }
    }
  }

  /** get_branch_nodes lists exactly the branch: the root and its descendants. */
  lemma {:induction false} BranchNodesMembers(parent: seq<nat>, children: seq<set<nat>>, r: nat, x: nat)
    requires Proper(parent) && ChildrenOf(parent, children) && r < |parent|
    ensures x in BranchNodes(parent, children, r) <==> x < |parent| && InBranch(parent, r, x)
    decreases SubtreeSize(parent, r)
  {
    ChildrenSmaller(parent, children, r);
    var chs := ChildList(parent, children, r);
    ForestNodesMembers(parent, children, r, chs, x);
    if x in BranchNodes(parent, children, r) {
      if x != r {
        var i :| 0 <= i < |chs| && x in BranchNodes(parent, children, chs[i]);
        BranchNodesMembers(parent, children, chs[i], x);
        InBranchParent(parent, chs[i]);
        InBranchTrans(parent, r, chs[i], x);
      } else {
        InBranchSelf(parent, r);
      }
    }
    if x < |parent| && InBranch(parent, r, x) && x != r {
      var ch := ChildOnPath(parent, r, x);
      assert ch in chs;
      var i :| 0 <= i < |chs| && chs[i] == ch;
      BranchNodesMembers(parent, children, ch, x);
    }
  }

  /** Two listings without repeats and without common elements concatenate without repeats. */
  lemma DistinctConcat(a: seq<nat>, b: seq<nat>)
    requires Distinct(a) && Distinct(b)
    requires forall x :: x in a ==> x !in b
    ensures Distinct(a + b)
  {
    var c := a + b;
    forall i, j | 0 <= i < j < |c|
      ensures c[i] != c[j]
    {
      if i < |a| && j >= |a| {
        assert c[i] in a && c[j] == b[j - |a|];
      }
    }
  }

  /**
   A forest listing has no repeats: each branch listing has none, and the
   branches of distinct children are disjoint.
   */
  lemma {:induction false} ForestNodesDistinct(parent: seq<nat>, children: seq<set<nat>>, r: nat, chs: seq<nat>)
    requires Proper(parent) && ChildrenOf(parent, children) && r < |parent|
    requires forall i :: 0 <= i < |chs| ==> chs[i] in children[r]
    requires forall i, j :: 0 <= i < j < |chs| ==> chs[i] != chs[j]
    ensures Distinct(ForestNodes(parent, children, r, chs))
    decreases SubtreeSize(parent, r), 0, |chs|
  {
    if chs != [] {
      ChildrenSmaller(parent, children, r);
      var ch := chs[0];
      BranchNodesDistinct(parent, children, ch);
      ForestNodesDistinct(parent, children, r, chs[1..]);
      forall x | x in BranchNodes(parent, children, ch)
        ensures x !in ForestNodes(parent, children, r, chs[1..])
      {
        BranchNodesMembers(parent, children, ch, x);
        ForestNodesMembers(parent, children, r, chs[1..], x);
        if x in ForestNodes(parent, children, r, chs[1..]) {
          var i :| 0 <= i < |chs[1..]| && x in BranchNodes(parent, children, chs[1..][i]);
          BranchNodesMembers(parent, children, chs[1..][i], x);
          assert chs[1..][i] == chs[i + 1];
          ChildOnPathUnique(parent, x, ch, chs[1..][i]);
        }
      }
      DistinctConcat(BranchNodes(parent, children, ch), ForestNodes(parent, children, r, chs[1..]));
    }
  }

  /** get_branch_nodes never lists a node twice. */
  lemma {:induction false} BranchNodesDistinct(parent: seq<nat>, children: seq<set<nat>>, r: nat)
    requires Proper(parent) && ChildrenOf(parent, children) && r < |parent|
    ensures Distinct(BranchNodes(parent, children, r))
    decreases SubtreeSize(parent, r), 1
  {
    var chs := ChildList(parent, children, r);
    ForestNodesDistinct(parent, children, r, chs);
    forall x | x in [r]
      ensures x !in ForestNodes(parent, children, r, chs)
    {
      ForestNodesMembers(parent, children, r, chs, r);
      if r in ForestNodes(parent, children, r, chs) {
        var i :| 0 <= i < |chs| && r in BranchNodes(parent, children, chs[i]);
        ChildrenSmaller(parent, children, r);
        BranchNodesMembers(parent, children, chs[i], r);
        InBranchParent(parent, chs[i]);
      }
    }
    DistinctConcat([r], ForestNodes(parent, children, r, chs));
  }

  lemma ParentsFirstConcat(parent: seq<nat>, before: seq<nat>, a: seq<nat>, b: seq<nat>)
    requires ParentsFirst(parent, before, a)
    requires ParentsFirst(parent, before + a, b)
    ensures ParentsFirst(parent, before, a + b)
  {
    var c := a + b;
    forall i | 0 <= i < |c|
      ensures c[i] < |parent| && parent[c[i]] in before + c[..i]
    {
      if i < |a| {
        assert c[..i] == a[..i];
      } else {
        assert c[i] == b[i - |a|];
        assert before + c[..i] == (before + a) + b[..i - |a|];
      }
    }
  }

  lemma ParentsFirstWiden(parent: seq<nat>, before: seq<nat>, more: seq<nat>, s: seq<nat>)
    requires ParentsFirst(parent, before, s)
    ensures ParentsFirst(parent, before + more, s) && ParentsFirst(parent, more + before, s)
  {
    forall i | 0 <= i < |s|
      ensures parent[s[i]] in before + more + s[..i] && parent[s[i]] in more + before + s[..i]
    {
    }
  }

  /** In a forest listing under r, every node's parent is r or listed earlier. */
  lemma {:induction false} ForestNodesParentsFirst(parent: seq<nat>, children: seq<set<nat>>, r: nat, chs: seq<nat>)
    requires Proper(parent) && ChildrenOf(parent, children) && r < |parent|
    requires forall i :: 0 <= i < |chs| ==> chs[i] in children[r]
    ensures ParentsFirst(parent, [r], ForestNodes(parent, children, r, chs))
    decreases SubtreeSize(parent, r), 0, |chs|
  {
    if chs != [] {
      ChildrenSmaller(parent, children, r);
      var ch := chs[0];
      var b := BranchNodes(parent, children, ch);
      BranchNodesParentsFirst(parent, children, ch);
      assert ParentsFirst(parent, [r], b) by {
        forall i | 0 <= i < |b|
          ensures b[i] < |parent| && parent[b[i]] in [r] + b[..i]
        {
          if i > 0 {
            assert b[1..][i - 1] == b[i] && [ch] + b[1..][..i - 1] == b[..i];
          }
        }
      }
      ForestNodesParentsFirst(parent, children, r, chs[1..]);
      ParentsFirstWiden(parent, [r], b, ForestNodes(parent, children, r, chs[1..]));
      ParentsFirstConcat(parent, [r], b, ForestNodes(parent, children, r, chs[1..]));
    }
  }

  /** get_branch_nodes is a pre-order: every listed node after the root has its parent listed earlier. */
  lemma BranchNodesParentsFirst(parent: seq<nat>, children: seq<set<nat>>, r: nat)
    requires Proper(parent) && ChildrenOf(parent, children) && r < |parent|
    ensures ParentsFirst(parent, [r], BranchNodes(parent, children, r)[1..])
    decreases SubtreeSize(parent, r), 0
  {
    var f := ForestNodes(parent, children, r, ChildList(parent, children, r));
    ForestNodesParentsFirst(parent, children, r, ChildList(parent, children, r));
    assert BranchNodes(parent, children, r)[1..] == f;
  }

  /**
   The cut_branch traversal: for each child of the current node, the edge
   (child, node) and then, recursively, the child's own edges.
   */
  function CutBranch(parent: seq<nat>, children: seq<set<nat>>, r: nat): seq<(nat, nat)>
    requires Proper(parent) && ChildrenOf(parent, children) && r < |parent|
    decreases SubtreeSize(parent, r), 1
  {
    CutForest(parent, children, r, ChildList(parent, children, r))
  }

  function CutForest(parent: seq<nat>, children: seq<set<nat>>, r: nat, chs: seq<nat>): seq<(nat, nat)>
    requires Proper(parent) && ChildrenOf(parent, children) && r < |parent|
    requires forall i :: 0 <= i < |chs| ==> chs[i] in children[r]
    decreases SubtreeSize(parent, r), 0, |chs|
  {
    if chs == [] then []
    else
      ChildrenSmaller(parent, children, r);
      [(chs[0], r)] + CutBranch(parent, children, chs[0]) + CutForest(parent, children, r, chs[1..])
  }

  /** The (node, parent) edge of every node of a listing. */
  function EdgesOf(parent: seq<nat>, s: seq<nat>): (e: seq<(nat, nat)>)
    requires forall i :: 0 <= i < |s| ==> s[i] < |parent|
    ensures |e| == |s| && forall i :: 0 <= i < |s| ==> e[i] == (s[i], parent[s[i]])
  {
    seq(|s|, (i: int) requires 0 <= i < |s| => (s[i], parent[s[i]]))
  }

  lemma EdgesOfConcat(parent: seq<nat>, a: seq<nat>, b: seq<nat>)
    requires forall i :: 0 <= i < |a| ==> a[i] < |parent|
    requires forall i :: 0 <= i < |b| ==> b[i] < |parent|
    ensures EdgesOf(parent, a + b) == EdgesOf(parent, a) + EdgesOf(parent, b)
  {
    var c := a + b;
    assert forall i :: 0 <= i < |c| ==> c[i] < |parent|;
  }

  lemma {:induction false} CutForestEdges(parent: seq<nat>, children: seq<set<nat>>, r: nat, chs: seq<nat>)
    requires Proper(parent) && ChildrenOf(parent, children) && r < |parent|
    requires forall i :: 0 <= i < |chs| ==> chs[i] in children[r]
    ensures CutForest(parent, children, r, chs) == EdgesOf(parent, ForestNodes(parent, children, r, chs))
    decreases SubtreeSize(parent, r), 0, |chs|
  {
    if chs != [] {
      ChildrenSmaller(parent, children, r);
      var ch := chs[0];
      var b := BranchNodes(parent, children, ch);
      var g := ForestNodes(parent, children, r, chs[1..]);
      assert ForestNodes(parent, children, r, chs) == b + g;
      CutBranchEdges(parent, children, ch);
      CutForestEdges(parent, children, r, chs[1..]);
      EdgesOfConcat(parent, b, g);
      EdgesOfConcat(parent, [ch], b[1..]);
      assert [ch] + b[1..] == b;
      assert EdgesOf(parent, [ch]) == [(ch, r)];
    }
  }

  /**
   cut_branch lists the edge (x, parent[x]) of every proper descendant x of
   r, in the pre-order of get_branch_nodes.
   */
  lemma CutBranchEdges(parent: seq<nat>, children: seq<set<nat>>, r: nat)
    requires Proper(parent) && ChildrenOf(parent, children) && r < |parent|
    ensures CutBranch(parent, children, r) == EdgesOf(parent, BranchNodes(parent, children, r)[1..])
    decreases SubtreeSize(parent, r), 0
  {
    CutForestEdges(parent, children, r, ChildList(parent, children, r));
    assert BranchNodes(parent, children, r)[1..] == ForestNodes(parent, children, r, ChildList(parent, children, r));
  }
}

=== FILE: construction.dfy ===
/**
 The construction heuristics of src/tools.py: prim, the greedy spanning
 tree that lists child-to-parent edges; the sort of a group of turbines by
 distance to the substation; the partition of turbines 1..n into angular
 groups of at most `tpg` turbines (_sweep_groups); and sweep, which joins
 one prim tree per group to the substation.
 */
module Construction {
  import opened Tree
  import opened Reattach
  import opened Branches
  import opened Sorting
  import opened Instance
  import opened Solution
  import opened Plasmids

  /** The starting value of prim's running minimum: every distance is below it. */
  const Sentinel: int := 1_000_000_000_000_000_000

  /** distance[a][b], or 0 outside the table. */
  function Dist(distance: seq<seq<int>>, a: nat, b: nat): int
  {
    if a < |distance| && b < |distance[a]| then distance[a][b] else 0
  }

  /** The set of the listed nodes. */
  function Members(nodes: seq<nat>): set<nat>
  {
    set x | x in nodes
  }

  /** A list has at least as many entries as distinct values. */
  lemma {:induction false} MembersCard(nodes: seq<nat>)
    ensures |Members(nodes)| <= |nodes|
  {
    if nodes != [] {
      var rest := nodes[1..];
      MembersCard(rest);
      assert Members(nodes) == Members(rest) + {nodes[0]};
    }
  }

  // ---------------------------------------------------------------------
  // Grown edge lists

  /** The root followed by the child of each edge: the order in which the tree takes in its nodes. */
  function Order(root: nat, edges: seq<(nat, nat)>): (t: seq<nat>)
    ensures |t| == |edges| + 1 && t[0] == root
    ensures forall k :: 0 <= k < |edges| ==> t[k + 1] == edges[k].0
  {
    [root] + seq(|edges|, (k: int) requires 0 <= k < |edges| => edges[k].0)
  }

  /**
   Each edge hangs a node not yet in the tree under a node already in it:
   the edges, in order, grow one tree from `root`.
   */
  predicate Grown(root: nat, edges: seq<(nat, nat)>)
  {
    forall k {:trigger Order(root, edges[..k])} :: 0 <= k < |edges| ==>
      edges[k].0 !in Order(root, edges[..k]) && edges[k].1 in Order(root, edges[..k])
  }

  /** The nodes taken in by an earlier point of the list are a prefix of those taken in later. */
  lemma OrderPrefix(root: nat, edges: seq<(nat, nat)>, j: nat, k: nat)
    requires j <= k <= |edges|
    ensures Order(root, edges[..j]) == Order(root, edges[..k])[..j + 1]
  {
    var a := Order(root, edges[..j]);
    var b := Order(root, edges[..k]);
    forall i | 1 <= i <= j
      ensures a[i] == b[i]
    {
      assert edges[..j][i - 1] == edges[i - 1] == edges[..k][i - 1];
    }
  }

  /** In a grown list a new child is neither the root, nor an earlier child, nor an earlier parent. */
  lemma GrownLeaf(root: nat, edges: seq<(nat, nat)>, k: nat)
    requires Grown(root, edges) && k < |edges|
    ensures edges[k].0 != root && edges[k].1 != edges[k].0
    ensures forall j :: 0 <= j < k ==> edges[j].0 != edges[k].0 && edges[j].1 != edges[k].0
  {
    var t := Order(root, edges[..k]);
    assert t[0] == root;
    forall j | 0 <= j < k
      ensures edges[j].0 != edges[k].0 && edges[j].1 != edges[k].0
    {
      assert t[j + 1] == edges[..k][j].0 && edges[..k][j] == edges[j];
      OrderPrefix(root, edges, j, k);
      assert edges[j].1 in Order(root, edges[..j]);
    }
  }

  /** A node no entry points to is never met on a walk that starts elsewhere. */
  lemma {:induction false} WalkAvoids(q: seq<nat>, a: nat, x: nat, fuel: nat)
    requires forall v :: 0 <= v < |q| ==> q[v] != a
    requires x != a
    ensures a !in Walk(q, x, fuel)
    decreases fuel
  {
    if x != 0 && fuel != 0 && x < |q| {
      WalkAvoids(q, a, q[x], fuel - 1);
    }
  }

  /**
   A list grown from the substation is a legal donor list from the star,
   and replayed from the star it builds a proper tree: each new child is a
   leaf of the tree so far, so it never lies above its new parent.
   */
  lemma GrownLegal(n: nat, edges: seq<(nat, nat)>)
    requires n >= 1 && Grown(0, edges)
    requires forall k :: 0 <= k < |edges| ==> edges[k].0 < n && edges[k].1 < n
    ensures LegalSequence(Star(n), edges)
    ensures Proper(ApplyEdges(Star(n), edges))
  {
    forall l | 0 <= l < |edges|
      ensures edges[l].0 != 0 && edges[l].1 != edges[l].0
      ensures forall j :: 0 <= j < l ==> edges[j].0 != edges[l].0 && edges[j].1 != edges[l].0
    {
      GrownLeaf(0, edges, l);
    }
    forall k | 0 <= k < |edges|
      ensures LegalMove(ApplyEdges(Star(n), edges[..k]), edges[k].0, edges[k].1)
    {
      GrownStep(n, edges, k);
    }
    StarProper(n);
    LegalSequenceProper(Star(n), edges);
  }

  /** A list whose child ends are pairwise distinct holds each edge at most once. */
  lemma {:induction false} DistinctChildrenOnce(edges: seq<(nat, nat)>)
    requires forall k, l :: 0 <= k < l < |edges| ==> edges[k].0 != edges[l].0
    ensures forall e :: multiset(edges)[e] <= 1
    decreases |edges|
  {
    if edges != [] {
      var front := edges[..|edges| - 1];
      var last := edges[|edges| - 1];
      assert edges == front + [last];
      assert forall k :: 0 <= k < |front| ==> front[k] == edges[k];
      DistinctChildrenOnce(front);
      assert last !in front;
    }
  }

  /** Two equal entries at different places make their value occur twice. */
  lemma RepeatedTwice(s: seq<(nat, nat)>, k: nat, l: nat)
    requires k < l < |s| && s[k] == s[l]
    ensures multiset(s)[s[k]] >= 2
  {
    assert s == s[..l] + s[l..];
    assert s[k] in s[..l];
    assert s[l] in s[l..];
  }

  /**
   A host list of initialize_host_repository: prim grown from node r (the
   substation or a turbine), then sorted.  When no edge takes the substation in as a child, the
   grown tree replayed on the star is a proper tree and the sorted list
   hangs turbines under their parents in it, so it is a legal donor list.
   */
  lemma HostListLegal(n: nat, r: nat, edges: seq<(nat, nat)>, host: seq<(nat, nat)>)
    requires r < n && Grown(r, edges) && EdgesInRange(edges, n)
    requires forall k :: 0 <= k < |edges| ==> edges[k].0 != 0
    requires multiset(host) == multiset(edges)
    ensures Proper(ApplyEdges(Star(n), edges))
    ensures SubForest(ApplyEdges(Star(n), edges), host)
    ensures LegalSequence(Star(n), host)
  {
    forall l | 0 <= l < |edges|
      ensures edges[l].1 != edges[l].0
      ensures forall j :: 0 <= j < l ==> edges[j].0 != edges[l].0 && edges[j].1 != edges[l].0
    {
      GrownLeaf(r, edges, l);
    }
    forall k | 0 <= k < |edges|
      ensures LegalMove(ApplyEdges(Star(n), edges[..k]), edges[k].0, edges[k].1)
    {
      GrownStep(n, edges, k);
    }
    StarProper(n);
    LegalSequenceProper(Star(n), edges);
    var forest := ApplyEdges(Star(n), edges);
    forall k | 0 <= k < |host|
      ensures 1 <= host[k].0 < n && host[k].1 == forest[host[k].0]
    {
      assert host[k] in multiset(edges);
      var i :| 0 <= i < |edges| && edges[i] == host[k];
      ApplyEdgesAt(Star(n), edges, edges[i].0);
    }
    DistinctChildrenOnce(edges);
    forall k, l | 0 <= k < l < |host|
      ensures host[k].0 != host[l].0
    {
      if host[k].0 == host[l].0 {
        assert host[k] in multiset(edges) && host[l] in multiset(edges);
        var i :| 0 <= i < |edges| && edges[i] == host[k];
        var j :| 0 <= j < |edges| && edges[j] == host[l];
        assert i == j;
        RepeatedTwice(host, k, l);
        assert false;
      }
    }
    SubForestLegal(forest, host);
  }

  /** Before edge k is applied, nothing points to its child yet. */
  lemma GrownStep(n: nat, edges: seq<(nat, nat)>, k: nat)
    requires n >= 1 && k < |edges| && edges[k].0 < n && edges[k].1 < n
    requires edges[k].0 != 0 && edges[k].1 != edges[k].0
    requires forall j :: 0 <= j < k ==> edges[j].0 != edges[k].0 && edges[j].1 != edges[k].0
    requires forall j, l :: 0 <= j < l < k ==> edges[j].0 != edges[l].0
    ensures LegalMove(ApplyEdges(Star(n), edges[..k]), edges[k].0, edges[k].1)
  {
    var front := edges[..k];
    var q := ApplyEdges(Star(n), front);
    var c := edges[k].0;
    forall v | 0 <= v < n
      ensures q[v] != c
    {
      ApplyEdgesAt(Star(n), front, v);
      if j :| 0 <= j < |front| && front[j].0 == v {
        assert front[j] == edges[j];
      }
    }
    WalkAvoids(q, c, edges[k].1, n);
  }

  // ---------------------------------------------------------------------
  // prim

  /** The scan visits tree node i against fringe node x before tree node im against f. */
  predicate Earlier(i: nat, x: nat, im: nat, f: nat)
  {
    i < im || (i == im && x < f)
  }

  /**
   Tree node t[im] and fringe node f are at minimum distance among the
   pairs of a tree node and a listed node outside the tree, and every pair
   the scan meets earlier is strictly farther: the first minimum wins.
   */
  ghost predicate First(distance: seq<seq<int>>, nodes: seq<nat>, t: seq<nat>, im: nat, f: nat)
  {
    && im < |t| && f in nodes && f !in t
    && forall i, x :: 0 <= i < |t| && x in nodes && x !in t ==>
         && Dist(distance, t[im], f) <= Dist(distance, t[i], x)
         && (Earlier(i, x, im, f) ==> Dist(distance, t[im], f) < Dist(distance, t[i], x))
  }

  /** The scan has covered every pair before (i, x) and kept the first minimum among them. */
  ghost predicate Scanned(distance: seq<seq<int>>, t: seq<nat>, fringe: set<nat>,
                          i: nat, x: nat, found: bool, best: int, im: nat, f: nat)
  {
    && (found ==> im < |t| && f in fringe && Earlier(im, f, i, x) && best == Dist(distance, t[im], f))
    && (!found ==> best == Sentinel)
    && forall i': nat, x': nat :: 0 <= i' < |t| && x' in fringe && Earlier(i', x', i, x) ==>
         && best <= Dist(distance, t[i'], x')
         && (Earlier(i', x', im, f) ==> best < Dist(distance, t[i'], x'))
  }

  /** Finishing a row of the scan is starting the next one. */
  lemma ScannedRow(distance: seq<seq<int>>, t: seq<nat>, fringe: set<nat>,
                   i: nat, found: bool, best: int, im: nat, f: nat)
    requires forall x :: x in fringe ==> x < |distance|
    requires Scanned(distance, t, fringe, i, |distance|, found, best, im, f)
    ensures Scanned(distance, t, fringe, i + 1, 0, found, best, im, f)
  {
    forall i': nat, x': nat | 0 <= i' < |t| && x' in fringe && Earlier(i', x', i + 1, 0)
      ensures best <= Dist(distance, t[i'], x') && (Earlier(i', x', im, f) ==> best < Dist(distance, t[i'], x'))
    {
      assert Earlier(i', x', i, |distance|);
    }
  }

  /** Scan tree node t[i] against the fringe in ascending order, keeping strictly closer pairs. */
  method ScanRow(distance: seq<seq<int>>, t: seq<nat>, fringe: set<nat>,
                 i: nat, found: bool, best: int, im: nat, f: nat)
    returns (found': bool, best': int, im': nat, f': nat)
    requires i < |t|
    requires forall x :: x in fringe ==> Dist(distance, t[i], x) < Sentinel
    requires Scanned(distance, t, fringe, i, 0, found, best, im, f)
    ensures Scanned(distance, t, fringe, i, |distance|, found', best', im', f')
  {
    found', best', im', f' := found, best, im, f;
    var x := 0;
    while x < |distance|
      invariant 0 <= x <= |distance|
      invariant Scanned(distance, t, fringe, i, x, found', best', im', f')
    {
      if x in fringe && Dist(distance, t[i], x) < best' {
        im', f', best', found' := i, x, Dist(distance, t[i], x), true;
      }
      x := x + 1;
    }
  }

  /**
   One step of prim: scan the tree nodes in tree order and the fringe in
   ascending order, keeping a pair only when it is strictly closer than the
   best so far.
   */
  method Closest(distance: seq<seq<int>>, nodes: seq<nat>, t: seq<nat>, fringe: set<nat>) returns (im: nat, f: nat)
    requires |t| >= 1 && fringe != {}
    requires forall x :: x in fringe <==> x in nodes && x !in t
    requires forall x :: x in fringe ==> x < |distance|
    requires forall i, x :: 0 <= i < |t| && x in fringe ==> Dist(distance, t[i], x) < Sentinel
    ensures First(distance, nodes, t, im, f)
  {
    var best := Sentinel;
    var found := false;
    im, f := 0, 0;
    var i := 0;
    while i < |t|
      invariant 0 <= i <= |t|
      invariant Scanned(distance, t, fringe, i, 0, found, best, im, f)
    {
      found, best, im, f := ScanRow(distance, t, fringe, i, found, best, im, f);
      ScannedRow(distance, t, fringe, i, found, best, im, f);
      i := i + 1;
    }
    var x0 :| x0 in fringe;
    assert Earlier(0, x0, |t|, 0);
  }

  /** Edge e is the pair a prim step picks after the edges of `prefix`. */
  ghost predicate PrimChoice(nodes: seq<nat>, distance: seq<seq<int>>, start: nat, prefix: seq<(nat, nat)>, e: (nat, nat))
  {
    exists im :: 0 <= im <= |prefix| && Order(start, prefix)[im] == e.1 && First(distance, nodes, Order(start, prefix), im, e.0)
  }

  /** Every edge was picked by a prim step over the tree and fringe of its time. */
  ghost predicate Greedy(nodes: seq<nat>, distance: seq<seq<int>>, start: nat, edges: seq<(nat, nat)>)
  {
    forall k :: 0 <= k < |edges| ==> PrimChoice(nodes, distance, start, edges[..k], edges[k])
  }

  /**
   prim: grow a tree from `start` over `nodes`, one closest fringe node at
   a time, until `size` nodes are in (all of them when size is negative).
   */
  method Prim(nodes: seq<nat>, distance: seq<seq<int>>, start: nat, size: int) returns (edges: seq<(nat, nat)>)
    requires start in nodes
    requires forall x :: x in nodes ==> x < |distance|
    requires forall a, b :: a in nodes && b in nodes ==> Dist(distance, a, b) < Sentinel
    ensures size < 0 ==> |edges| == |Members(nodes)| - 1
    ensures size >= 1 ==> |edges| == Min(size, |Members(nodes)|) - 1
    ensures size == 0 ==> edges == []
    ensures Grown(start, edges)
    ensures forall k :: 0 <= k < |edges| ==> edges[k].0 in nodes && edges[k].1 in nodes
    ensures Greedy(nodes, distance, start, edges)
    ensures size < 0 ==> forall x :: x in nodes ==> x in Order(start, edges)
  {
    var sz := if size < 0 then |nodes| else size;
    var t := [start];
    var fringe := Members(nodes) - {start};
    edges := [];
    MembersCard(nodes);
    while |fringe| > 0 && |t| < sz
      invariant PrimState(nodes, distance, start, edges, t, fringe)
      invariant |t| == 1 || |t| <= sz
      decreases |fringe|
    {
      edges, t, fringe := PrimGrow(nodes, distance, start, edges, t, fringe);
    }
    if size < 0 {
      assert fringe == {};
    }
  }

  /** The loop state of prim: the tree list, the fringe, and the edges so far. */
  ghost predicate PrimState(nodes: seq<nat>, distance: seq<seq<int>>, start: nat,
                            edges: seq<(nat, nat)>, t: seq<nat>, fringe: set<nat>)
  {
    && t == Order(start, edges)
    && (forall x :: x in fringe <==> x in nodes && x !in t)
    && (forall i :: 0 <= i < |t| ==> t[i] in nodes)
    && |fringe| + |t| == |Members(nodes)|
    && Grown(start, edges) && Greedy(nodes, distance, start, edges)
    && (forall k :: 0 <= k < |edges| ==> edges[k].0 in nodes && edges[k].1 in nodes)
  }

  /** One round of prim's loop: take in the closest fringe node. */
  method PrimGrow(nodes: seq<nat>, distance: seq<seq<int>>, start: nat,
                  edges: seq<(nat, nat)>, t: seq<nat>, fringe: set<nat>)
    returns (edges': seq<(nat, nat)>, t': seq<nat>, fringe': set<nat>)
    requires forall x :: x in nodes ==> x < |distance|
    requires forall a, b :: a in nodes && b in nodes ==> Dist(distance, a, b) < Sentinel
    requires PrimState(nodes, distance, start, edges, t, fringe) && fringe != {}
    ensures PrimState(nodes, distance, start, edges', t', fringe')
    ensures |t'| == |t| + 1 && |fringe'| == |fringe| - 1
  {
    var im, f := Closest(distance, nodes, t, fringe);
    PrimStep(nodes, distance, start, edges, im, f);
    edges' := edges + [(f, t[im])];
    fringe' := fringe - {f};
    t' := t + [f];
  }

  /** Appending the picked pair keeps the edge list grown and greedy. */
  lemma PrimStep(nodes: seq<nat>, distance: seq<seq<int>>, start: nat, edges: seq<(nat, nat)>, im: nat, f: nat)
    requires Grown(start, edges) && Greedy(nodes, distance, start, edges)
    requires First(distance, nodes, Order(start, edges), im, f)
    ensures Grown(start, edges + [(f, Order(start, edges)[im])])
    ensures Greedy(nodes, distance, start, edges + [(f, Order(start, edges)[im])])
  {
    var e := edges + [(f, Order(start, edges)[im])];
    assert e[..|edges|] == edges;
    forall k | 0 <= k < |edges|
      ensures e[..k] == edges[..k] && e[k] == edges[k]
    {
    }
  }

  // ---------------------------------------------------------------------
  // Sorting a group by distance to the substation

  /** Turbine a is no farther from the substation than turbine b. */
  function NearerOrEqual(distance: seq<seq<int>>): (nat, nat) -> bool
  {
    (a: nat, b: nat) => Dist(distance, a, 0) <= Dist(distance, b, 0)
  }

  /**
   _sort_turbines_by_distance_to_substation: the group's turbines in a
   stable order of their distance to node 0.  Turbines at the same
   distance keep their order in the group (their Ties are unchanged), which
   decides which of equidistant turbines becomes the group's root.
   */
  function SortByDistance(turbines: seq<nat>, distance: seq<seq<int>>): (r: seq<nat>)
    ensures multiset(r) == multiset(turbines) && |r| == |turbines|
    ensures forall i, j :: 0 <= i < j < |r| ==> Dist(distance, r[i], 0) <= Dist(distance, r[j], 0)
    ensures forall a :: Ties(r, NearerOrEqual(distance), a) == Ties(turbines, NearerOrEqual(distance), a)
  {
    var le := NearerOrEqual(distance);
    assert TotalPreorder(le);
    assert forall a :: Ties(Sort(turbines, le), le, a) == Ties(turbines, le, a) by {
      forall a {
        SortStable(turbines, le, a);
      }
    }
    Sort(turbines, le)
  }

  // ---------------------------------------------------------------------
  // Sweep groups

  /** The groups' members, group after group. */
  function Flatten<T>(groups: seq<seq<T>>): seq<T>
    decreases |groups|
  {
    if groups == [] then [] else Flatten(groups[..|groups| - 1]) + groups[|groups| - 1]
  }

  lemma {:induction false} FlattenAppend<T>(a: seq<seq<T>>, b: seq<seq<T>>)
    ensures Flatten(a + b) == Flatten(a) + Flatten(b)
    decreases |b|
  {
    if b == [] {
      assert a + b == a;
    } else {
      var b' := b[..|b| - 1];
      assert (a + b)[..|a + b| - 1] == a + b';
      FlattenAppend(a, b');
      calc {
        Flatten(a + b);
        Flatten(a + b') + b[|b| - 1];
        Flatten(a) + Flatten(b') + b[|b| - 1];
      }
    }
  }

  /** A turbine is among the flattened groups exactly when some group holds it. */
  lemma {:induction false} FlattenMember(groups: seq<seq<nat>>, v: nat)
    ensures v in Flatten(groups) <==> exists g :: 0 <= g < |groups| && v in groups[g]
    decreases |groups|
  {
    if groups != [] {
      var front := groups[..|groups| - 1];
      FlattenMember(front, v);
      assert forall g :: 0 <= g < |front| ==> front[g] == groups[g];
    }
  }

  /** The turbines lo, lo + 1, ..., hi - 1. */
  function Up(lo: nat, hi: nat): (r: seq<nat>)
    requires lo <= hi
    ensures |r| == hi - lo && forall k :: 0 <= k < |r| ==> r[k] == lo + k
    ensures Steps(r, 1)
  {
    seq(hi - lo, (k: int) requires 0 <= k => (lo + k) as nat)
  }

  /** The turbines hi, hi - 1, ..., lo + 1. */
  function Down(hi: nat, lo: nat): (r: seq<nat>)
    requires lo <= hi
    ensures |r| == hi - lo && forall k :: 0 <= k < |r| ==> r[k] == hi - k
    ensures Steps(r, -1)
  {
    seq(hi - lo, (k: int) requires 0 <= k < hi - lo => (hi - k) as nat)
  }

  /** Each element is the previous one plus d. */
  predicate Steps(s: seq<nat>, d: int)
  {
    forall m :: 0 <= m < |s| - 1 ==> s[m + 1] == s[m] + d
  }

  /**
   The order in which _sweep_groups meets the turbines: from the starting
   turbine up to n and then 1 up to it when clockwise; from the starting
   turbine down to 1 and then n down to it otherwise.
   */
  function Visit(n: nat, start: nat, clockwise: bool): seq<nat>
    requires 1 <= start <= n
  {
    if clockwise then Up(start, n + 1) + Up(1, start) else Down(start, 0) + Down(n, start)
  }

  /** The sweep order meets every turbine 1..n exactly once. */
  lemma VisitPermutation(n: nat, start: nat, clockwise: bool)
    requires 1 <= start <= n
    ensures |Visit(n, start, clockwise)| == n
    ensures Distinct(Visit(n, start, clockwise))
    ensures forall v :: v in Visit(n, start, clockwise) <==> 1 <= v <= n
  {
    var a := if clockwise then Up(start, n + 1) else Down(start, 0);
    var b := if clockwise then Up(1, start) else Down(n, start);
    var w := Visit(n, start, clockwise);
    assert w == a + b;
    forall v | 1 <= v <= n
      ensures v in w
    {
      if clockwise {
        if v >= start { assert a[v - start] == v; } else { assert b[v - 1] == v; }
      } else {
        if v <= start { assert a[start - v] == v; } else { assert b[n - v] == v; }
      }
    }
    forall i, j | 0 <= i < j < |w|
      ensures w[i] != w[j]
    {
      if clockwise {
        if i < |a| && j >= |a| { assert w[i] >= start > w[j]; }
      } else {
        if i < |a| && j >= |a| { assert w[i] <= start < w[j]; }
      }
    }
  }

  /**
   The inner loop of _sweep_groups: take turbines of `run` from position p
   into the current group while it has room (j < tpg) and the run lasts.
   */
  method FillGroup(run: seq<nat>, p: nat, j: nat, tpg: nat) returns (group: seq<nat>, p': nat, j': nat)
    requires p <= |run| && j <= tpg
    ensures p <= p' <= |run| && group == run[p..p'] && j' == j + |group| && j' <= tpg
    ensures p' == |run| || j' == tpg
  {
    group, p', j' := [], p, j;
    while j' < tpg && p' < |run|
      invariant p <= p' <= |run| && group == run[p..p'] && j' == j + |group| && j' <= tpg
    {
      assert run[p..p' + 1] == run[p..p'] + [run[p']];
      group := group + [run[p']];
      p' := p' + 1;
      j' := j' + 1;
    }
  }

  /** Where a new group's count starts: the carried j for the first group of a phase, 0 afterwards. */
  function Carry(first: nat, j: nat, g: nat): nat
  {
    if g == first then j else 0
  }

  /**
   `all` extends `groups` by groups each non-empty, consecutive by d, and
   with at most tpg members counting the carry; all but the last are full.
   */
  ghost predicate Chunked(groups: seq<seq<nat>>, j: nat, tpg: nat, d: int, all: seq<seq<nat>>)
  {
    && |all| >= |groups| && all[..|groups|] == groups
    && forall g :: |groups| <= g < |all| ==>
         && 1 <= |all[g]| && |all[g]| + Carry(|groups|, j, g) <= tpg
         && Steps(all[g], d)
         && (g < |all| - 1 ==> |all[g]| + Carry(|groups|, j, g) == tpg)
  }

  /**
   One phase of _sweep_groups: open a group, fill it, reduce j modulo tpg,
   until the run is used up.  j carries over from the previous phase.
   */
  method Fill(groups: seq<seq<nat>>, j: nat, run: seq<nat>, tpg: nat, ghost d: int)
    returns (groups': seq<seq<nat>>, j': nat)
    requires 1 <= tpg && j < tpg && Steps(run, d)
    ensures Flatten(groups') == Flatten(groups) + run
    ensures Chunked(groups, j, tpg, d, groups')
    ensures j' < tpg
    ensures |groups'| == |groups| ==> run == [] && j' == j
    ensures |groups'| > |groups| ==>
      var c := Carry(|groups|, j, |groups'| - 1) + |groups'[|groups'| - 1]|;
      j' == if c == tpg then 0 else c
  {
    groups', j' := groups, j;
    var p := 0;
    while p < |run|
      invariant FillState(groups, j, run, tpg, d, groups', j', p)
      decreases |run| - p
    {
      groups', j', p := FillOnce(groups, j, run, tpg, d, groups', j', p);
    }
    assert run[..|run|] == run;
  }

  /** The invariant of the phase loop, after the first p turbines of the run. */
  ghost predicate FillState(groups: seq<seq<nat>>, j: nat, run: seq<nat>, tpg: nat, d: int,
                            all: seq<seq<nat>>, j': nat, p: nat)
  {
    && 1 <= tpg && j < tpg && Steps(run, d)
    && 0 <= p <= |run| && j' < tpg
    && Flatten(all) == Flatten(groups) + run[..p]
    && Chunked(groups, j, tpg, d, all)
    && (|all| == |groups| ==> p == 0 && j' == j)
    && (|all| > |groups| ==>
          var c := Carry(|groups|, j, |all| - 1) + |all[|all| - 1]|;
          j' == if c == tpg then 0 else c)
    && (p < |run| && |all| > |groups| ==> Carry(|groups|, j, |all| - 1) + |all[|all| - 1]| == tpg)
    && (p < |run| ==> j' == Carry(|groups|, j, |all|))
  }

  /** One round of the phase loop: open a group and fill it from position p. */
  method FillOnce(groups: seq<seq<nat>>, j: nat, run: seq<nat>, tpg: nat, ghost d: int,
                  all: seq<seq<nat>>, j': nat, p: nat)
    returns (all': seq<seq<nat>>, j'': nat, p': nat)
    requires FillState(groups, j, run, tpg, d, all, j', p) && p < |run|
    ensures FillState(groups, j, run, tpg, d, all', j'', p') && p < p'
  {
    var group, jj;
    group, p', jj := FillGroup(run, p, j', tpg);
    FillStep(groups, j, tpg, d, all, run, p, p', group);
    FillFlatten(groups, all, run, p, p');
    all' := all + [group];
    ModSmall(jj, tpg);
    j'' := jj % tpg;
  }

  /** j %= tpg on a count that never exceeds tpg. */
  lemma ModSmall(x: nat, m: nat)
    requires 1 <= m && x <= m
    ensures x % m == if x == m then 0 else x
  {
  }

  /** Appending a freshly filled group keeps the groups chunked. */
  lemma FillStep(groups: seq<seq<nat>>, j: nat, tpg: nat, d: int, all: seq<seq<nat>>,
                 run: seq<nat>, p: nat, p': nat, group: seq<nat>)
    requires Steps(run, d) && p < p' <= |run| && group == run[p..p']
    requires Chunked(groups, j, tpg, d, all)
    requires |group| + Carry(|groups|, j, |all|) <= tpg
    requires |all| > |groups| ==> |all[|all| - 1]| + Carry(|groups|, j, |all| - 1) == tpg
    ensures Chunked(groups, j, tpg, d, all + [group])
  {
    var all' := all + [group];
    assert all'[..|all|] == all;
    assert Steps(group, d) by {
      forall m | 0 <= m < |group| - 1
        ensures group[m + 1] == group[m] + d
      {
        assert group[m] == run[p + m] && group[m + 1] == run[p + m + 1];
      }
    }
    forall g | |groups| <= g < |all'|
      ensures 1 <= |all'[g]| && |all'[g]| + Carry(|groups|, j, g) <= tpg
      ensures Steps(all'[g], d)
      ensures g < |all'| - 1 ==> |all'[g]| + Carry(|groups|, j, g) == tpg
    {
      if g < |all| {
        assert all'[g] == all[g];
      }
    }
  }

  /** Appending the group run[p..p'] extends the flattening from run[..p] to run[..p']. */
  lemma FillFlatten(groups: seq<seq<nat>>, all: seq<seq<nat>>, run: seq<nat>, p: nat, p': nat)
    requires p <= p' <= |run|
    requires Flatten(all) == Flatten(groups) + run[..p]
    ensures Flatten(all + [run[p..p']]) == Flatten(groups) + run[..p']
  {
    assert (all + [run[p..p']])[..|all|] == all;
    assert run[..p'] == run[..p] + run[p..p'];
  }

  /** Every group is non-empty, holds at most tpg turbines, and runs consecutively by d. */
  predicate Bounded(groups: seq<seq<nat>>, tpg: nat, d: int)
  {
    forall g :: 0 <= g < |groups| ==> 1 <= |groups[g]| <= tpg && Steps(groups[g], d)
  }

  /** Groups added by a phase keep the whole list bounded. */
  lemma ChunkedBounded(groups: seq<seq<nat>>, j: nat, tpg: nat, d: int, all: seq<seq<nat>>)
    requires Bounded(groups, tpg, d) && Chunked(groups, j, tpg, d, all)
    ensures Bounded(all, tpg, d)
  {
    forall g | 0 <= g < |all|
      ensures 1 <= |all[g]| <= tpg && Steps(all[g], d)
    {
      if g < |groups| {
        assert all[g] == all[..|groups|][g];
      }
    }
  }

  /** Rotating a distinct sequence keeps it distinct and keeps its members. */
  lemma RotateDistinct(w: seq<nat>, c: nat)
    requires Distinct(w) && c <= |w|
    ensures Distinct(w[c..] + w[..c])
    ensures forall v :: v in w[c..] + w[..c] <==> v in w
  {
    var rot := w[c..] + w[..c];
    assert forall k :: 0 <= k < |rot| ==> rot[k] == w[if k < |w| - c then k + c else k - (|w| - c)];
    forall v | v in w
      ensures v in rot
    {
      var k :| 0 <= k < |w| && w[k] == v;
      if k >= c { assert rot[k - c] == v; } else { assert rot[k + |w| - c] == v; }
    }
  }

  /** groups[i..] + groups[..i] flattens to the flattening rotated by the members before group i. */
  lemma RotateGroups(groups: seq<seq<nat>>, i: nat, tpg: nat, d: int)
    requires i < |groups| && Bounded(groups, tpg, d)
    ensures var c := |Flatten(groups[..i])|;
      c <= |Flatten(groups)| &&
      Flatten(groups[i..] + groups[..i]) == Flatten(groups)[c..] + Flatten(groups)[..c]
    ensures Bounded(groups[i..] + groups[..i], tpg, d)
    ensures (groups[i..] + groups[..i])[0] == groups[i]
  {
    assert groups == groups[..i] + groups[i..];
    FlattenAppend(groups[..i], groups[i..]);
    FlattenAppend(groups[i..], groups[..i]);
    var rot := groups[i..] + groups[..i];
    forall g | 0 <= g < |rot|
      ensures 1 <= |rot[g]| <= tpg && Steps(rot[g], d)
    {
      if g < |groups| - i { assert rot[g] == groups[g + i]; } else { assert rot[g] == groups[g - (|groups| - i)]; }
    }
  }

  /** The first phase's turbines: from the start up to n, or down to 1. */
  function FirstRun(n: nat, start: nat, clockwise: bool): (r: seq<nat>)
    requires 1 <= start <= n
    ensures Steps(r, if clockwise then 1 else -1)
  {
    if clockwise then Up(start, n + 1) else Down(start, 0)
  }

  /** The second phase's turbines: from 1 up to the start, or from n down to it, start excluded. */
  function SecondRun(n: nat, start: nat, clockwise: bool): (r: seq<nat>)
    requires 1 <= start <= n
    ensures Steps(r, if clockwise then 1 else -1)
  {
    if clockwise then Up(1, start) else Down(n, start)
  }

  /** The count a phase hands on: its last group's size modulo tpg (0 after no group). */
  function Leftover(groups: seq<seq<nat>>, tpg: nat): nat
    requires 1 <= tpg
  {
    if groups == [] then 0 else |groups[|groups| - 1]| % tpg
  }

  /**
   The groups of the two phases before the rotation: the first m groups cut
   the first run into groups of tpg, all full but the last; the others cut
   the second run the same way, the first of them counting the size the
   first phase hands on.
   */
  ghost predicate Phases(groups: seq<seq<nat>>, n: nat, start: nat, clockwise: bool, tpg: nat)
    requires 1 <= start <= n && 1 <= tpg
  {
    && Flatten(groups) == Visit(n, start, clockwise)
    && exists m :: 0 <= m <= |groups| && PhaseSplit(groups, m, n, start, clockwise, tpg)
  }

  /** Phases, with the first phase ending after group m. */
  ghost predicate PhaseSplit(groups: seq<seq<nat>>, m: nat, n: nat, start: nat, clockwise: bool, tpg: nat)
    requires 1 <= start <= n && 1 <= tpg && m <= |groups|
  {
    var d := if clockwise then 1 else -1;
    && Flatten(groups[..m]) == FirstRun(n, start, clockwise)
    && Chunked([], 0, tpg, d, groups[..m])
    && Chunked(groups[..m], Leftover(groups[..m], tpg), tpg, d, groups)
  }

  /** groups with group i moved to the front and the order otherwise kept cyclically. */
  function Rotate<T>(groups: seq<T>, i: nat): seq<T>
    requires i <= |groups|
  {
    groups[i..] + groups[..i]
  }

  /**
   The turbines every sweep group holds, in sweep order: the two phases'
   groups, rotated so that the group holding turbine 1 comes first.
   */
  ghost predicate Sweeps(groups: seq<seq<nat>>, n: nat, start: nat, clockwise: bool, tpg: nat)
    requires 1 <= start <= n
  {
    && Distinct(Flatten(groups)) && (forall v :: v in Flatten(groups) <==> 1 <= v <= n)
    && Bounded(groups, tpg, if clockwise then 1 else -1)
    && (exists c :: 0 <= c <= n &&
         Flatten(groups) == Visit(n, start, clockwise)[c..] + Visit(n, start, clockwise)[..c])
    && 1 <= tpg
    && exists pre, i :: 0 <= i < |pre| && Phases(pre, n, start, clockwise, tpg) && 1 in pre[i] && groups == Rotate(pre, i)
  }

  /** The two phases of _sweep_groups, before the rotation. */
  method SweepPhases(n: nat, start: nat, clockwise: bool, tpg: nat) returns (groups: seq<seq<nat>>)
    requires 1 <= start <= n && 1 <= tpg
    ensures Flatten(groups) == Visit(n, start, clockwise)
    ensures Bounded(groups, tpg, if clockwise then 1 else -1)
    ensures Phases(groups, n, start, clockwise, tpg)
  {
    ghost var d := if clockwise then 1 else -1;
    var run1 := FirstRun(n, start, clockwise);
    var run2 := SecondRun(n, start, clockwise);
    assert Flatten<nat>([]) == [];
    var first, j := Fill([], 0, run1, tpg, d);
    assert Flatten(first) == run1 by {
      assert Flatten<nat>([]) + run1 == run1;
    }
    assert j == Leftover(first, tpg) by {
      HandedOn(first, j, tpg, d);
    }
    var all, _ := Fill(first, j, run2, tpg, d);
    assert Bounded(all, tpg, d) by {
      ChunkedBounded([], 0, tpg, d, first);
      ChunkedBounded(first, j, tpg, d, all);
    }
    assert Flatten(all) == Visit(n, start, clockwise) && Phases(all, n, start, clockwise, tpg) by {
      PhasesOf(all, first, n, start, clockwise, tpg);
    }
    groups := all;
  }

  /** Two phase loops, the second continuing the first's groups and count, form the phases. */
  lemma PhasesOf(all: seq<seq<nat>>, first: seq<seq<nat>>, n: nat, start: nat, clockwise: bool, tpg: nat)
    requires 1 <= start <= n && 1 <= tpg
    requires Flatten(first) == FirstRun(n, start, clockwise)
    requires Flatten(all) == Flatten(first) + SecondRun(n, start, clockwise)
    requires Chunked([], 0, tpg, if clockwise then 1 else -1, first)
    requires Chunked(first, Leftover(first, tpg), tpg, if clockwise then 1 else -1, all)
    ensures Flatten(all) == Visit(n, start, clockwise)
    ensures Phases(all, n, start, clockwise, tpg)
  {
    assert all[..|first|] == first;
    assert PhaseSplit(all, |first|, n, start, clockwise, tpg);
  }

  /** The count the first phase's loop hands on is Leftover of its groups. */
  lemma HandedOn(first: seq<seq<nat>>, j: nat, tpg: nat, d: int)
    requires 1 <= tpg && Chunked([], 0, tpg, d, first)
    requires |first| == 0 ==> j == 0
    requires |first| > 0 ==>
      var c := Carry(0, 0, |first| - 1) + |first[|first| - 1]|;
      j == if c == tpg then 0 else c
    ensures j == Leftover(first, tpg)
  {
    if |first| > 0 {
      ModSmall(|first[|first| - 1]|, tpg);
    }
  }

  /** The next group of a chunked extension can join the prefix; the groups after it count from 0. */
  lemma ChunkedNext(groups: seq<seq<nat>>, j: nat, tpg: nat, d: int, all: seq<seq<nat>>)
    requires Chunked(groups, j, tpg, d, all) && |all| > |groups|
    ensures Chunked(groups + [all[|groups|]], 0, tpg, d, all)
  {
    var g := |groups|;
    assert all[..g + 1] == all[..g] + [all[g]];
    forall h | g + 1 <= h < |all|
      ensures Carry(g + 1, 0, h) == Carry(g, j, h)
    {
    }
  }

  /** Cancelling a common prefix. */
  lemma CancelPrefix(p: seq<nat>, x: seq<nat>, y: seq<nat>)
    requires p + x == p + y
    ensures x == y
  {
    assert x == (p + x)[|p|..];
    assert y == (p + y)[|p|..];
  }

  /**
   Where the groups are cut is fixed by what they flatten to: every group
   of a chunked extension but the last is full, so two extensions of the
   same groups with the same count and the same flattening are equal.
   */
  lemma {:induction false} ChunkedUnique(groups: seq<seq<nat>>, j: nat, tpg: nat, d: int, a: seq<seq<nat>>, b: seq<seq<nat>>)
    requires Chunked(groups, j, tpg, d, a) && Chunked(groups, j, tpg, d, b)
    requires Flatten(a) == Flatten(b)
    ensures a == b
    decreases |a| - |groups|
  {
    var g := |groups|;
    if |a| == g {
      assert a == groups;
      if |b| > g {
        FlattenAround(b, g);
        assert false;
      }
      assert b == groups;
    } else if |b| == g {
      assert b == groups;
      FlattenAround(a, g);
      assert false;
    } else {
      ChunkedUniqueStep(groups, j, tpg, d, a, b);
    }
  }

  /** ChunkedUnique when both extensions add a group: the next groups agree, and so do the rest. */
  lemma {:induction false} ChunkedUniqueStep(groups: seq<seq<nat>>, j: nat, tpg: nat, d: int, a: seq<seq<nat>>, b: seq<seq<nat>>)
    requires Chunked(groups, j, tpg, d, a) && Chunked(groups, j, tpg, d, b)
    requires Flatten(a) == Flatten(b) && |a| > |groups| && |b| > |groups|
    ensures a == b
    decreases |a| - |groups|, 0
  {
    var g := |groups|;
    FlattenAround(a, g);
    FlattenAround(b, g);
    assert a[..g] == groups && b[..g] == groups;
    var ga, gb := a[g], b[g];
    var ra, rb := Flatten(a[g + 1..]), Flatten(b[g + 1..]);
    assert Flatten(groups) + ga + ra == Flatten(groups) + gb + rb;
    assert Flatten(groups) + ga + ra == Flatten(groups) + (ga + ra);
    assert Flatten(groups) + gb + rb == Flatten(groups) + (gb + rb);
    CancelPrefix(Flatten(groups), ga + ra, gb + rb);
    if |ga| < |gb| {
      assert false;
    } else if |gb| < |ga| {
      assert false;
    } else {
      assert ga == (ga + ra)[..|ga|] == (gb + rb)[..|gb|] == gb;
      ChunkedNext(groups, j, tpg, d, a);
      ChunkedNext(groups, j, tpg, d, b);
      ChunkedUnique(groups + [ga], 0, tpg, d, a, b);
    }
  }

  /**
   The two phases fix the groups: for given n, start, direction and tpg,
   only one list of groups meets Phases.
   */
  lemma PhasesUnique(a: seq<seq<nat>>, b: seq<seq<nat>>, n: nat, start: nat, clockwise: bool, tpg: nat)
    requires 1 <= start <= n && 1 <= tpg
    requires Phases(a, n, start, clockwise, tpg) && Phases(b, n, start, clockwise, tpg)
    ensures a == b
  {
    var d := if clockwise then 1 else -1;
    var ma :| 0 <= ma <= |a| && PhaseSplit(a, ma, n, start, clockwise, tpg);
    var mb :| 0 <= mb <= |b| && PhaseSplit(b, mb, n, start, clockwise, tpg);
    ChunkedUnique([], 0, tpg, d, a[..ma], b[..mb]);
    ChunkedUnique(a[..ma], Leftover(a[..ma], tpg), tpg, d, a, b);
  }

  /**
   With two turbines, starting at turbine 1 clockwise and two turbines per
   group, the only sweep grouping is one group holding both: the first
   phase fills a group of two before it cuts.
   */
  lemma SweepsTwoTurbines(groups: seq<seq<nat>>)
    ensures Sweeps(groups, 2, 1, true, 2) <==> groups == [[1, 2]]
  {
    if Sweeps(groups, 2, 1, true, 2) {
      var pre, i :| 0 <= i < |pre| && Phases(pre, 2, 1, true, 2) && 1 in pre[i] && groups == Rotate(pre, i);
      OneGroupPhases();
      PhasesUnique(pre, [[1, 2]], 2, 1, true, 2);
      assert i == 0;
    }
    if groups == [[1, 2]] {
      OneGroupSweeps();
    }
  }

  /** One group of both turbines is what the two phases form for two turbines, tpg 2, from turbine 1 clockwise. */
  lemma OneGroupPhases()
    ensures Phases([[1, 2]], 2, 1, true, 2)
  {
    var one: seq<seq<nat>> := [[1, 2]];
    assert Visit(2, 1, true) == [1, 2] == FirstRun(2, 1, true);
    assert Flatten(one) == [1, 2] by {
      assert one[..0] == [];
    }
    assert one[..1] == one;
    assert Chunked([], 0, 2, 1, one);
    assert Chunked(one, 0, 2, 1, one);
    assert PhaseSplit(one, 1, 2, 1, true, 2);
  }

  /** ... and, rotated by nothing, a sweep grouping. */
  lemma OneGroupSweeps()
    ensures Sweeps([[1, 2]], 2, 1, true, 2)
  {
    var one: seq<seq<nat>> := [[1, 2]];
    OneGroupPhases();
    assert Flatten(one) == Visit(2, 1, true) by {
      assert one[..0] == [];
    }
    assert Steps(one[0], 1);
    RotatedSweeps(one, 0, 2, 1, true, 2);
    assert one[0..] + one[..0] == one;
  }

  /** Rotating the phases' groups so that any group comes first still sweeps. */
  lemma RotatedSweeps(groups: seq<seq<nat>>, i: nat, n: nat, start: nat, clockwise: bool, tpg: nat)
    requires 1 <= start <= n && 1 <= tpg && i < |groups| && 1 in groups[i]
    requires Flatten(groups) == Visit(n, start, clockwise)
    requires Bounded(groups, tpg, if clockwise then 1 else -1)
    requires Phases(groups, n, start, clockwise, tpg)
    ensures Sweeps(groups[i..] + groups[..i], n, start, clockwise, tpg)
  {
    assert groups[i..] + groups[..i] == Rotate(groups, i);
    var w := Visit(n, start, clockwise);
    VisitPermutation(n, start, clockwise);
    RotateGroups(groups, i, tpg, if clockwise then 1 else -1);
    var c := |Flatten(groups[..i])|;
    RotateDistinct(w, c);
  }

  /**
   _sweep_groups: the turbines in sweep order from the starting turbine,
   cut into groups of tpg (the count carrying over from the first sweep
   phase into the second), rotated so that the group holding turbine 1
   comes first.  A tpg of 0 fails on the modulo.
   */
  method SweepGroups(n: nat, start: nat, clockwise: bool, tpg: int) returns (r: Result<seq<seq<nat>>>)
    requires 1 <= start <= n && tpg >= 0
    ensures r.Failure? <==> tpg == 0
    ensures r.Success? ==> Sweeps(r.value, n, start, clockwise, tpg)
    ensures r.Success? ==> |r.value| >= 1 && 1 in r.value[0]
  {
    if tpg == 0 {
      return Failure("integer modulo by zero");
    }
    var groups := SweepPhases(n, start, clockwise, tpg);
    VisitPermutation(n, start, clockwise);
    FlattenMember(groups, 1);
    ghost var g :| 0 <= g < |groups| && 1 in groups[g];
    var i := 0;
    while 1 !in groups[i]
      invariant i <= g
      decreases g - i
    {
      i := i + 1;
    }
    RotatedSweeps(groups, i, n, start, clockwise, tpg);
    r := Success(groups[i..] + groups[..i]);
  }

  // ---------------------------------------------------------------------
  // sweep

  /** A sequence without repeats has as many members as elements. */
  lemma {:induction false} MembersDistinct(s: seq<nat>)
    requires Distinct(s)
    ensures |Members(s)| == |s|
    decreases |s|
  {
    if s != [] {
      var front := s[..|s| - 1];
      MembersDistinct(front);
      assert Members(s) == Members(front) + {s[|s| - 1]};
      assert s[|s| - 1] !in Members(front);
    }
  }

  /** A node is in the grown tree exactly when it is the root or some edge's child. */
  lemma OrderMember(root: nat, edges: seq<(nat, nat)>, x: nat)
    ensures x in Order(root, edges) <==> x == root || exists k :: 0 <= k < |edges| && edges[k].0 == x
  {
    var t := Order(root, edges);
    if x in t && x != root {
      var i :| 0 <= i < |t| && t[i] == x;
      assert edges[i - 1].0 == x;
    }
  }

  /** A tree grown from s hung under node 0 by the edge (s, 0) is grown from 0. */
  lemma GrownUnder(s: nat, edges: seq<(nat, nat)>)
    requires Grown(s, edges) && s != 0
    requires forall k :: 0 <= k < |edges| ==> edges[k].0 != 0
    ensures Grown(0, [(s, 0)] + edges)
    ensures Order(0, [(s, 0)] + edges) == [0] + Order(s, edges)
  {
    var e := [(s, 0)] + edges;
    OrderUnder(s, edges, |edges|);
    assert e[..|edges| + 1] == e;
    assert edges[..|edges|] == edges;
    forall k | 0 <= k < |e|
      ensures e[k].0 !in Order(0, e[..k]) && e[k].1 in Order(0, e[..k])
    {
      if k == 0 {
        assert e[..0] == [];
      } else {
        assert e[k] == edges[k - 1];
        OrderUnder(s, edges, k - 1);
      }
    }
  }

  /** The nodes taken in by the first k + 1 edges of GrownUnder's list. */
  lemma OrderUnder(s: nat, edges: seq<(nat, nat)>, k: nat)
    requires k <= |edges|
    ensures Order(0, ([(s, 0)] + edges)[..k + 1]) == [0] + Order(s, edges[..k])
  {
    var e := ([(s, 0)] + edges)[..k + 1];
    var t, u := Order(0, e), [0] + Order(s, edges[..k]);
    assert |t| == |u|;
    forall i | 0 <= i < |t|
      ensures t[i] == u[i]
    {
      if i >= 2 {
        assert t[i] == e[i - 1].0 == edges[i - 2].0;
        assert u[i] == Order(s, edges[..k])[i - 1] == edges[..k][i - 2].0;
      }
    }
  }

  /** The nodes of two edge lists grown in sequence from one root. */
  lemma OrderAppend(root: nat, a: seq<(nat, nat)>, b: seq<(nat, nat)>)
    ensures Order(root, a + b) == Order(root, a) + Order(root, b)[1..]
    ensures forall x :: x in Order(root, a + b) <==> x in Order(root, a) || x in Order(root, b)
  {
    var t := Order(root, a + b);
    var u := Order(root, a) + Order(root, b)[1..];
    assert |t| == |u|;
    forall i | 0 <= i < |t|
      ensures t[i] == u[i]
    {
      if 1 <= i <= |a| {
        assert t[i] == (a + b)[i - 1].0;
      } else if i > |a| {
        assert t[i] == (a + b)[i - 1].0 == b[i - 1 - |a|].0;
      }
    }
    assert Order(root, b) == [root] + Order(root, b)[1..];
  }

  /** Two grown trees from 0 with disjoint children grow one tree in sequence. */
  lemma GrownConcat(a: seq<(nat, nat)>, b: seq<(nat, nat)>)
    requires Grown(0, a) && Grown(0, b)
    requires forall k, l :: 0 <= k < |a| && 0 <= l < |b| ==> a[k].0 != b[l].0
    ensures Grown(0, a + b)
    ensures Members(Order(0, a + b)) == Members(Order(0, a)) + Members(Order(0, b))
  {
    forall k | 0 <= k < |a + b|
      ensures (a + b)[k].0 !in Order(0, (a + b)[..k]) && (a + b)[k].1 in Order(0, (a + b)[..k])
    {
      GrownConcatAt(a, b, k);
    }
    MembersAppend(a, b);
  }

  /** Edge k of the concatenation hangs a new node under one already taken in. */
  lemma GrownConcatAt(a: seq<(nat, nat)>, b: seq<(nat, nat)>, k: nat)
    requires Grown(0, a) && Grown(0, b) && k < |a + b|
    requires forall k, l :: 0 <= k < |a| && 0 <= l < |b| ==> a[k].0 != b[l].0
    ensures (a + b)[k].0 !in Order(0, (a + b)[..k]) && (a + b)[k].1 in Order(0, (a + b)[..k])
  {
    if k < |a| {
      GrownConcatHead(a, b, k);
    } else {
      GrownConcatStep(a, b, k - |a|);
    }
  }

  /** The edge a[k] of GrownConcat, seen after the first k edges of a. */
  lemma GrownConcatHead(a: seq<(nat, nat)>, b: seq<(nat, nat)>, k: nat)
    requires Grown(0, a) && k < |a|
    ensures (a + b)[k] == a[k]
    ensures a[k].0 !in Order(0, (a + b)[..k]) && a[k].1 in Order(0, (a + b)[..k])
  {
    assert (a + b)[..k] == a[..k];
  }

  /** The nodes taken in by two edge lists in turn are those each takes in. */
  lemma MembersAppend(a: seq<(nat, nat)>, b: seq<(nat, nat)>)
    ensures Members(Order(0, a + b)) == Members(Order(0, a)) + Members(Order(0, b))
  {
    OrderAppend(0, a, b);
  }

  /** The edge b[l] of GrownConcat, seen after all of a and the first l edges of b. */
  lemma GrownConcatStep(a: seq<(nat, nat)>, b: seq<(nat, nat)>, l: nat)
    requires Grown(0, a) && Grown(0, b) && l < |b|
    requires forall k, l :: 0 <= k < |a| && 0 <= l < |b| ==> a[k].0 != b[l].0
    ensures (a + b)[|a| + l] == b[l]
    ensures b[l].0 !in Order(0, (a + b)[..|a| + l]) && b[l].1 in Order(0, (a + b)[..|a| + l])
  {
    assert (a + b)[..|a| + l] == a + b[..l];
    OrderAppend(0, a, b[..l]);
    GrownLeaf(0, b, l);
    OrderMember(0, a, b[l].0);
  }

  /** The turbines 1..n. */
  function Turbines(n: nat): (ts: set<nat>)
    ensures forall v :: v in ts <==> 1 <= v <= n
  {
    UpMembers(1, n + 1);
    Members(Up(1, n + 1))
  }

  lemma UpMembers(lo: nat, hi: nat)
    requires lo <= hi
    ensures forall v :: v in Up(lo, hi) <==> lo <= v < hi
  {
    forall v | lo <= v < hi
      ensures v in Up(lo, hi)
    {
      assert Up(lo, hi)[v - lo] == v;
    }
  }

  /** The members of a concatenation are the members of its parts. */
  lemma MembersConcat(a: seq<nat>, b: seq<nat>)
    ensures Members(a + b) == Members(a) + Members(b)
  {
  }

  /** A grown tree from 0 whose nodes are exactly 0..n spans the turbines 1..n. */
  lemma GrownSpanning(edges: seq<(nat, nat)>, n: nat)
    requires Grown(0, edges)
    requires Members(Order(0, edges)) == {0} + Turbines(n)
    ensures SpanningEdges(edges, n + 1)
  {
    forall k | 0 <= k < |edges|
      ensures 1 <= edges[k].0 < n + 1 && edges[k].1 < n + 1
    {
      GrownEnds(edges, n, k);
    }
    forall k, l | 0 <= k < l < |edges|
      ensures edges[k].0 != edges[l].0
    {
      GrownLeaf(0, edges, l);
    }
    forall v | 1 <= v < n + 1
      ensures Named(edges, v)
    {
      GrownNames(edges, n, v);
    }
  }

  /** Both ends of every edge of such a tree are among 0..n, the child a turbine. */
  lemma GrownEnds(edges: seq<(nat, nat)>, n: nat, k: nat)
    requires Grown(0, edges) && k < |edges|
    requires Members(Order(0, edges)) == {0} + Turbines(n)
    ensures 1 <= edges[k].0 <= n && edges[k].1 <= n
  {
    var t := Order(0, edges);
    GrownLeaf(0, edges, k);
    assert t[k + 1] == edges[k].0;
    assert edges[k].0 in Members(t);
    OrderPrefix(0, edges, k, |edges|);
    assert edges[..|edges|] == edges;
    assert edges[k].1 in Order(0, edges[..k]);
    assert edges[k].1 in Members(t);
  }

  /** Every turbine 1..n is the child of some edge of such a tree. */
  lemma GrownNames(edges: seq<(nat, nat)>, n: nat, v: nat)
    requires Grown(0, edges) && 1 <= v <= n
    requires Members(Order(0, edges)) == {0} + Turbines(n)
    ensures Named(edges, v)
  {
    var t := Order(0, edges);
    assert v in Members(t);
    var i :| 0 <= i < |t| && t[i] == v;
    assert edges[i - 1].0 == v;
  }


  /** Distinct parts of a distinct concatenation, with no member in both. */
  lemma DistinctParts(s: seq<nat>, t: seq<nat>)
    requires Distinct(s + t)
    ensures Distinct(s) && Distinct(t)
    ensures forall x :: x in t ==> x !in s
  {
    forall i, j | 0 <= i < j < |s|
      ensures s[i] != s[j]
    {
      assert (s + t)[i] == s[i] && (s + t)[j] == s[j];
    }
    forall i, j | 0 <= i < j < |t|
      ensures t[i] != t[j]
    {
      assert (s + t)[|s| + i] == t[i] && (s + t)[|s| + j] == t[j];
    }
    forall i, j | 0 <= i < |s| && 0 <= j < |t|
      ensures s[i] != t[j]
    {
      assert (s + t)[i] == s[i] && (s + t)[|s| + j] == t[j];
    }
  }


  /** Group k of a distinct flattening has no repeats and shares nothing with the groups before it. */
  lemma FlattenSplit(groups: seq<seq<nat>>, k: nat)
    requires Distinct(Flatten(groups)) && k < |groups|
    ensures Flatten(groups[..k + 1]) == Flatten(groups[..k]) + groups[k]
    ensures Distinct(groups[k])
    ensures forall x :: x in groups[k] ==> x !in Flatten(groups[..k]) && x in Flatten(groups)
  {
    FlattenAround(groups, k);
    DistinctMiddle(Flatten(groups[..k]), groups[k], Flatten(groups[k + 1..]));
  }

  /** The flattening around group k: what comes before it, the group, what comes after. */
  lemma FlattenAround<T>(groups: seq<seq<T>>, k: nat)
    requires k < |groups|
    ensures Flatten(groups[..k + 1]) == Flatten(groups[..k]) + groups[k]
    ensures Flatten(groups) == Flatten(groups[..k]) + groups[k] + Flatten(groups[k + 1..])
  {
    FlattenTake(groups, k);
    FlattenCut(groups, k + 1);
  }

  /** Flattening a list cut in two flattens each part. */
  lemma FlattenCut<T>(groups: seq<seq<T>>, j: nat)
    requires j <= |groups|
    ensures Flatten(groups) == Flatten(groups[..j]) + Flatten(groups[j..])
  {
    assert groups == groups[..j] + groups[j..];
    FlattenAppend(groups[..j], groups[j..]);
  }

  /** Taking one more group appends it to the flattening. */
  lemma FlattenTake<T>(groups: seq<seq<T>>, k: nat)
    requires k < |groups|
    ensures Flatten(groups[..k + 1]) == Flatten(groups[..k]) + groups[k]
  {
    assert groups[..k + 1][..k] == groups[..k];
  }

  /** The middle part of a distinct concatenation has no repeats and nothing in common with the first. */
  lemma DistinctMiddle(a: seq<nat>, b: seq<nat>, c: seq<nat>)
    requires Distinct(a + b + c)
    ensures Distinct(b)
    ensures forall x :: x in b ==> x !in a && x in a + b + c
  {
    DistinctParts(a + b, c);
    DistinctParts(a, b);
  }

  /**
   The edge list sweep builds for one group: a tree grown from the
   substation over exactly the group's turbines.  Its first edge hangs on
   node 0 the first turbine of the group sorted by distance (a nearest
   one, the earliest in the group among equally near ones), and the other
   edges are prim's choices over the sorted group from that turbine.
   */
  ghost predicate GroupTree(distance: seq<seq<int>>, group: seq<nat>, e: seq<(nat, nat)>)
  {
    && Grown(0, e)
    && Members(Order(0, e)) == {0} + Members(group)
    && |e| >= 1 && e[0].1 == 0
    && (forall x :: x in group ==> Dist(distance, e[0].0, 0) <= Dist(distance, x, 0))
    && (forall k :: 1 <= k < |e| ==> e[k].1 in group)
    && |group| >= 1 && e[0].0 == SortByDistance(group, distance)[0]
    && Greedy(SortByDistance(group, distance), distance, e[0].0, e[1..])
  }

  /**
   One edge list per sweep group: the group sorted by distance to the
   substation, its nearest turbine hung on node 0, and prim from that
   turbine over the group.
   */
  method GroupEdges(distance: seq<seq<int>>, group: seq<nat>) returns (e: seq<(nat, nat)>)
    requires group != [] && 0 !in group
    requires forall x :: x in group ==> x < |distance|
    requires forall a, b :: a in group && b in group ==> Dist(distance, a, b) < Sentinel
    ensures Grown(0, e) && |e| == |Members(group)|
    ensures Members(Order(0, e)) == {0} + Members(group)
    ensures |e| >= 1 && e[0].1 == 0
    ensures forall x :: x in group ==> Dist(distance, e[0].0, 0) <= Dist(distance, x, 0)
    ensures forall k :: 1 <= k < |e| ==> e[k].1 in group
    ensures e[0].0 == SortByDistance(group, distance)[0]
    ensures Greedy(SortByDistance(group, distance), distance, e[0].0, e[1..])
    ensures GroupTree(distance, group, e)
  {
    var sorted := SortByDistance(group, distance);
    SortedMembers(sorted, group);
    var rest := Prim(sorted, distance, sorted[0], -1);
    GrownUnder(sorted[0], rest);
    HungMembers(sorted[0], rest, group);
    e := [(sorted[0], 0)] + rest;
    forall x | x in group
      ensures Dist(distance, sorted[0], 0) <= Dist(distance, x, 0)
    {
      var j :| 0 <= j < |sorted| && sorted[j] == x;
    }
    forall k | 1 <= k < |e|
      ensures e[k].1 in group
    {
      assert e[k] == rest[k - 1];
    }
    assert e[1..] == rest;
  }

  /** A reordering has the same members as the original. */
  lemma SortedMembers(sorted: seq<nat>, group: seq<nat>)
    requires multiset(sorted) == multiset(group)
    ensures |sorted| == |group| && Members(sorted) == Members(group)
    ensures forall x :: x in sorted <==> x in group
  {
    assert |multiset(sorted)| == |multiset(group)|;
    forall x
      ensures x in sorted <==> x in group
    {
      assert x in multiset(sorted) <==> x in multiset(group);
    }
  }

  /** The tree prim grows over a whole group, hung under node 0, holds 0 and the group. */
  lemma HungMembers(s0: nat, rest: seq<(nat, nat)>, group: seq<nat>)
    requires s0 in group && 0 !in group
    requires Order(0, [(s0, 0)] + rest) == [0] + Order(s0, rest)
    requires forall k :: 0 <= k < |rest| ==> rest[k].0 in group
    requires forall x :: x in group ==> x in Order(s0, rest)
    ensures Members(Order(0, [(s0, 0)] + rest)) == {0} + Members(group)
  {
    forall x
      ensures x in Order(s0, rest) <==> x in group
    {
      OrderMember(s0, rest, x);
    }
  }


  /** The loop state of sweep after the first k groups. */
  ghost predicate SweepState(distance: seq<seq<int>>, n: nat, groups: seq<seq<nat>>, k: nat, edges: seq<(nat, nat)>)
  {
    && Distinct(Flatten(groups)) && Members(Flatten(groups)) == Turbines(n)
    && (forall g :: 0 <= g < |groups| ==> groups[g] != [])
    && k <= |groups|
    && Grown(0, edges) && |edges| == |Flatten(groups[..k])|
    && Members(Order(0, edges)) == {0} + Members(Flatten(groups[..k]))
  }

  /** One round of sweep's edge collection: append group k's edges. */
  method SweepOnce(distance: seq<seq<int>>, n: nat, groups: seq<seq<nat>>, k: nat, edges: seq<(nat, nat)>)
    returns (edges': seq<(nat, nat)>, ghost e: seq<(nat, nat)>)
    requires SweepState(distance, n, groups, k, edges) && k < |groups|
    requires n < |distance|
    requires forall a, b :: 0 <= a <= n && 0 <= b <= n ==> Dist(distance, a, b) < Sentinel
    ensures SweepState(distance, n, groups, k + 1, edges')
    ensures edges' == edges + e && GroupTree(distance, groups[k], e)
  {
    var group := groups[k];
    GroupTurbines(distance, n, groups, k, edges);
    var tree := GroupEdges(distance, group);
    SweepStep(distance, n, groups, k, edges, tree);
    edges', e := edges + tree, tree;
  }

  /** Group k of a sweep holds turbines only, each once, none met before. */
  lemma GroupTurbines(distance: seq<seq<int>>, n: nat, groups: seq<seq<nat>>, k: nat, edges: seq<(nat, nat)>)
    requires SweepState(distance, n, groups, k, edges) && k < |groups|
    ensures groups[k] != [] && Distinct(groups[k])
    ensures forall x :: x in groups[k] ==> 1 <= x <= n && x !in Flatten(groups[..k])
  {
    FlattenSplit(groups, k);
    forall x | x in groups[k]
      ensures 1 <= x <= n
    {
      assert x in Members(Flatten(groups));
    }
  }

  /** Appending group k's edges moves the sweep state on to k + 1. */
  lemma SweepStep(distance: seq<seq<int>>, n: nat, groups: seq<seq<nat>>, k: nat,
                  edges: seq<(nat, nat)>, e: seq<(nat, nat)>)
    requires SweepState(distance, n, groups, k, edges) && k < |groups|
    requires Grown(0, e) && |e| == |Members(groups[k])|
    requires Members(Order(0, e)) == {0} + Members(groups[k])
    ensures SweepState(distance, n, groups, k + 1, edges + e)
  {
    FlattenSplit(groups, k);
    MembersDistinct(groups[k]);
    var before := Members(Flatten(groups[..k]));
    assert before * Members(groups[k]) == {};
    ChildrenApart(edges, e, before, Members(groups[k]));
    GrownConcat(edges, e);
    MembersConcat(Flatten(groups[..k]), groups[k]);
  }

  /** Two trees from 0 over disjoint sets of turbines have no child in common. */
  lemma ChildrenApart(a: seq<(nat, nat)>, b: seq<(nat, nat)>, sa: set<nat>, sb: set<nat>)
    requires Grown(0, a) && Grown(0, b) && sa * sb == {}
    requires Members(Order(0, a)) == {0} + sa && Members(Order(0, b)) == {0} + sb
    ensures forall i, l :: 0 <= i < |a| && 0 <= l < |b| ==> a[i].0 != b[l].0
  {
    forall i | 0 <= i < |a|
      ensures a[i].0 in sa
    {
      HungIn(a, sa, i);
    }
    forall l | 0 <= l < |b|
      ensures b[l].0 in sb
    {
      HungIn(b, sb, l);
    }
    HungApart(a, b, sa, sb);
  }

  /** Edges hanging nodes of two disjoint sets hang different nodes. */
  lemma HungApart(a: seq<(nat, nat)>, b: seq<(nat, nat)>, sa: set<nat>, sb: set<nat>)
    requires sa * sb == {}
    requires forall i :: 0 <= i < |a| ==> a[i].0 in sa
    requires forall l :: 0 <= l < |b| ==> b[l].0 in sb
    ensures forall i, l :: 0 <= i < |a| && 0 <= l < |b| ==> a[i].0 != b[l].0
  {
    forall i, l | 0 <= i < |a| && 0 <= l < |b|
      ensures a[i].0 != b[l].0
    {
      assert a[i].0 !in sa * sb;
    }
  }

  /** The node hung by each edge of a tree from 0 over {0} + s is in s. */
  lemma HungIn(a: seq<(nat, nat)>, sa: set<nat>, i: nat)
    requires Grown(0, a) && Members(Order(0, a)) == {0} + sa && i < |a|
    ensures a[i].0 in sa
  {
    assert Order(0, a)[i + 1] == a[i].0;
    assert a[i].0 in Members(Order(0, a));
    GrownLeaf(0, a, i);
  }


  /**
   sweep: the edges of every sweep group's tree, group after group.  They
   hang every turbine, once, in one tree under the substation; a tpg of 0
   fails as _sweep_groups does.
   */
  method Sweep(inst: Instance, start: nat, clockwise: bool, tpg: int)
    returns (r: Result<seq<(nat, nat)>>, ghost groups: seq<seq<nat>>, ghost parts: seq<seq<(nat, nat)>>)
    requires WellFormed(inst)
    requires forall a, b :: 0 <= a < Size(inst) && 0 <= b < Size(inst) ==> Dist(inst.distance, a, b) < Sentinel
    requires 1 <= start < Size(inst) && tpg >= 0
    ensures r.Failure? <==> tpg == 0
    ensures r.Success? ==> Grown(0, r.value) && SpanningEdges(r.value, Size(inst))
    ensures r.Success? ==> |r.value| == Size(inst) - 1
    ensures r.Success? ==> Proper(ApplyEdges(Star(Size(inst)), r.value))
    ensures r.Success? ==> Swept(inst, start, clockwise, tpg, groups, parts, r.value)
  {
    var n := Size(inst) - 1;
    var gs := SweepGroups(n, start, clockwise, tpg);
    if gs.Failure? {
      return Failure(gs.error), [], [];
    }
    groups := gs.value;
    SweepsCover(gs.value, n, start, clockwise, tpg);
    var edges;
    edges, parts := CollectEdges(inst.distance, n, gs.value);
    SweptTree(inst, n, start, clockwise, tpg, groups, parts, edges);
    r := Success(edges);
  }

  /** Sweep's edges, collected over its groups, span the turbines and leave a proper tree. */
  lemma SweptTree(inst: Instance, n: nat, start: nat, clockwise: bool, tpg: nat,
                  groups: seq<seq<nat>>, parts: seq<seq<(nat, nat)>>, edges: seq<(nat, nat)>)
    requires n + 1 == Size(inst) && 1 <= start <= n
    requires Sweeps(groups, n, start, clockwise, tpg) && |groups| >= 1 && 1 in groups[0]
    requires Grown(0, edges) && Members(Order(0, edges)) == {0} + Turbines(n)
    requires |edges| == |Flatten(groups)| && |parts| == |groups| && edges == Flatten(parts)
    requires forall g :: 0 <= g < |groups| ==> GroupTree(inst.distance, groups[g], parts[g])
    ensures SpanningEdges(edges, Size(inst)) && |edges| == Size(inst) - 1
    ensures Proper(ApplyEdges(Star(Size(inst)), edges))
    ensures Swept(inst, start, clockwise, tpg, groups, parts, edges)
  {
    SweepsCover(groups, n, start, clockwise, tpg);
    GrownSpanning(edges, n);
    GrownLegal(Size(inst), edges);
  }

  /**
   How sweep's edges come about: the groups _sweep_groups forms for these
   arguments, and one group tree per group, concatenated in group order.
   */
  ghost predicate Swept(inst: Instance, start: nat, clockwise: bool, tpg: nat,
                        groups: seq<seq<nat>>, parts: seq<seq<(nat, nat)>>, edges: seq<(nat, nat)>)
  {
    && 1 <= start < Size(inst)
    && Sweeps(groups, Size(inst) - 1, start, clockwise, tpg) && |groups| >= 1 && 1 in groups[0]
    && |parts| == |groups| && edges == Flatten(parts)
    && forall g {:trigger GroupTree(inst.distance, groups[g], parts[g])} :: 0 <= g < |groups| ==> GroupTree(inst.distance, groups[g], parts[g])
  }

  /** Sweep groups hold every turbine exactly once, in non-empty groups. */
  lemma SweepsCover(groups: seq<seq<nat>>, n: nat, start: nat, clockwise: bool, tpg: nat)
    requires 1 <= start <= n && Sweeps(groups, n, start, clockwise, tpg)
    ensures Distinct(Flatten(groups)) && Members(Flatten(groups)) == Turbines(n)
    ensures |Flatten(groups)| == n
    ensures forall g :: 0 <= g < |groups| ==> groups[g] != []
  {
    VisitPermutation(n, start, clockwise);
  }

  /** The edge-collecting loop of sweep, over every group in turn. */
  method CollectEdges(distance: seq<seq<int>>, n: nat, groups: seq<seq<nat>>)
    returns (edges: seq<(nat, nat)>, ghost parts: seq<seq<(nat, nat)>>)
    requires Distinct(Flatten(groups)) && Members(Flatten(groups)) == Turbines(n)
    requires forall g :: 0 <= g < |groups| ==> groups[g] != []
    requires n < |distance|
    requires forall a, b :: 0 <= a <= n && 0 <= b <= n ==> Dist(distance, a, b) < Sentinel
    ensures Grown(0, edges) && |edges| == |Flatten(groups)|
    ensures Members(Order(0, edges)) == {0} + Turbines(n)
    ensures |parts| == |groups| && edges == Flatten(parts)
    ensures forall g :: 0 <= g < |groups| ==> GroupTree(distance, groups[g], parts[g])
  {
    edges, parts := [], [];
    var k := 0;
    assert groups[..0] == [];
    assert Members(Order(0, edges)) == {0};
    while k < |groups|
      invariant SweepState(distance, n, groups, k, edges)
      invariant |parts| == k && edges == Flatten(parts)
      invariant forall g :: 0 <= g < k ==> GroupTree(distance, groups[g], parts[g])
      decreases |groups| - k
    {
      ghost var e;
      edges, e := SweepOnce(distance, n, groups, k, edges);
      assert (parts + [e])[..k] == parts;
      PartsStep(distance, groups, parts, e);
      parts := parts + [e];
      k := k + 1;
    }
    assert groups[..k] == groups;
  }

  /** One more group's tree keeps every collected part the tree of its group. */
  lemma PartsStep(distance: seq<seq<int>>, groups: seq<seq<nat>>, parts: seq<seq<(nat, nat)>>, e: seq<(nat, nat)>)
    requires |parts| < |groups|
    requires forall g :: 0 <= g < |parts| ==> GroupTree(distance, groups[g], parts[g])
    requires GroupTree(distance, groups[|parts|], e)
    ensures forall g :: 0 <= g < |parts| + 1 ==> GroupTree(distance, groups[g], (parts + [e])[g])
  {
    var t := parts + [e];
    forall g | 0 <= g < |parts| + 1
      ensures GroupTree(distance, groups[g], t[g])
    {
      if g < |parts| {
        assert t[g] == parts[g];
        assert GroupTree(distance, groups[g], parts[g]);
      } else {
        assert t[g] == e;
      }
    }
  }

}

=== FILE: costs.dfy ===
/**
 The cost of a layout (src/solution.py with cable_cost of src/tools.py):
 the cable cost of every edge priced at its child's power, a penalty for
 more substation connections than the capacity C allows, and a penalty per
 crossing pair of edges.  The totals here are the from-scratch definitions;
 Solution keeps cached copies and updates them incrementally.
 */
module Costs {
  import opened Sums
  import opened Tree
  import opened Reattach
  import opened Geometry
  import opened Instance

  /** Penalty weight per unit of power above the largest cable capacity. */
  const M1: int := 1_000_000_000
  /** Penalty weight per substation connection above C. */
  const M2: int := 1_000_000_000
  /** Penalty weight per crossing. */
  const M3: int := 1_000_000_000

  function Max0(x: int): int
  {
    if x < 0 then 0 else x
  }

  /** A parent map over the instance's nodes. */
  predicate Fits(inst: Instance, parent: seq<nat>)
  {
    |parent| == Size(inst) && ValidParents(parent)
  }

  /**
   The price of the cable from a to b carrying `power`: the length times the
   per-meter cost of the cable chosen for that power, plus M1 for each unit
   above the largest capacity.
   */
  function CableCost(inst: Instance, a: nat, b: nat, power: int): int
    requires WellFormed(inst) && a < Size(inst) && b < Size(inst) && power >= 0
  {
    inst.distance[a][b] * inst.cables[CableIndex(inst, power)].costPerMeter + M1 * Max0(power - inst.maxCap)
  }

  /**
   A cable over capacity costs what the largest cable costs plus M1 per
   unit of excess; within capacity there is no excess charge.
   */
  lemma CableCostOverflow(inst: Instance, a: nat, b: nat, power: int)
    requires WellFormed(inst) && a < Size(inst) && b < Size(inst) && power >= 0
    ensures power > inst.maxCap ==>
      CableCost(inst, a, b, power) == CableCost(inst, a, b, inst.maxCap) + M1 * (power - inst.maxCap)
    ensures power <= inst.maxCap ==>
      CableCost(inst, a, b, power) == inst.distance[a][b] * inst.cables[CableIndex(inst, power)].costPerMeter
  {
  }

  /** The price does not depend on the direction of the cable. */
  lemma CableCostSymmetric(inst: Instance, a: nat, b: nat, power: int)
    requires WellFormed(inst) && a < Size(inst) && b < Size(inst) && power >= 0
    ensures CableCost(inst, a, b, power) == CableCost(inst, b, a, power)
  {
  }

  /** The price of turbine i's edge at power[i]; 0 for the substation and out-of-range entries. */
  function EdgeCost(inst: Instance, parent: seq<nat>, power: seq<int>): nat -> int
    requires WellFormed(inst)
  {
    (i: nat) =>
      if 1 <= i < |parent| && i < Size(inst) && parent[i] < Size(inst) && i < |power| && power[i] >= 0
      then CableCost(inst, i, parent[i], power[i])
      else 0
  }

  /** cost_for_cables: the price of every turbine's edge at that turbine's power. */
  function CableTotal(inst: Instance, parent: seq<nat>, power: seq<int>): int
    requires WellFormed(inst)
  {
    Sum(EdgeCost(inst, parent, power), 0, |parent|)
  }

  function SubstationLink(parent: seq<nat>): nat -> int
  {
    (i: nat) => if 1 <= i < |parent| && parent[i] == 0 then 1 else 0
  }

  /** connections_to_substation: the number of turbines attached to the substation. */
  function FanIn(parent: seq<nat>): int
  {
    Sum(SubstationLink(parent), 0, |parent|)
  }

  /** cost_for_connections_to_substation: M2 per connection above C, never negative. */
  function FanInPenalty(inst: Instance, fanIn: int): (r: int)
    ensures r >= 0
    ensures r == 0 <==> fanIn <= inst.C
    ensures fanIn > inst.C ==> r == M2 * (fanIn - inst.C)
  {
    Max0(M2 * (fanIn - inst.C))
  }

  /** The number of substation connections lies between 0 and the number of turbines. */
  lemma FanInBounds(parent: seq<nat>)
    requires |parent| >= 1
    ensures 0 <= FanIn(parent) <= |parent| - 1
  {
    SumBounds01(SubstationLink(parent), 0, |parent|);
    assert SubstationLink(parent)(0) == 0;
    assert Sum(SubstationLink(parent), 0, |parent|) == Sum(SubstationLink(parent), 1, |parent|);
    SumBounds01(SubstationLink(parent), 1, |parent|);
  }

  /** A tree with at least one turbine has at least one turbine on the substation. */
  lemma FanInPositive(parent: seq<nat>)
    requires Proper(parent) && |parent| >= 2
    ensures FanIn(parent) >= 1
  {
    var ch := ChildOnPath(parent, 0, 1) by {
      InBranchRoot(parent, 1);
    }
    var zero: nat -> int := (i: nat) => 0;
    SumStrict(zero, SubstationLink(parent), 0, |parent|, ch);
    SumZero(zero, 0, |parent|);
  }

  /** Re-attaching c under p changes the connection count by the change of c's own link. */
  lemma FanInAfterMove(parent: seq<nat>, c: nat, p: nat)
    requires 1 <= c < |parent|
    ensures FanIn(parent[c := p]) == FanIn(parent) - Ind(parent[c] == 0) + Ind(p == 0)
  {
    SumOneChange(SubstationLink(parent[c := p]), SubstationLink(parent), 0, |parent|, c);
  }

  // ---------------------------------------------------------------------
  // Crossings

  /** The edges of turbines i and j have no end in common. */
  predicate ShareNoEnd(parent: seq<nat>, i: nat, j: nat)
    requires i < |parent| && j < |parent|
  {
    i != j && i != parent[j] && parent[i] != j && parent[i] != parent[j]
  }

  /** 1 when the edge of i, taken first, crosses the edge of j and the two share no end. */
  function Crossing(inst: Instance, parent: seq<nat>, i: nat, j: nat): int
    requires Fits(inst, parent) && i < |parent| && j < |parent|
  {
    if ShareNoEnd(parent, i, j)
       && Intersect(inst.position[i], inst.position[parent[i]], inst.position[j], inst.position[parent[j]])
    then 1 else 0
  }

  /** The crossing indicator of every pair of turbines, the lower-numbered edge first. */
  function CrossingPairs(inst: Instance, parent: seq<nat>): (nat, nat) -> int
    requires Fits(inst, parent)
  {
    (i: nat, j: nat) => if i < |parent| && j < |parent| then Crossing(inst, parent, i, j) else 0
  }

  /** number_of_crossings: the pairs i < j of turbine edges that cross and share no end. */
  function Crossings(inst: Instance, parent: seq<nat>): int
    requires Fits(inst, parent)
  {
    PairSum(CrossingPairs(inst, parent), 1, |parent|)
  }

  /** The crossing indicator of c's edge, taken first, against every other turbine's edge. */
  function StarTerms(inst: Instance, parent: seq<nat>, c: nat): nat -> int
    requires Fits(inst, parent) && c < |parent|
  {
    (i: nat) => if 1 <= i < |parent| then Crossing(inst, parent, c, i) else 0
  }

  /** The crossings of c's edge that move recounts, before and after re-attaching c. */
  function StarCrossings(inst: Instance, parent: seq<nat>, c: nat): int
    requires Fits(inst, parent) && c < |parent|
  {
    Sum(StarTerms(inst, parent, c), 1, |parent|)
  }

  /** No two nodes share a site. */
  predicate DistinctSites(inst: Instance)
  {
    forall i, j :: 0 <= i < |inst.position| && 0 <= j < |inst.position| && i != j ==> inst.position[i] != inst.position[j]
  }

  /** With distinct sites the crossing indicator does not depend on which edge is taken first. */
  lemma CrossingSymmetric(inst: Instance, parent: seq<nat>, i: nat, j: nat)
    requires Fits(inst, parent) && Proper(parent) && DistinctSites(inst)
    requires 1 <= i < |parent| && 1 <= j < |parent|
    ensures Crossing(inst, parent, i, j) == Crossing(inst, parent, j, i)
  {
    InBranchParent(parent, i);
    InBranchParent(parent, j);
    var pos := inst.position;
    IntersectSymmetric(pos[i], pos[parent[i]], pos[j], pos[parent[j]]);
  }

  /**
   Re-attaching c under p changes the crossing count by the change of c's
   own crossings: those counted against the old edge are removed and those
   of the new edge added.  This needs distinct sites, so that each pair
   counts the same whichever edge is taken first.
   */
  lemma CrossingsAfterMove(inst: Instance, parent: seq<nat>, c: nat, p: nat)
    requires Fits(inst, parent) && Proper(parent) && DistinctSites(inst)
    requires LegalMove(parent, c, p)
    ensures Fits(inst, parent[c := p])
    ensures Crossings(inst, parent[c := p])
         == Crossings(inst, parent) - StarCrossings(inst, parent, c) + StarCrossings(inst, parent[c := p], c)
  {
    var q := parent[c := p];
    var n := |parent|;
    MoveKeepsProper(parent, c, p);
    var f := CrossingPairs(inst, q);
    var g := CrossingPairs(inst, parent);
    var fc := StarTerms(inst, q, c);
    var gc := StarTerms(inst, parent, c);
    forall i, j | 1 <= i < j < n && i != c && j != c
      ensures f(i, j) == g(i, j)
    {
    }
    forall i | 1 <= i < n && i < c
      ensures fc(i) == f(i, c) && gc(i) == g(i, c)
    {
      CrossingSymmetric(inst, q, c, i);
      CrossingSymmetric(inst, parent, c, i);
    }
    forall j | 1 <= j < n && c < j
      ensures fc(j) == f(c, j) && gc(j) == g(c, j)
    {
    }
    PairSumOneChange(f, g, fc, gc, 1, n, c);
  }
}

=== FILE: geometry.dfy ===
/**
 The segment-crossing test of src/utils.py on integer coordinates: the
 orientation value `Direction` and the predicate `Intersect`, with its
 collinear branch that compares x-ranges only.
 */
module Geometry {

  datatype Point = Point(x: int, y: int)

  /** The cross product (q - p) x (r - p): twice the signed area of the triangle p, q, r. */
  function Cross(p: Point, q: Point, r: Point): int
  {
    (q.x - p.x) * (r.y - p.y) - (q.y - p.y) * (r.x - p.x)
  }

  /** p, q and r lie on one line. */
  predicate Collinear(p: Point, q: Point, r: Point)
  {
    Cross(p, q, r) == 0
  }

  /**
   The orientation of the turn p -> q -> r, measured with the step from q to
   r: the negated cross product, so zero exactly for collinear points.
   */
  function Direction(p: Point, q: Point, r: Point): int
  {
    (q.y - p.y) * (r.x - q.x) - (q.x - p.x) * (r.y - q.y)
  }

  /** The orientation is the negated cross product, so it is zero exactly for collinear points. */
  lemma DirectionCross(p: Point, q: Point, r: Point)
    ensures Direction(p, q, r) == -Cross(p, q, r)
    ensures Direction(p, q, r) == 0 <==> Collinear(p, q, r)
  {
    assert (q.y - p.y) * (r.x - q.x) == (q.y - p.y) * (r.x - p.x) - (q.y - p.y) * (q.x - p.x);
    assert (q.x - p.x) * (r.y - q.y) == (q.x - p.x) * (r.y - p.y) - (q.x - p.x) * (q.y - p.y);
  }

  /** One value is >= 0 and the other <= 0: the two points are weakly on opposite sides. */
  predicate OppositeSides(u: int, v: int)
  {
    (u >= 0 && v <= 0) || (u <= 0 && v >= 0)
  }

  function MinX(a: Point, b: Point): int
  {
    if b.x < a.x then b.x else a.x
  }

  function MaxX(a: Point, b: Point): int
  {
    if b.x < a.x then a.x else b.x
  }

  /** One segment's x-range contains the other's (the ends of each taken in x order). */
  predicate NestedXRanges(a1: Point, b1: Point, a2: Point, b2: Point)
  {
    (MinX(a1, b1) <= MinX(a2, b2) && MaxX(a1, b1) >= MaxX(a2, b2)) ||
    (MinX(a1, b1) >= MinX(a2, b2) && MaxX(a1, b1) <= MaxX(a2, b2))
  }

  /**
   Whether segment a1-b1 crosses segment a2-b2.  When a2 and b2 both lie on
   the line of the first segment only the x-ranges are compared, and the
   test is containment of one range in the other; otherwise each segment's
   ends must lie weakly on opposite sides of the other segment's line.
   */
  predicate Intersect(a1: Point, b1: Point, a2: Point, b2: Point)
  {
    if Direction(a1, b1, a2) == 0 && Direction(a1, b1, b2) == 0 then
      NestedXRanges(a1, b1, a2, b2)
    else
      OppositeSides(Direction(a1, b1, a2), Direction(a1, b1, b2)) &&
      OppositeSides(Direction(a2, b2, a1), Direction(a2, b2, b1))
  }

  /** Swapping the first two points negates the orientation. */
  lemma DirectionSwap(p: Point, q: Point, r: Point)
    ensures Direction(q, p, r) == -Direction(p, q, r)
  {
  }

  /** Both directions of the sign test: opposite sides means a non-positive product. */
  lemma OppositeSidesProduct(u: int, v: int)
    ensures OppositeSides(u, v) <==> u * v <= 0
  {
    if u > 0 && v > 0 {
      assert u * v > 0;
    } else if u < 0 && v < 0 {
      assert u * v == (-u) * (-v);
      assert (-u) * (-v) > 0;
    } else if u >= 0 && v <= 0 {
      assert u * (-v) >= 0;
    } else {
      assert (-u) * v >= 0;
    }
  }

  /**
   Off the collinear branch, the segments cross exactly when the orientation
   products are both non-positive: touching an end or a line counts.
   */
  lemma IntersectGeneral(a1: Point, b1: Point, a2: Point, b2: Point)
    requires !(Direction(a1, b1, a2) == 0 && Direction(a1, b1, b2) == 0)
    ensures Intersect(a1, b1, a2, b2) <==>
      Direction(a1, b1, a2) * Direction(a1, b1, b2) <= 0 &&
      Direction(a2, b2, a1) * Direction(a2, b2, b1) <= 0
  {
    OppositeSidesProduct(Direction(a1, b1, a2), Direction(a1, b1, b2));
    OppositeSidesProduct(Direction(a2, b2, a1), Direction(a2, b2, b1));
  }

  /**
   On the collinear branch the answer is containment of one segment's
   x-range in the other's; the y coordinates are never compared.
   */
  lemma IntersectCollinear(a1: Point, b1: Point, a2: Point, b2: Point)
    requires Collinear(a1, b1, a2) && Collinear(a1, b1, b2)
    ensures Intersect(a1, b1, a2, b2) <==>
      (MinX(a1, b1) <= MinX(a2, b2) && MaxX(a2, b2) <= MaxX(a1, b1)) ||
      (MinX(a2, b2) <= MinX(a1, b1) && MaxX(a1, b1) <= MaxX(a2, b2))
  {
    DirectionCross(a1, b1, a2);
    DirectionCross(a1, b1, b2);
  }

  /**
   Collinear segments whose x-ranges overlap only partly, either one
   reaching further left, with the ends of each in any order, are reported
   as not crossing although they share a stretch of their line.
   */
  lemma PartialOverlapNotCrossing(a1: Point, b1: Point, a2: Point, b2: Point)
    requires Collinear(a1, b1, a2) && Collinear(a1, b1, b2)
    requires || MinX(a1, b1) < MinX(a2, b2) < MaxX(a1, b1) < MaxX(a2, b2)
             || MinX(a2, b2) < MinX(a1, b1) < MaxX(a2, b2) < MaxX(a1, b1)
    ensures !Intersect(a1, b1, a2, b2)
  {
    IntersectCollinear(a1, b1, a2, b2);
  }

  /** Any two segments on one vertical line are reported as crossing: y is never compared. */
  lemma VerticalAlwaysCrossing(a1: Point, b1: Point, a2: Point, b2: Point)
    requires a1.x == b1.x == a2.x == b2.x
    ensures Intersect(a1, b1, a2, b2)
  {
  }

  /** Reversing the first segment does not change the answer. */
  lemma IntersectReverseFirst(a1: Point, b1: Point, a2: Point, b2: Point)
    ensures Intersect(b1, a1, a2, b2) == Intersect(a1, b1, a2, b2)
  {
    DirectionSwap(a1, b1, a2);
    DirectionSwap(a1, b1, b2);
    assert Direction(a2, b2, b1) == Direction(a2, b2, b1);
  }

  /** Reversing the second segment does not change the answer. */
  lemma IntersectReverseSecond(a1: Point, b1: Point, a2: Point, b2: Point)
    ensures Intersect(a1, b1, b2, a2) == Intersect(a1, b1, a2, b2)
  {
    DirectionSwap(a2, b2, a1);
    DirectionSwap(a2, b2, b1);
  }

  /**
   Two vectors parallel to the same non-zero vector are parallel to each
   other, stated on coordinates: if u x v = 0 and u x w = 0 with u != 0,
   then v x w = 0.
   */
  lemma ParallelTransitive(ux: int, uy: int, vx: int, vy: int, wx: int, wy: int)
    requires ux != 0 || uy != 0
    requires ux * vy - uy * vx == 0
    requires ux * wy - uy * wx == 0
    ensures vx * wy - vy * wx == 0
  {
    var cvw := vx * wy - vy * wx;
    assert cvw * ux == vx * (ux * wy - uy * wx) - wx * (ux * vy - uy * vx) by {
      assert cvw * ux == vx * wy * ux - vy * wx * ux;
    }
    assert cvw * uy == vy * (ux * wy - uy * wx) - wy * (ux * vy - uy * vx) by {
      assert cvw * uy == vx * wy * uy - vy * wx * uy;
    }
    if ux != 0 {
      assert cvw * ux == 0;
    } else {
      assert cvw * uy == 0;
    }
  }

  /**
   For a segment with distinct ends, the second segment lies on its line
   exactly when, its own ends being distinct, the first lies on the second's
   line: the collinear branch is taken in both argument orders or in neither.
   */
  lemma CollinearBothWays(a1: Point, b1: Point, a2: Point, b2: Point)
    requires a1 != b1 && a2 != b2
    requires Collinear(a1, b1, a2) && Collinear(a1, b1, b2)
    ensures Collinear(a2, b2, a1) && Collinear(a2, b2, b1)
  {
    var ux, uy := b1.x - a1.x, b1.y - a1.y;
    var vx, vy := a2.x - a1.x, a2.y - a1.y;
    var wx, wy := b2.x - a1.x, b2.y - a1.y;
    ParallelTransitive(ux, uy, vx, vy, wx, wy);
    assert Cross(a2, b2, a1) == vx * wy - vy * wx;
    assert Cross(a2, b2, b1) == (wx - vx) * (uy - vy) - (wy - vy) * (ux - vx);
    assert (wx - vx) * (uy - vy) - (wy - vy) * (ux - vx)
        == (wx * uy - wy * ux) - (vx * uy - vy * ux) + (vx * wy - vy * wx);
  }

  /**
   For non-degenerate segments the test does not depend on which segment
   comes first.
   */
  lemma IntersectSymmetric(a1: Point, b1: Point, a2: Point, b2: Point)
    requires a1 != b1 && a2 != b2
    ensures Intersect(a1, b1, a2, b2) == Intersect(a2, b2, a1, b1)
  {
    DirectionCross(a1, b1, a2);
    DirectionCross(a1, b1, b2);
    DirectionCross(a2, b2, a1);
    DirectionCross(a2, b2, b1);
    if Collinear(a1, b1, a2) && Collinear(a1, b1, b2) {
      CollinearBothWays(a1, b1, a2, b2);
    } else if Collinear(a2, b2, a1) && Collinear(a2, b2, b1) {
      CollinearBothWays(a2, b2, a1, b1);
    }
  }

  /**
   A segment whose ends coincide breaks that symmetry: a point strictly
   inside the x-range of a horizontal segment at another height crosses it
   in one argument order and not in the other.
   */
  lemma DegenerateAsymmetric(a: Point, a2: Point, b2: Point)
    requires a2.y == b2.y && a.y != a2.y && a2.x < a.x < b2.x
    ensures Intersect(a, a, a2, b2)
    ensures !Intersect(a2, b2, a, a)
  {
    var w := b2.x - a2.x;
    var h := a.y - b2.y;
    assert Direction(a2, b2, a) == -(w * h);
    if h > 0 {
      assert w * h > 0;
    } else {
      assert w * (-h) > 0;
    }
    assert Direction(a, a, a2) == 0 && Direction(a, a, b2) == 0;
  }
}

=== FILE: instance.dfy ===
/**
 The problem instance of src/instance.py: node positions (node 0 is the
 substation), the distance table, the cable catalogue sorted ascending, the
 lookup table from a node's power to the cheapest cable that carries it, and
 the substation capacity C with its lower bound Cmin.
 */
module Instance {
  import opened Geometry
  import opened Sorting

  datatype Result<T> = Success(value: T) | Failure(error: string)

  datatype Cable = Cable(capacity: int, costPerMeter: int, availability: int)

  /**
   Cables compare as (capacity, cost per meter, availability) tuples,
   lexicographically.
   */
  predicate CableLe(a: Cable, b: Cable)
  {
    a.capacity < b.capacity
    || (a.capacity == b.capacity && a.costPerMeter < b.costPerMeter)
    || (a.capacity == b.capacity && a.costPerMeter == b.costPerMeter && a.availability <= b.availability)
  }

  lemma CableLeTotalPreorder()
    ensures TotalPreorder(CableLe)
  {
  }

  /**
   The catalogue in ascending tuple order: a permutation, sorted, so that
   capacities ascend and the last cable has the largest capacity.
   */
  function SortCables(cables: seq<Cable>): (r: seq<Cable>)
    ensures multiset(r) == multiset(cables)
    ensures forall i, j :: 0 <= i < j < |r| ==> CableLe(r[i], r[j])
    ensures CapacitiesAscending(r)
    ensures forall i :: 0 <= i < |r| ==> r[i].capacity <= r[|r| - 1].capacity
  {
    CableLeTotalPreorder();
    var r := Sort(cables, CableLe);
    assert forall i, j :: 0 <= i < j < |r| ==> CableLe(r[i], r[j]);
    r
  }

  /** Capacities never decrease along the catalogue. */
  predicate CapacitiesAscending(cables: seq<Cable>)
  {
    forall i, j :: 0 <= i < j < |cables| ==> cables[i].capacity <= cables[j].capacity
  }

  /**
   `table[p]`, for 1 <= p <= maxCap, is the first cable whose capacity
   covers power p; entry 0 is 0.
   */
  predicate CableTableCorrect(cables: seq<Cable>, maxCap: int, table: seq<nat>)
  {
    && maxCap >= 0
    && |table| == maxCap + 1
    && table[0] == 0
    && forall p :: 1 <= p <= maxCap ==>
         && table[p] < |cables|
         && cables[table[p]].capacity >= p
         && forall i :: 0 <= i < table[p] ==> cables[i].capacity < p
  }

  /**
   The lookup table fill: a cursor i over the cables and a cursor j over
   the powers; a cable too small for j is skipped, otherwise j gets cable i.
   The last cable's capacity is maxCap, so the cable cursor never runs off
   the catalogue.
   */
  method CableIndexTable(cables: seq<Cable>) returns (table: seq<nat>)
    requires |cables| >= 1 && CapacitiesAscending(cables)
    requires cables[|cables| - 1].capacity >= 0
    ensures CableTableCorrect(cables, cables[|cables| - 1].capacity, table)
  {
    var maxCap := cables[|cables| - 1].capacity;
    table := seq(maxCap + 1, (k: int) requires 0 <= k => k as nat);
    var i := 0;
    var j := 1;
    while j < |table|
      invariant 1 <= j <= maxCap + 1 && |table| == maxCap + 1
      invariant 0 <= i < |cables|
      invariant table[0] == 0
      invariant forall k :: 0 <= k < i ==> cables[k].capacity < j
      invariant forall p :: 1 <= p < j ==>
         && table[p] < |cables|
         && cables[table[p]].capacity >= p
         && forall k :: 0 <= k < table[p] ==> cables[k].capacity < p
      decreases (maxCap + 1 - j) + (|cables| - i)
    {
      if j > cables[i].capacity {
        i := i + 1;
      } else {
        table := table[j := i];
        j := j + 1;
      }
    }
  }

  /**
   The substation capacity: Cmin is one below the negated third header
   field; a requested C of 0 selects Cmin + 1, a request below Cmin is an
   error, and any other request is kept.  A successful choice is never below
   Cmin.
   */
  function SubstationCapacity(thirdField: int, requested: int): (r: Result<(int, int)>)
    ensures r.Failure? <==> requested != 0 && requested < -thirdField - 1
    ensures r.Success? ==> r.value.0 == -thirdField - 1 && r.value.1 >= r.value.0
    ensures r.Success? && requested != 0 ==> r.value.1 == requested
    ensures requested == 0 ==> r == Success((-thirdField - 1, -thirdField))
  {
    var cmin := -thirdField - 1;
    if requested == 0 then Success((cmin, cmin + 1))
    else if cmin > requested then Failure("C cannot be lower than the instance's Cmin")
    else Success((cmin, requested))
  }

  /** A square table over the nodes. */
  predicate Square(d: seq<seq<int>>, size: nat)
  {
    |d| == size && forall i :: 0 <= i < size ==> |d[i]| == size
  }

  /**
   The distance fill: the diagonal is 0, each pair i < j is measured once
   and mirrored, so the table is symmetric.  The metric itself (a Euclidean
   norm on floats in the source) is a parameter.
   */
  method FillDistances(position: seq<Point>, metric: (Point, Point) -> int) returns (d: seq<seq<int>>)
    ensures Square(d, |position|)
    ensures forall i :: 0 <= i < |position| ==> d[i][i] == 0
    ensures forall i, j :: 0 <= i < |position| && 0 <= j < |position| ==> d[i][j] == d[j][i]
    ensures forall i, j :: 0 <= i < j < |position| ==> d[i][j] == metric(position[i], position[j])
  {
    var size := |position|;
    d := seq(size, _ => seq(size, _ => 0));
    var i := 0;
    while i < size
      invariant 0 <= i <= size && Filled(d, position, metric, i)
    {
      d := FillRow(position, metric, d, i);
      i := i + 1;
    }
  }

  /** Rows 0..i-1 of the distance fill are done: diagonal 0, upper part measured and mirrored. */
  ghost predicate Filled(d: seq<seq<int>>, position: seq<Point>, metric: (Point, Point) -> int, i: nat)
  {
    && Square(d, |position|)
    && (forall a :: 0 <= a < i && a < |position| ==> d[a][a] == 0)
    && forall a, b :: 0 <= a < i && a < b < |position| ==> d[a][b] == metric(position[a], position[b]) && d[b][a] == d[a][b]
  }

  /** Row i of the distance fill: its diagonal entry, then each pair (i, j) with j > i, mirrored. */
  method FillRow(position: seq<Point>, metric: (Point, Point) -> int, d: seq<seq<int>>, i: nat) returns (d': seq<seq<int>>)
    requires i < |position| && Filled(d, position, metric, i)
    ensures Filled(d', position, metric, i + 1)
  {
    var size := |position|;
    d' := Mirror(d, size, i, i, 0);
    var j := i + 1;
    while j < size
      invariant i + 1 <= j <= size && RowFilled(d', position, metric, i, j)
    {
      d' := MeasurePair(position, metric, d', i, j);
      j := j + 1;
    }
  }

  /** Rows before i are done, the diagonal is 0 up to i, and row i is measured and mirrored before column j. */
  ghost predicate RowFilled(d: seq<seq<int>>, position: seq<Point>, metric: (Point, Point) -> int, i: nat, j: nat)
  {
    && Filled(d, position, metric, i) && i < |position| && d[i][i] == 0
    && forall b :: i < b < j && b < |position| ==> d[i][b] == metric(position[i], position[b]) && d[b][i] == d[i][b]
  }

  /** The pair (i, j) of the distance fill, measured once and mirrored. */
  method MeasurePair(position: seq<Point>, metric: (Point, Point) -> int, d: seq<seq<int>>, i: nat, j: nat)
    returns (d': seq<seq<int>>)
    requires i < j < |position| && RowFilled(d, position, metric, i, j)
    ensures RowFilled(d', position, metric, i, j + 1)
  {
    d' := Mirror(d, |position|, i, j, metric(position[i], position[j]));
  }

  /** Set entries (i, j) and (j, i) of a square table to x, leaving every other entry alone. */
  method Mirror(d: seq<seq<int>>, size: nat, i: nat, j: nat, x: int) returns (d': seq<seq<int>>)
    requires Square(d, size) && i < size && j < size
    ensures Square(d', size) && d'[i][j] == x && d'[j][i] == x
    ensures forall a, b :: 0 <= a < size && 0 <= b < size && (a, b) != (i, j) && (a, b) != (j, i) ==> d'[a][b] == d[a][b]
  {
    d' := d[i := d[i][j := x]];
    d' := d'[j := d'[j][i := x]];
  }

  /** The node indices 0..n, substation first. */
  function Nodes(size: nat): (r: seq<nat>)
    ensures |r| == size && forall i :: 0 <= i < size ==> r[i] == i
  {
    seq(size, (i: int) requires 0 <= i => i as nat)
  }

  datatype Instance = Instance(
    position: seq<Point>,
    distance: seq<seq<int>>,
    cables: seq<Cable>,
    maxCap: int,
    cableIndex: seq<nat>,
    C: int)

  /** The number of nodes, n + 1. */
  function Size(inst: Instance): nat
  {
    |inst.position|
  }

  /**
   A loaded instance: at least the substation, a symmetric non-negative
   distance table with zero diagonal, a non-empty catalogue in ascending
   order whose last capacity is the maximum, that maximum at least 0 (a
   maximum of 0 loads, with the one-entry lookup table [0]), and the lookup
   table built from it.
   */
  predicate WellFormed(inst: Instance)
  {
    && |inst.position| >= 1
    && Square(inst.distance, |inst.position|)
    && (forall i, j :: 0 <= i < |inst.position| && 0 <= j < |inst.position| ==>
          inst.distance[i][j] >= 0 && inst.distance[i][j] == inst.distance[j][i])
    && (forall i :: 0 <= i < |inst.position| ==> inst.distance[i][i] == 0)
    && |inst.cables| >= 1
    && CapacitiesAscending(inst.cables)
    && inst.maxCap == inst.cables[|inst.cables| - 1].capacity
    && inst.maxCap >= 0
    && CableTableCorrect(inst.cables, inst.maxCap, inst.cableIndex)
  }

  function Min(a: int, b: int): int
  {
    if a <= b then a else b
  }

  /**
   The cable for a node of the given power: the lookup with the power
   clamped to the largest capacity.  For a power the catalogue can carry it
   is the first cable that does; beyond that it is the first cable of the
   largest capacity.  When the largest capacity is 0 every power gets
   cable 0.
   */
  function CableIndex(inst: Instance, power: int): (k: nat)
    requires WellFormed(inst) && power >= 0
    ensures k < |inst.cables|
    ensures power == 0 || inst.maxCap == 0 ==> k == 0
    ensures 1 <= power && 1 <= inst.maxCap ==> inst.cables[k].capacity >= Min(power, inst.maxCap)
    ensures forall i :: 0 <= i < k ==> inst.cables[i].capacity < Min(power, inst.maxCap)
    ensures power > inst.maxCap >= 1 ==> inst.cables[k].capacity == inst.maxCap
  {
    var p := Min(power, inst.maxCap);
    assert CableTableCorrect(inst.cables, inst.maxCap, inst.cableIndex);
    assert p == 0 ==> inst.cableIndex[p] == 0;
    var k := inst.cableIndex[p];
    assert CapacitiesAscending(inst.cables);
    assert k < |inst.cables| - 1 ==> inst.cables[k].capacity <= inst.cables[|inst.cables| - 1].capacity;
    k
  }
}

=== FILE: plasmid.dfy ===
/**
 The plasmid operator of src/transgenetic.py.  It grafts a donor edge list
 into a solution: every turbine is first hung on the substation, then each
 donor edge is applied with move, and finally each edge of the solution as
 it was is put back, unless it would close a cycle or one of its ends is
 named by a donor edge.
 */
module Plasmids {
  import opened Tree
  import opened Reattach
  import opened Branches
  import opened Instance
  import opened Costs
  import opened Solution

  /** The layout with every turbine on the substation. */
  function Star(n: nat): (parent: seq<nat>)
    ensures |parent| == n && forall v :: 0 <= v < n ==> parent[v] == 0
  {
    seq(n, _ => 0)
  }

  /**
   Applied one after another from `base`, each edge is a legal move at its
   turn: its child is a turbine and its new parent lies outside the child's
   branch.  An edge whose child lies above its new parent would cut a
   cycle loose from the tree, and one naming the substation as a child
   makes _just_move remove 0 from a set that does not hold it; plasmid
   relies on its donor lists doing neither.
   */
  predicate LegalSequence(base: seq<nat>, edges: seq<(nat, nat)>)
  {
    forall k :: 0 <= k < |edges| ==> LegalMove(ApplyEdges(base, edges[..k]), edges[k].0, edges[k].1)
  }

  /** Some edge has x at one of its ends. */
  predicate Mentions(edges: seq<(nat, nat)>, x: nat)
  {
    exists k :: 0 <= k < |edges| && (edges[k].0 == x || edges[k].1 == x)
  }

  /** No later edge names the child of edge k again. */
  predicate LastNaming(edges: seq<(nat, nat)>, k: nat)
    requires k < |edges|
  {
    forall j :: k < j < |edges| ==> edges[j].0 != edges[k].0
  }

  /** The set of every end of every edge (edges_set). */
  function EdgeEnds(edges: seq<(nat, nat)>): (ends: set<nat>)
    ensures forall x :: x in ends <==> Mentions(edges, x)
    decreases |edges|
  {
    if edges == [] then {}
    else
      var front := edges[..|edges| - 1];
      var last := edges[|edges| - 1];
      assert forall k :: 0 <= k < |front| ==> front[k] == edges[k];
      EdgeEnds(front) + {last.0, last.1}
  }

  // ---------------------------------------------------------------------
  // Replaying edge lists

  /** Applying one more edge re-parents its child. */
  lemma ApplyEdgesSnoc(base: seq<nat>, edges: seq<(nat, nat)>, k: nat)
    requires k < |edges| && edges[k].0 < |base|
    ensures ApplyEdges(base, edges[..k + 1]) == ApplyEdges(base, edges[..k])[edges[k].0 := edges[k].1]
  {
    assert edges[..k + 1][..k] == edges[..k];
  }

  /** The last edge naming a turbine decides its parent. */
  lemma {:induction false} ApplyEdgesLast(base: seq<nat>, edges: seq<(nat, nat)>, k: nat)
    requires k < |edges| && edges[k].0 < |base| && LastNaming(edges, k)
    ensures ApplyEdges(base, edges)[edges[k].0] == edges[k].1
    decreases |edges|
  {
    var front := edges[..|edges| - 1];
    if k < |edges| - 1 {
      assert front[k] == edges[k];
      assert LastNaming(front, k) by {
        assert forall j :: k < j < |front| ==> front[j] == edges[j];
      }
      ApplyEdgesLast(base, front, k);
    }
  }

  /** The star is a proper tree. */
  lemma StarProper(n: nat)
    requires n >= 1
    ensures Proper(Star(n))
  {
    forall v | 0 <= v < n
      ensures Reaches(Star(n), v, n)
    {
      assert v != 0 ==> Reaches(Star(n), Star(n)[v], n - 1);
    }
  }

  /** Replaying a legal sequence of moves from a tree leaves a tree. */
  lemma {:induction false} LegalSequenceProper(base: seq<nat>, edges: seq<(nat, nat)>)
    requires Proper(base) && LegalSequence(base, edges)
    ensures Proper(ApplyEdges(base, edges))
    decreases |edges|
  {
    if edges != [] {
      var k := |edges| - 1;
      var front := edges[..k];
      assert LegalSequence(base, front) by {
        forall j | 0 <= j < |front|
          ensures LegalMove(ApplyEdges(base, front[..j]), front[j].0, front[j].1)
        {
          assert front[..j] == edges[..j] && front[j] == edges[j];
        }
      }
      LegalSequenceProper(base, front);
      var prev := ApplyEdges(base, front);
      assert LegalMove(prev, edges[k].0, edges[k].1);
      assert ApplyEdges(base, edges) == prev[edges[k].0 := edges[k].1];
      MoveKeepsProper(prev, edges[k].0, edges[k].1);
    }
  }

  // ---------------------------------------------------------------------
  // Which donor lists are legal

  /**
   The edges hang turbines under their parents in the tree `forest`, each
   turbine at most once.  The branches cut from a solution and the trees
   grown by prim from the substation are such lists.
   */
  predicate SubForest(forest: seq<nat>, edges: seq<(nat, nat)>)
  {
    && (forall k :: 0 <= k < |edges| ==> 1 <= edges[k].0 < |forest| && edges[k].1 == forest[edges[k].0])
    && (forall k, l :: 0 <= k < l < |edges| ==> edges[k].0 != edges[l].0)
  }

  /**
   Following q, where each entry is the entry of the tree `forest` or the
   substation, never leaves the ancestors of the start in `forest`.
   */
  lemma {:induction false} WalkAncestors(forest: seq<nat>, q: seq<nat>, x: nat, fuel: nat)
    requires Proper(forest) && |q| == |forest| && x < |forest|
    requires forall v :: 0 <= v < |q| ==> q[v] == forest[v] || q[v] == 0
    ensures forall w :: w in Walk(q, x, fuel) ==> InBranch(forest, w, x)
    decreases fuel
  {
    InBranchSelf(forest, x);
    if x != 0 && fuel != 0 && x < |q| {
      var y := q[x];
      if y == 0 {
        InBranchRoot(forest, x);
      } else {
        InBranchParent(forest, x);
        WalkAncestors(forest, q, y, fuel - 1);
        forall w | w in Walk(q, y, fuel - 1)
          ensures InBranch(forest, w, x)
        {
          InBranchTrans(forest, w, y, x);
        }
      }
    }
  }

  /** A sub-forest of a tree is a legal donor list from the star, and each of its edges is the last to name its child. */
  lemma SubForestLegal(forest: seq<nat>, edges: seq<(nat, nat)>)
    requires Proper(forest) && SubForest(forest, edges)
    ensures LegalSequence(Star(|forest|), edges)
    ensures forall k :: 0 <= k < |edges| ==> LastNaming(edges, k)
  {
    var n := |forest|;
    forall k | 0 <= k < |edges|
      ensures LegalMove(ApplyEdges(Star(n), edges[..k]), edges[k].0, edges[k].1)
    {
      var front := edges[..k];
      var q := ApplyEdges(Star(n), front);
      forall v | 0 <= v < n
        ensures q[v] == forest[v] || q[v] == 0
      {
        ApplyEdgesAt(Star(n), front, v);
        if j :| 0 <= j < |front| && front[j].0 == v {
          assert front[j] == edges[j];
        }
      }
      var a := edges[k].0;
      InBranchParent(forest, a);
      WalkAncestors(forest, q, forest[a], n);
    }
  }

  /** The edges of a tree, in get_edges order, are a legal donor list from the star. */
  lemma OwnEdgesLegal(parent: seq<nat>)
    requires Proper(parent)
    ensures LegalSequence(Star(|parent|), GetEdges(parent))
  {
    SubForestLegal(parent, GetEdges(parent));
  }

  /** cut_branch lists the edges of a branch below its root: a sub-forest of the tree, so a legal donor list. */
  lemma CutBranchLegal(parent: seq<nat>, children: seq<set<nat>>, r: nat)
    requires Proper(parent) && ChildrenOf(parent, children) && r < |parent|
    ensures SubForest(parent, CutBranch(parent, children, r))
    ensures LegalSequence(Star(|parent|), CutBranch(parent, children, r))
  {
    var b := BranchNodes(parent, children, r);
    var below := b[1..];
    CutBranchEdges(parent, children, r);
    BranchNodesDistinct(parent, children, r);
    var e := CutBranch(parent, children, r);
    forall k | 0 <= k < |e|
      ensures 1 <= e[k].0 < |parent|
    {
      assert e[k].0 == b[k + 1];
      if b[k + 1] == 0 {
        BranchNodesMembers(parent, children, r, 0);
        InBranchRoot(parent, r);
        InBranchAntisym(parent, r, 0);
      }
    }
    forall k, l | 0 <= k < l < |e|
      ensures e[k].0 != e[l].0
    {
      assert e[k].0 == b[k + 1] && e[l].0 == b[l + 1];
    }
    SubForestLegal(parent, e);
  }

  // ---------------------------------------------------------------------
  // The three phases

  /** Hang every turbine on the substation, one move at a time in turbine order. */
  method StarPhase(inst: Instance, s: State) returns (r: State)
    requires Consistent(inst, s)
    ensures Consistent(inst, r) && r.parent == Star(|s.parent|)
    ensures DistinctSites(inst) && CrossingsExact(inst, s) ==> CrossingsExact(inst, r)
  {
    var n := |s.parent|;
    r := s;
    var v := 1;
    while v < n
      invariant 1 <= v <= n
      invariant Consistent(inst, r) && |r.parent| == n
      invariant forall u :: 0 <= u < v ==> r.parent[u] == 0
      invariant DistinctSites(inst) && CrossingsExact(inst, s) ==> CrossingsExact(inst, r)
    {
      assert Chain(r.parent, 0) == [0];
      var snap;
      r, snap := Move(inst, r, v, 0);
      v := v + 1;
    }
  }

  /** Apply each donor edge with move, in list order. */
  method DonorPhase(inst: Instance, s: State, edges: seq<(nat, nat)>) returns (r: State)
    requires Consistent(inst, s) && LegalSequence(s.parent, edges)
    ensures Consistent(inst, r) && r.parent == ApplyEdges(s.parent, edges)
    ensures DistinctSites(inst) && CrossingsExact(inst, s) ==> CrossingsExact(inst, r)
  {
    r := s;
    var k := 0;
    while k < |edges|
      invariant 0 <= k <= |edges|
      invariant Consistent(inst, r) && r.parent == ApplyEdges(s.parent, edges[..k])
      invariant DistinctSites(inst) && CrossingsExact(inst, s) ==> CrossingsExact(inst, r)
    {
      var (a, b) := edges[k];
      var snap;
      r, snap := Move(inst, r, a, b);
      ApplyEdgesSnoc(s.parent, edges, k);
      k := k + 1;
    }
    assert edges[..|edges|] == edges;
  }

  /**
   Put back each edge of the layout `target`, skipping those that would
   close a cycle and those whose child is in `ends`.
   */
  method RestorePhase(inst: Instance, s: State, target: seq<nat>, targetEdges: seq<(nat, nat)>, ends: set<nat>)
    returns (r: State)
    requires Consistent(inst, s) && ValidParents(target) && |target| == |s.parent|
    requires targetEdges == GetEdges(target)
    ensures Consistent(inst, r) && |r.parent| == |s.parent|
    ensures forall v :: 0 <= v < |s.parent| ==>
      r.parent[v] == s.parent[v] || (v !in ends && r.parent[v] == target[v])
    ensures DistinctSites(inst) && CrossingsExact(inst, s) ==> CrossingsExact(inst, r)
  {
    var n := |s.parent|;
    r := s;
    var k := 0;
    while k < |targetEdges|
      invariant 0 <= k <= |targetEdges|
      invariant Consistent(inst, r) && |r.parent| == n
      invariant forall v :: 0 <= v < n ==> r.parent[v] == s.parent[v] || (v !in ends && r.parent[v] == target[v])
      invariant DistinctSites(inst) && CrossingsExact(inst, s) ==> CrossingsExact(inst, r)
    {
      var (a, b) := targetEdges[k];
      r := Restore(inst, s, r, target, ends, a, b);
      k := k + 1;
    }
  }

  /** One pass of that loop: put a back under b unless that closes a cycle or a is in `ends`. */
  method Restore(inst: Instance, s: State, r: State, target: seq<nat>, ends: set<nat>, a: nat, b: nat)
    returns (r': State)
    requires Consistent(inst, r) && |r.parent| == |s.parent| && ValidParents(target) && |target| == |s.parent|
    requires 1 <= a < |target| && b == target[a]
    requires forall v :: 0 <= v < |s.parent| ==> r.parent[v] == s.parent[v] || (v !in ends && r.parent[v] == target[v])
    requires DistinctSites(inst) && CrossingsExact(inst, s) ==> CrossingsExact(inst, r)
    ensures Consistent(inst, r') && |r'.parent| == |s.parent|
    ensures forall v :: 0 <= v < |s.parent| ==> r'.parent[v] == s.parent[v] || (v !in ends && r'.parent[v] == target[v])
    ensures DistinctSites(inst) && CrossingsExact(inst, s) ==> CrossingsExact(inst, r')
  {
    r' := r;
    IsNodeInBranchCorrect(r.parent, r.children, a, b);
    if !IsNodeInBranch(r.parent, r.children, a, b) && a !in ends {
      var snap;
      r', snap := Move(inst, r, a, b);
    }
  }

  /**
   Where the three phases leave each turbine: a turbine the donor list
   mentions is where the donor list alone puts it, any other turbine is
   where it started or on the substation.
   */
  ghost predicate Placed(start: seq<nat>, edges: seq<(nat, nat)>, ends: set<nat>, result: seq<nat>)
  {
    && |result| == |start|
    && (forall x :: x in ends <==> Mentions(edges, x))
    && forall v :: 0 <= v < |start| ==>
      result[v] == ApplyEdges(Star(|start|), edges)[v] || (v !in ends && result[v] == start[v])
  }

  /** Each donor edge that is the last to name its child ends up in the result. */
  lemma PlacedKeepsDonors(start: seq<nat>, edges: seq<(nat, nat)>, ends: set<nat>, result: seq<nat>)
    requires LegalSequence(Star(|start|), edges) && Placed(start, edges, ends, result)
    ensures forall k :: 0 <= k < |edges| && LastNaming(edges, k) ==>
      edges[k].0 < |result| && result[edges[k].0] == edges[k].1
  {
    var n := |start|;
    forall k | 0 <= k < |edges| && LastNaming(edges, k)
      ensures edges[k].0 < n && result[edges[k].0] == edges[k].1
    {
      assert LegalMove(ApplyEdges(Star(n), edges[..k]), edges[k].0, edges[k].1);
      ApplyEdgesLast(Star(n), edges, k);
      assert Mentions(edges, edges[k].0);
    }
  }

  /** A turbine the donor list does not mention is under its old parent or on the substation. */
  lemma PlacedOthers(start: seq<nat>, edges: seq<(nat, nat)>, ends: set<nat>, result: seq<nat>)
    requires Placed(start, edges, ends, result)
    ensures forall v :: 0 <= v < |start| && !Mentions(edges, v) ==>
      result[v] == start[v] || result[v] == 0
  {
    forall v | 0 <= v < |start| && !Mentions(edges, v)
      ensures result[v] == start[v] || result[v] == 0
    {
      ApplyEdgesUnnamed(Star(|start|), edges, v);
    }
  }

  /** With the layout's own edges as the donor, every turbine is back under its old parent. */
  lemma PlacedOwnEdges(start: seq<nat>, edges: seq<(nat, nat)>, ends: set<nat>, result: seq<nat>)
    requires ValidParents(start) && Placed(start, edges, ends, result)
    ensures edges == GetEdges(start) ==> result == start
  {
    var n := |start|;
    if edges == GetEdges(start) {
      GetEdgesRebuild(Star(n), start);
      forall v | 0 <= v < n
        ensures result[v] == start[v]
      {
        if v >= 1 {
          assert edges[v - 1].0 == v;
        }
      }
    }
  }

  /**
   plasmid: rebuild the solution around the donor edges.  Every donor edge
   that is the last to name its child is in the result; every turbine a
   donor edge mentions is placed as the donor list alone places it; every
   other turbine is back under its old parent or on the substation.  A
   solution's own edges as the donor leave it unchanged.
   */
  method Plasmid(inst: Instance, s: State, edges: seq<(nat, nat)>) returns (r: State)
    requires Consistent(inst, s) && LegalSequence(Star(|s.parent|), edges)
    ensures Consistent(inst, r) && |r.parent| == |s.parent|
    ensures DistinctSites(inst) && CrossingsExact(inst, s) ==> CrossingsExact(inst, r)
    ensures forall k :: 0 <= k < |edges| && LastNaming(edges, k) ==>
      edges[k].0 < |r.parent| && r.parent[edges[k].0] == edges[k].1
    ensures forall v :: 0 <= v < |s.parent| && Mentions(edges, v) ==>
      r.parent[v] == ApplyEdges(Star(|s.parent|), edges)[v]
    ensures forall v :: 0 <= v < |s.parent| && !Mentions(edges, v) ==>
      r.parent[v] == s.parent[v] || r.parent[v] == 0
    ensures edges == GetEdges(s.parent) ==> r.parent == s.parent
  {
    var n := |s.parent|;
    var solutionEdges := GetEdges(s.parent);
    var star := StarPhase(inst, s);
    var grafted := DonorPhase(inst, star, edges);
    var ends := EdgeEnds(edges);
    r := RestorePhase(inst, grafted, s.parent, solutionEdges, ends);

    assert Placed(s.parent, edges, ends, r.parent);
    PlacedKeepsDonors(s.parent, edges, ends, r.parent);
    PlacedOthers(s.parent, edges, ends, r.parent);
    PlacedOwnEdges(s.parent, edges, ends, r.parent);
  }
}

=== FILE: power.dfy ===
/**
 The power each node sends towards the substation (node_power in
 src/tools.py): every turbine produces one unit, and a node outputs its own
 unit plus what its children output.  The traversal is a depth-first
 search from the substation; on a tree the neighbours it has not visited
 yet are exactly the node's children.  The result is the size of the
 node's branch.
 */
module Power {
  import opened Sums
  import opened Tree
  import opened Branches

  /** The children sets of a parent map: children[v] holds the turbines whose parent is v. */
  function ChildSets(parent: seq<nat>): (children: seq<set<nat>>)
    requires ValidParents(parent)
    ensures ChildrenOf(parent, children)
  {
    seq(|parent|, (v: int) requires 0 <= v < |parent| => set u: nat | 1 <= u < |parent| && parent[u] == v)
  }

  /** The power of r: one unit plus the power of each child, children taken in ascending order. */
  function NodePower(parent: seq<nat>, children: seq<set<nat>>, r: nat): (pw: int)
    requires Proper(parent) && ChildrenOf(parent, children) && r < |parent|
    ensures pw >= 1
    decreases SubtreeSize(parent, r), 1
  {
    1 + ForestPower(parent, children, r, ChildList(parent, children, r))
  }

  /** The total power of some children of r. */
  function ForestPower(parent: seq<nat>, children: seq<set<nat>>, r: nat, chs: seq<nat>): (pw: int)
    requires Proper(parent) && ChildrenOf(parent, children) && r < |parent|
    requires forall i :: 0 <= i < |chs| ==> chs[i] in children[r]
    ensures pw >= |chs|
    decreases SubtreeSize(parent, r), 0, |chs|
  {
    if chs == [] then 0
    else
      ChildrenSmaller(parent, children, r);
      NodePower(parent, children, chs[0]) + ForestPower(parent, children, r, chs[1..])
  }

  /** node_power: the power of every node of a tree, computed from its parent map. */
  function NodePowers(parent: seq<nat>): (power: seq<int>)
    requires Proper(parent)
    ensures |power| == |parent|
    ensures forall v :: 0 <= v < |parent| ==> power[v] == SubtreeSize(parent, v)
  {
    var children := ChildSets(parent);
    forall v | 0 <= v < |parent|
      ensures NodePower(parent, children, v) == SubtreeSize(parent, v)
    {
      NodePowerIsSubtreeSize(parent, children, v);
    }
    seq(|parent|, (v: int) requires 0 <= v < |parent| => NodePower(parent, children, v))
  }

  // ---------------------------------------------------------------------
  // The recurrence of subtree sizes

  /** u is a child of v and x lies in u's branch. */
  function ChildBranches(parent: seq<nat>, v: nat): (nat, nat) -> int
  {
    (u: nat, x: nat) => if 1 <= u < |parent| && parent[u] == v && x < |parent| && InBranch(parent, u, x) then 1 else 0
  }

  /** The branch size of u when u is a child of v, else 0. */
  function ChildSizes(parent: seq<nat>, v: nat): nat -> int
  {
    (u: nat) => if 1 <= u < |parent| && parent[u] == v then SubtreeSize(parent, u) else 0
  }

  function IsNode(v: nat): nat -> int
  {
    (x: nat) => if x == v then 1 else 0
  }

  /** A node other than v lies in v's branch exactly when it lies in the branch of one child of v. */
  lemma ChildBranchesColumn(parent: seq<nat>, v: nat, x: nat)
    requires Proper(parent) && v < |parent| && x < |parent|
    ensures BranchIndicator(parent, v)(x) == IsNode(v)(x) + ColumnSums(ChildBranches(parent, v), |parent|)(x)
  {
    var g := ChildBranches(parent, v);
    var col := (u: nat) => g(u, x);
    assert ColumnSums(g, |parent|)(x) == Sum(col, 0, |parent|);
    if x != v && InBranch(parent, v, x) {
      var ch := ChildOnPath(parent, v, x);
      forall u | 0 <= u < |parent| && u != ch
        ensures col(u) == 0
      {
        if 1 <= u < |parent| && parent[u] == v && InBranch(parent, u, x) {
          ChildOnPathUnique(parent, x, ch, u);
        }
      }
      SumSingle(col, 0, |parent|, ch);
    } else {
      forall u | 0 <= u < |parent|
        ensures col(u) == 0
      {
        if 1 <= u < |parent| && parent[u] == v && InBranch(parent, u, x) {
          InBranchParent(parent, u);
          if x != v {
            InBranchTrans(parent, v, u, x);
          }
        }
      }
      SumZero(col, 0, |parent|);
      if x == v {
        InBranchSelf(parent, v);
      }
    }
  }

  /** A branch is its root plus the branches of the root's children. */
  lemma SubtreeSizeRecurrence(parent: seq<nat>, v: nat)
    requires Proper(parent) && v < |parent|
    ensures SubtreeSize(parent, v) == 1 + Sum(ChildSizes(parent, v), 0, |parent|)
  {
    var n := |parent|;
    var g := ChildBranches(parent, v);
    forall x | 0 <= x < n
      ensures BranchIndicator(parent, v)(x) == IsNode(v)(x) + 1 * ColumnSums(g, n)(x)
    {
      ChildBranchesColumn(parent, v, x);
    }
    SumLinear(BranchIndicator(parent, v), IsNode(v), ColumnSums(g, n), 1, 0, n);
    SumSingle(IsNode(v), 0, n, v);
    SumSwap(g, n, n);
    forall u | 0 <= u < n
      ensures RowSums(g, n)(u) == ChildSizes(parent, v)(u)
    {
      if 1 <= u < n && parent[u] == v {
        SumExt((x: nat) => g(u, x), BranchIndicator(parent, u), 0, n);
      } else {
        SumZero((x: nat) => g(u, x), 0, n);
      }
    }
    SumExt(RowSums(g, n), ChildSizes(parent, v), 0, n);
  }

  // ---------------------------------------------------------------------
  // The traversal computes subtree sizes

  /** F(u) for the members of s, 0 elsewhere. */
  function Masked(f: nat -> int, s: set<nat>): nat -> int
  {
    (u: nat) => if u in s then f(u) else 0
  }

  function ListSum(f: nat -> int, xs: seq<nat>): int
  {
    if xs == [] then 0 else f(xs[0]) + ListSum(f, xs[1..])
  }

  /** Summing over the ascending listing of a set is summing the masked terms over the range. */
  lemma {:induction false} ListSumAscending(f: nat -> int, s: set<nat>, lo: nat, hi: nat)
    ensures ListSum(f, AscendingBetween(s, lo, hi)) == Sum(Masked(f, s), lo, hi)
    decreases hi - lo
  {
    if lo < hi {
      ListSumAscending(f, s, lo + 1, hi);
      if lo in s {
        assert AscendingBetween(s, lo, hi)[1..] == AscendingBetween(s, lo + 1, hi);
      }
    }
  }

  function SizeOf(parent: seq<nat>): nat -> int
  {
    (u: nat) => SubtreeSize(parent, u)
  }

  /** The traversal's power of r is the size of r's branch. */
  lemma {:induction false} NodePowerIsSubtreeSize(parent: seq<nat>, children: seq<set<nat>>, r: nat)
    requires Proper(parent) && ChildrenOf(parent, children) && r < |parent|
    ensures NodePower(parent, children, r) == SubtreeSize(parent, r)
    decreases SubtreeSize(parent, r), 1
  {
    var n := |parent|;
    var chs := ChildList(parent, children, r);
    ForestPowerIsSum(parent, children, r, chs);
    ListSumAscending(SizeOf(parent), children[r], 0, n);
    forall u | 0 <= u < n
      ensures Masked(SizeOf(parent), children[r])(u) == ChildSizes(parent, r)(u)
    {
    }
    SumExt(Masked(SizeOf(parent), children[r]), ChildSizes(parent, r), 0, n);
    SubtreeSizeRecurrence(parent, r);
  }

  lemma {:induction false} ForestPowerIsSum(parent: seq<nat>, children: seq<set<nat>>, r: nat, chs: seq<nat>)
    requires Proper(parent) && ChildrenOf(parent, children) && r < |parent|
    requires forall i :: 0 <= i < |chs| ==> chs[i] in children[r]
    ensures ForestPower(parent, children, r, chs) == ListSum(SizeOf(parent), chs)
    decreases SubtreeSize(parent, r), 0, |chs|
  {
    if chs != [] {
      ChildrenSmaller(parent, children, r);
      NodePowerIsSubtreeSize(parent, children, chs[0]);
      ForestPowerIsSum(parent, children, r, chs[1..]);
    }
  }
}

=== FILE: propertree.dfy ===
/**
 The tree check of src/utils.py (is_proper_tree): a depth-first search over
 adjacency lists from a root, with a visited set; reaching a node a second
 time marks a cycle.  The graph is a proper tree when no node was reached
 twice and every node was reached.
 */
module ProperTree {
  import opened Tree
  import opened Branches

  /** Every listed neighbour is a node of the graph. */
  predicate ValidAdjacency(adj: seq<seq<nat>>)
  {
    forall v, i :: 0 <= v < |adj| && 0 <= i < |adj[v]| ==> adj[v][i] < |adj|
  }

  /** The nodes of the graph. */
  function AllNodes(n: nat): (s: set<nat>)
    ensures forall x: nat :: x in s <==> x < n
    ensures |s| == n
  {
    if n == 0 then {}
    else
      var s := AllNodes(n - 1) + {n - 1};
      assert n - 1 !in AllNodes(n - 1);
      s
  }

  lemma SubsetCard(a: set<nat>, b: set<nat>)
    requires a <= b
    ensures |a| <= |b|
  {
    assert b == a + (b - a);
  }

  /** The nodes not yet visited: the search's termination measure. */
  function Unvisited(adj: seq<seq<nat>>, vis: set<nat>): nat
  {
    |AllNodes(|adj|) - vis|
  }

  /**
   The search from `node`: a node already visited is a revisit (the flag
   becomes false); otherwise it is marked and its neighbours are searched in
   list order.  Returns the visited set and whether no revisit happened.
   */
  function Dfs(adj: seq<seq<nat>>, node: nat, vis: set<nat>): (res: (set<nat>, bool))
    requires ValidAdjacency(adj) && node < |adj| && vis <= AllNodes(|adj|)
    ensures vis <= res.0 <= AllNodes(|adj|) && node in res.0
    ensures node in vis ==> res == (vis, false)
    decreases Unvisited(adj, vis), 0
  {
    if node in vis then (vis, false)
    else
      assert AllNodes(|adj|) - (vis + {node}) == (AllNodes(|adj|) - vis) - {node};
      DfsList(adj, adj[node], vis + {node})
  }

  function DfsList(adj: seq<seq<nat>>, list: seq<nat>, vis: set<nat>): (res: (set<nat>, bool))
    requires ValidAdjacency(adj) && vis <= AllNodes(|adj|)
    requires forall i :: 0 <= i < |list| ==> list[i] < |adj|
    ensures vis <= res.0 <= AllNodes(|adj|)
    decreases Unvisited(adj, vis), 1, |list|
  {
    if list == [] then (vis, true)
    else
      var first := Dfs(adj, list[0], vis);
      SubsetCard(AllNodes(|adj|) - first.0, AllNodes(|adj|) - vis);
      var rest := DfsList(adj, list[1..], first.0);
      (rest.0, first.1 && rest.1)
  }

  /** The check: no revisit, and as many visited nodes as there are nodes. */
  predicate IsProperTree(adj: seq<seq<nat>>, root: nat)
    requires ValidAdjacency(adj) && root < |adj|
  {
    var res := Dfs(adj, root, {});
    res.1 && |res.0| == |adj|
  }

  /** The adjacency lists of a parent map: each node's children in ascending order. */
  function TreeAdjacency(parent: seq<nat>, children: seq<set<nat>>): (adj: seq<seq<nat>>)
    requires ChildrenOf(parent, children)
    ensures |adj| == |parent| && ValidAdjacency(adj)
    ensures forall v :: 0 <= v < |parent| ==> adj[v] == ChildList(parent, children, v)
  {
    seq(|parent|, (v: int) requires 0 <= v < |parent| => ChildList(parent, children, v))
  }

  /** The nodes of r's branch. */
  function BranchSet(parent: seq<nat>, r: nat): (s: set<nat>)
    ensures forall x: nat :: x in s <==> x < |parent| && InBranch(parent, r, x)
  {
    set x: nat | x < |parent| && InBranch(parent, r, x)
  }

  /** The nodes of the branches of the listed nodes. */
  function ForestSet(parent: seq<nat>, chs: seq<nat>): (s: set<nat>)
    ensures forall x: nat :: x in s <==> x < |parent| && exists i :: 0 <= i < |chs| && InBranch(parent, chs[i], x)
  {
    if chs == [] then {}
    else
      var s := BranchSet(parent, chs[0]) + ForestSet(parent, chs[1..]);
      assert forall i :: 1 <= i < |chs| ==> chs[i] == chs[1..][i - 1];
      s
  }

  /** A branch is its root plus the branches of the root's children. */
  lemma BranchSetSplit(parent: seq<nat>, children: seq<set<nat>>, r: nat)
    requires Proper(parent) && ChildrenOf(parent, children) && r < |parent|
    ensures BranchSet(parent, r) == {r} + ForestSet(parent, ChildList(parent, children, r))
    ensures r !in ForestSet(parent, ChildList(parent, children, r))
  {
    var chs := ChildList(parent, children, r);
    InBranchSelf(parent, r);
    forall x: nat | x in BranchSet(parent, r) && x != r
      ensures x in ForestSet(parent, chs)
    {
      BranchToForest(parent, children, r, x);
    }
    forall x: nat | x in ForestSet(parent, chs)
      ensures x in BranchSet(parent, r) && x != r
    {
      ForestToBranch(parent, children, r, x);
    }
  }

  /** A proper descendant of r lies in the branch of one of r's children. */
  lemma BranchToForest(parent: seq<nat>, children: seq<set<nat>>, r: nat, x: nat)
    requires Proper(parent) && ChildrenOf(parent, children) && r < |parent|
    requires x in BranchSet(parent, r) && x != r
    ensures x in ForestSet(parent, ChildList(parent, children, r))
  {
    var chs := ChildList(parent, children, r);
    var ch := ChildOnPath(parent, r, x);
    assert ch in chs;
    var i :| 0 <= i < |chs| && chs[i] == ch;
  }

  /** A node in the branch of one of r's children is a proper descendant of r. */
  lemma ForestToBranch(parent: seq<nat>, children: seq<set<nat>>, r: nat, x: nat)
    requires Proper(parent) && ChildrenOf(parent, children) && r < |parent|
    requires x in ForestSet(parent, ChildList(parent, children, r))
    ensures x in BranchSet(parent, r) && x != r
  {
    var chs := ChildList(parent, children, r);
    var i :| 0 <= i < |chs| && InBranch(parent, chs[i], x);
    InBranchParent(parent, chs[i]);
    InBranchTrans(parent, r, chs[i], x);
  }

  /**
   On the children lists of a proper tree, a search from r that has visited
   nothing of r's branch visits exactly that branch and never revisits.
   */
  lemma {:induction false} DfsTree(parent: seq<nat>, children: seq<set<nat>>, r: nat, vis: set<nat>)
    requires Proper(parent) && ChildrenOf(parent, children) && r < |parent|
    requires vis <= AllNodes(|parent|) && vis !! BranchSet(parent, r)
    ensures Dfs(TreeAdjacency(parent, children), r, vis) == (vis + BranchSet(parent, r), true)
    decreases SubtreeSize(parent, r), 1
  {
    var adj := TreeAdjacency(parent, children);
    var chs := ChildList(parent, children, r);
    ChildrenSmaller(parent, children, r);
    BranchApart(parent, children, r, vis);
    DfsStep(adj, r, vis);
    assert adj[r] == chs;
    DfsForestTree(parent, children, r, chs, vis + {r});
  }

  /** Marking r keeps the visited set apart from the branches of r's children, which complete r's branch. */
  lemma BranchApart(parent: seq<nat>, children: seq<set<nat>>, r: nat, vis: set<nat>)
    requires Proper(parent) && ChildrenOf(parent, children) && r < |parent|
    requires vis <= AllNodes(|parent|) && vis !! BranchSet(parent, r)
    ensures r !in vis && vis + {r} <= AllNodes(|parent|)
    ensures vis + {r} !! ForestSet(parent, ChildList(parent, children, r))
    ensures vis + {r} + ForestSet(parent, ChildList(parent, children, r)) == vis + BranchSet(parent, r)
  {
    BranchSetSplit(parent, children, r);
    assert r in BranchSet(parent, r);
  }

  /** A search from an unvisited node marks it and searches its neighbours. */
  lemma DfsStep(adj: seq<seq<nat>>, node: nat, vis: set<nat>)
    requires ValidAdjacency(adj) && node < |adj| && vis <= AllNodes(|adj|) && node !in vis
    ensures Dfs(adj, node, vis) == DfsList(adj, adj[node], vis + {node})
  {
  }

  /** The same for the searches started at a run of distinct children of r, one after the other. */
  lemma {:induction false} DfsForestTree(parent: seq<nat>, children: seq<set<nat>>, r: nat, chs: seq<nat>, vis: set<nat>)
    requires Proper(parent) && ChildrenOf(parent, children) && r < |parent|
    requires forall i :: 0 <= i < |chs| ==> chs[i] in children[r]
    requires forall i, j :: 0 <= i < j < |chs| ==> chs[i] != chs[j]
    requires vis <= AllNodes(|parent|) && vis !! ForestSet(parent, chs)
    ensures DfsList(TreeAdjacency(parent, children), chs, vis) == (vis + ForestSet(parent, chs), true)
    decreases SubtreeSize(parent, r), 0, |chs|
  {
    if chs != [] {
      var adj := TreeAdjacency(parent, children);
      ChildrenSmaller(parent, children, r);
      var ch, rest := chs[0], chs[1..];
      ForestApart(parent, children, r, chs, vis);
      DfsTree(parent, children, ch, vis);
      var v1 := vis + BranchSet(parent, ch);
      DfsForestTree(parent, children, r, rest, v1);
      DfsListStep(adj, chs, vis);
    }
  }

  /** A search over a non-empty list searches its head, then the rest from what the head visited. */
  lemma DfsListStep(adj: seq<seq<nat>>, list: seq<nat>, vis: set<nat>)
    requires ValidAdjacency(adj) && vis <= AllNodes(|adj|) && list != []
    requires forall i :: 0 <= i < |list| ==> list[i] < |adj|
    ensures var first := Dfs(adj, list[0], vis);
      DfsList(adj, list, vis) == (DfsList(adj, list[1..], first.0).0, first.1 && DfsList(adj, list[1..], first.0).1)
  {
  }

  /**
   The branches of a run of distinct children of r are the first child's
   branch and the rest's, and these two share no node.
   */
  lemma ForestApart(parent: seq<nat>, children: seq<set<nat>>, r: nat, chs: seq<nat>, vis: set<nat>)
    requires Proper(parent) && ChildrenOf(parent, children) && r < |parent| && chs != []
    requires forall i :: 0 <= i < |chs| ==> chs[i] in children[r]
    requires forall i, j :: 0 <= i < j < |chs| ==> chs[i] != chs[j]
    requires vis <= AllNodes(|parent|) && vis !! ForestSet(parent, chs)
    ensures vis !! BranchSet(parent, chs[0])
    ensures vis + BranchSet(parent, chs[0]) <= AllNodes(|parent|)
    ensures vis + BranchSet(parent, chs[0]) !! ForestSet(parent, chs[1..])
    ensures vis + BranchSet(parent, chs[0]) + ForestSet(parent, chs[1..]) == vis + ForestSet(parent, chs)
  {
    var ch, rest := chs[0], chs[1..];
    var b, f := BranchSet(parent, ch), ForestSet(parent, rest);
    assert ForestSet(parent, chs) == b + f;
    forall x: nat | x in b
      ensures x !in f
    {
      FirstBranchApart(parent, children, r, chs, x);
    }
    assert b <= AllNodes(|parent|);
    DisjointSplit(vis, b, f, ForestSet(parent, chs), AllNodes(|parent|));
  }

  /** Set algebra for a visited set kept apart from two disjoint parts of a whole. */
  lemma DisjointSplit(vis: set<nat>, b: set<nat>, f: set<nat>, whole: set<nat>, all: set<nat>)
    requires whole == b + f && b !! f && vis !! whole && vis <= all && b <= all
    ensures vis !! b && vis + b <= all && vis + b !! f && vis + b + f == vis + whole
  {
  }

  /** A node of the first child's branch is in no later child's branch. */
  lemma FirstBranchApart(parent: seq<nat>, children: seq<set<nat>>, r: nat, chs: seq<nat>, x: nat)
    requires Proper(parent) && ChildrenOf(parent, children) && r < |parent| && chs != []
    requires forall i :: 0 <= i < |chs| ==> chs[i] in children[r]
    requires forall i, j :: 0 <= i < j < |chs| ==> chs[i] != chs[j]
    requires x in BranchSet(parent, chs[0])
    ensures x !in ForestSet(parent, chs[1..])
  {
    var rest := chs[1..];
    if x in ForestSet(parent, rest) {
      var i :| 0 <= i < |rest| && InBranch(parent, rest[i], x);
      assert rest[i] == chs[i + 1];
      ChildOnPathUnique(parent, x, chs[0], rest[i]);
    }
  }

  /** The check accepts the children lists of every proper tree, from the substation. */
  lemma ProperTreeAccepted(parent: seq<nat>, children: seq<set<nat>>)
    requires Proper(parent) && ChildrenOf(parent, children)
    requires |parent| >= 1
    ensures IsProperTree(TreeAdjacency(parent, children), 0)
  {
    DfsTree(parent, children, 0, {});
    forall x: nat | x < |parent|
      ensures x in BranchSet(parent, 0)
    {
      InBranchRoot(parent, x);
    }
    assert BranchSet(parent, 0) == AllNodes(|parent|);
  }

  // ---------------------------------------------------------------------
  // What an accepting search says about the graph

  /** Entry i of u's list names a node, and u is one of the nodes in e. */
  predicate Entry(adj: seq<seq<nat>>, e: set<nat>, u: nat, i: nat)
  {
    u in e && u < |adj| && i < |adj[u]|
  }

  /** The lists of the nodes in e name only nodes of e. */
  ghost predicate Closed(adj: seq<seq<nat>>, e: set<nat>)
  {
    forall u: nat, i: nat :: Entry(adj, e, u, i) ==> adj[u][i] in e
  }

  /**
   The entries of the lists of e, together with the extra list, name no
   node twice: two entries naming the same node are the same entry, no
   entry names an extra node, and the extra nodes are distinct.
   */
  ghost predicate NamedOnce(adj: seq<seq<nat>>, e: set<nat>, extra: seq<nat>)
  {
    && (forall u1: nat, i1: nat, u2: nat, i2: nat :: Entry(adj, e, u1, i1) && Entry(adj, e, u2, i2) && adj[u1][i1] == adj[u2][i2] ==> u1 == u2 && i1 == i2)
    && (forall u: nat, i: nat, k :: Entry(adj, e, u, i) && 0 <= k < |extra| ==> adj[u][i] != extra[k])
    && (forall k, l :: 0 <= k < l < |extra| ==> extra[k] != extra[l])
  }

  /** Every node of e is an extra node or named by an entry of e's lists. */
  ghost predicate Covered(adj: seq<seq<nat>>, e: set<nat>, extra: seq<nat>)
  {
    forall x :: x in e ==> x in extra || exists u: nat, i: nat :: Entry(adj, e, u, i) && adj[u][i] == x
  }

  /** What a search without revisits leaves: the nodes it marked, e, with the nodes it started from as extra. */
  ghost predicate Reached(adj: seq<seq<nat>>, e: set<nat>, extra: seq<nat>)
  {
    Closed(adj, e) && NamedOnce(adj, e, extra) && Covered(adj, e, extra)
  }

  /**
   A search from node that never revisits started from an unvisited node,
   and the nodes it marks are reached once each: from node itself or from
   one entry of the marked nodes' lists.
   */
  lemma {:induction false} DfsReachedOnce(adj: seq<seq<nat>>, node: nat, vis: set<nat>)
    requires ValidAdjacency(adj) && node < |adj| && vis <= AllNodes(|adj|)
    ensures Dfs(adj, node, vis).1 ==> node !in vis && Reached(adj, Dfs(adj, node, vis).0 - vis, [node])
    decreases Unvisited(adj, vis), 0
  {
    if node !in vis {
      var vis1 := vis + {node};
      assert AllNodes(|adj|) - vis1 == (AllNodes(|adj|) - vis) - {node};
      DfsStep(adj, node, vis);
      var res := DfsList(adj, adj[node], vis1);
      if res.1 {
        DfsListReachedOnce(adj, adj[node], vis1);
        MarkRoot(adj, node, vis, res.0);
      }
    }
  }

  /** Adding the root to what the search over its list marked. */
  lemma MarkRoot(adj: seq<seq<nat>>, node: nat, vis: set<nat>, out: set<nat>)
    requires ValidAdjacency(adj) && node < |adj| && node !in vis && vis + {node} <= out
    requires forall k :: 0 <= k < |adj[node]| ==> adj[node][k] !in vis + {node} && adj[node][k] in out
    requires Reached(adj, out - (vis + {node}), adj[node])
    ensures Reached(adj, out - vis, [node])
  {
    var e1 := out - (vis + {node});
    var e := out - vis;
    assert e == e1 + {node};
    forall u: nat, i: nat | Entry(adj, e, u, i)
      ensures adj[u][i] in e
    {
      if u != node {
        assert Entry(adj, e1, u, i);
      } else {
        assert adj[node][i] !in vis + {node} && adj[node][i] in out;
      }
    }
    forall u1: nat, i1: nat, u2: nat, i2: nat | Entry(adj, e, u1, i1) && Entry(adj, e, u2, i2) && adj[u1][i1] == adj[u2][i2]
      ensures u1 == u2 && i1 == i2
    {
      if u1 != node {
        assert Entry(adj, e1, u1, i1);
      }
      if u2 != node {
        assert Entry(adj, e1, u2, i2);
      }
    }
    forall u: nat, i: nat | Entry(adj, e, u, i)
      ensures adj[u][i] != node
    {
      if u != node {
        assert Entry(adj, e1, u, i);
      }
    }
    forall x | x in e
      ensures x in [node] || exists u: nat, i: nat :: Entry(adj, e, u, i) && adj[u][i] == x
    {
      if x != node {
        if x in adj[node] {
          var i :| 0 <= i < |adj[node]| && adj[node][i] == x;
          assert Entry(adj, e, node, i);
        } else {
          var u: nat, i: nat :| Entry(adj, e1, u, i) && adj[u][i] == x;
          assert Entry(adj, e, u, i);
        }
      }
    }
  }

  /**
   A search over a list that never revisits: the listed nodes were
   unvisited, are marked, and the marked nodes are reached once each.
   */
  lemma {:induction false} DfsListReachedOnce(adj: seq<seq<nat>>, list: seq<nat>, vis: set<nat>)
    requires ValidAdjacency(adj) && vis <= AllNodes(|adj|)
    requires forall i :: 0 <= i < |list| ==> list[i] < |adj|
    ensures DfsList(adj, list, vis).1 ==>
      && (forall k :: 0 <= k < |list| ==> list[k] !in vis && list[k] in DfsList(adj, list, vis).0)
      && Reached(adj, DfsList(adj, list, vis).0 - vis, list)
    decreases Unvisited(adj, vis), 1, |list|
  {
    if list != [] {
      DfsListStep(adj, list, vis);
      var first := Dfs(adj, list[0], vis);
      SubsetCard(AllNodes(|adj|) - first.0, AllNodes(|adj|) - vis);
      var rest := DfsList(adj, list[1..], first.0);
      if first.1 && rest.1 {
        DfsReachedOnce(adj, list[0], vis);
        DfsListReachedOnce(adj, list[1..], first.0);
        JoinReached(adj, list, vis, first.0, rest.0);
      }
    } else {
      assert DfsList(adj, list, vis).0 - vis == {};
    }
  }

  /** The marks of the head's search and of the rest's search join into the marks of the whole list. */
  lemma JoinReached(adj: seq<seq<nat>>, list: seq<nat>, vis: set<nat>, mid: set<nat>, out: set<nat>)
    requires ValidAdjacency(adj) && list != [] && vis <= mid <= out
    requires list[0] !in vis && list[0] in mid && Reached(adj, mid - vis, [list[0]])
    requires forall k :: 0 <= k < |list[1..]| ==> list[1..][k] !in mid && list[1..][k] in out
    requires Reached(adj, out - mid, list[1..])
    ensures forall k :: 0 <= k < |list| ==> list[k] !in vis && list[k] in out
    ensures Reached(adj, out - vis, list)
  {
    var e1, e2, e := mid - vis, out - mid, out - vis;
    assert e == e1 + e2 && e1 !! e2;
    forall k | 0 <= k < |list|
      ensures list[k] !in vis && list[k] in out
    {
      if k > 0 {
        assert list[k] == list[1..][k - 1];
      }
    }
    forall u: nat, i: nat | Entry(adj, e, u, i)
      ensures adj[u][i] in e
    {
      if u in e1 {
        assert Entry(adj, e1, u, i);
      } else {
        assert Entry(adj, e2, u, i);
      }
    }
    forall u1: nat, i1: nat, u2: nat, i2: nat | Entry(adj, e, u1, i1) && Entry(adj, e, u2, i2) && adj[u1][i1] == adj[u2][i2]
      ensures u1 == u2 && i1 == i2
    {
      if u1 in e1 {
        assert Entry(adj, e1, u1, i1);
      } else {
        assert Entry(adj, e2, u1, i1);
      }
      if u2 in e1 {
        assert Entry(adj, e1, u2, i2);
      } else {
        assert Entry(adj, e2, u2, i2);
      }
    }
    forall u: nat, i: nat, k | Entry(adj, e, u, i) && 0 <= k < |list|
      ensures adj[u][i] != list[k]
    {
      EntryApartFromList(adj, list, vis, mid, out, u, i, k);
    }
    forall k, l | 0 <= k < l < |list|
      ensures list[k] != list[l]
    {
      assert list[l] == list[1..][l - 1];
      if k > 0 {
        assert list[k] == list[1..][k - 1];
      }
    }
    forall x | x in e
      ensures x in list || exists u: nat, i: nat :: Entry(adj, e, u, i) && adj[u][i] == x
    {
      if x in e1 {
        if x != list[0] {
          var u: nat, i: nat :| Entry(adj, e1, u, i) && adj[u][i] == x;
          assert Entry(adj, e, u, i);
        }
      } else if x !in list[1..] {
        var u: nat, i: nat :| Entry(adj, e2, u, i) && adj[u][i] == x;
        assert Entry(adj, e, u, i);
      }
    }
  }

  /** A subset as large as its superset is the superset. */
  lemma SameCardSubset(a: set<nat>, b: set<nat>)
    requires a <= b && |a| == |b|
    ensures a == b
  {
    assert b == a + (b - a);
    assert |b - a| == 0;
  }

  /** Some entry of some list names x. */
  ghost predicate NamedIn(adj: seq<seq<nat>>, x: nat)
  {
    exists u, i :: 0 <= u < |adj| && 0 <= i < |adj[u]| && adj[u][i] == x
  }

  /** An entry of a list marked by the head's or the rest's search names none of the listed nodes. */
  lemma EntryApartFromList(adj: seq<seq<nat>>, list: seq<nat>, vis: set<nat>, mid: set<nat>, out: set<nat>, u: nat, i: nat, k: nat)
    requires ValidAdjacency(adj) && list != [] && vis <= mid <= out
    requires list[0] in mid && Reached(adj, mid - vis, [list[0]])
    requires forall k :: 0 <= k < |list[1..]| ==> list[1..][k] !in mid
    requires Reached(adj, out - mid, list[1..])
    requires Entry(adj, out - vis, u, i) && k < |list|
    ensures adj[u][i] != list[k]
  {
    var e1, e2 := mid - vis, out - mid;
    if u in mid {
      assert Entry(adj, e1, u, i);
      assert adj[u][i] in e1;
      if k == 0 {
        assert adj[u][i] != [list[0]][0];
      } else {
        assert list[k] == list[1..][k - 1];
      }
    } else {
      assert Entry(adj, e2, u, i);
      assert adj[u][i] in e2;
      if k > 0 {
        assert list[k] == list[1..][k - 1];
        assert adj[u][i] != list[1..][k - 1];
      }
    }
  }

  /**
   The converse of ProperTreeAccepted: when the check accepts, the search
   reached every node, the root is in no list, and every other node is
   named by exactly one entry of all the lists together.
   */
  lemma ProperTreeReachedOnce(adj: seq<seq<nat>>, root: nat)
    requires ValidAdjacency(adj) && root < |adj| && IsProperTree(adj, root)
    ensures Dfs(adj, root, {}).0 == AllNodes(|adj|)
    ensures forall u, i :: 0 <= u < |adj| && 0 <= i < |adj[u]| ==> adj[u][i] != root
    ensures forall u1, i1, u2, i2 ::
              (0 <= u1 < |adj| && 0 <= i1 < |adj[u1]| && 0 <= u2 < |adj| && 0 <= i2 < |adj[u2]| && adj[u1][i1] == adj[u2][i2])
              ==> u1 == u2 && i1 == i2
    ensures forall x: nat :: x < |adj| && x != root ==> NamedIn(adj, x)
  {
    var all := AllNodes(|adj|);
    var out := Dfs(adj, root, {}).0;
    SameCardSubset(out, all);
    DfsReachedOnce(adj, root, {});
    assert out - {} == all;
    forall u, i | 0 <= u < |adj| && 0 <= i < |adj[u]|
      ensures adj[u][i] != root
    {
      assert Entry(adj, all, u, i);
    }
    forall u1, i1, u2, i2 | 0 <= u1 < |adj| && 0 <= i1 < |adj[u1]| && 0 <= u2 < |adj| && 0 <= i2 < |adj[u2]| && adj[u1][i1] == adj[u2][i2]
      ensures u1 == u2 && i1 == i2
    {
      assert Entry(adj, all, u1, i1) && Entry(adj, all, u2, i2);
    }
    forall x: nat | x < |adj| && x != root
      ensures NamedIn(adj, x)
    {
      assert x in all;
      var u: nat, i: nat :| Entry(adj, all, u, i) && adj[u][i] == x;
    }
  }

  /** A two-node cycle is rejected: the search comes back to the root. */
  lemma CycleRejected()
    ensures !IsProperTree([[1], [0]], 0)
  {
    var adj: seq<seq<nat>> := [[1], [0]];
    assert ValidAdjacency(adj);
    assert Dfs(adj, 0, {0, 1}) == ({0, 1}, false);
    assert DfsList(adj, [], {0, 1}) == ({0, 1}, true);
    assert DfsList(adj, [0], {0, 1}) == ({0, 1}, false);
    assert adj[1] == [0] && {0} + {1} == {0, 1};
    assert Dfs(adj, 1, {0}) == ({0, 1}, false);
    assert DfsList(adj, [1], {0}) == ({0, 1}, false);
  }

  /** In the graph 0 -> 1, 0 -> 2, 1 -> 2, the search through 1 visits every node. */
  lemma SharedChildFirstVisit(adj: seq<seq<nat>>)
    requires adj == [[1, 2], [2], []]
    ensures ValidAdjacency(adj)
    ensures Dfs(adj, 1, {0}) == ({0, 1, 2}, true)
  {
    SharedChildLeaf(adj);
    DfsListStep(adj, [2], {0, 1});
    assert [2][1..] == [];
    assert {0} + {1} == {0, 1};
    DfsStep(adj, 1, {0});
  }

  /** In that graph, node 2 has no children: searching it only marks it. */
  lemma SharedChildLeaf(adj: seq<seq<nat>>)
    requires adj == [[1, 2], [2], []]
    ensures ValidAdjacency(adj)
    ensures Dfs(adj, 2, {0, 1}) == ({0, 1, 2}, true)
  {
    var v01: set<nat>, v012: set<nat> := {0, 1}, {0, 1, 2};
    assert v01 + {2} == v012;
    DfsStep(adj, 2, v01);
  }

  /** A node reachable from the root along two edges is rejected: it is reached a second time. */
  lemma SharedChildRejected()
    ensures !IsProperTree([[1, 2], [2], []], 0)
  {
    var adj: seq<seq<nat>> := [[1, 2], [2], []];
    SharedChildFirstVisit(adj);
    assert Dfs(adj, 2, {0, 1, 2}) == ({0, 1, 2}, false);
    assert DfsList(adj, [2], {0, 1, 2}) == ({0, 1, 2}, false);
    assert DfsList(adj, [1, 2], {0}) == ({0, 1, 2}, false);
  }
}

=== FILE: reattach.dfy ===
/**
 Re-attaching one turbine: the parent map `parent[c := p]` that
 Solution.move produces.  When p is not in c's branch the result is again a
 tree, c's branch keeps its shape, and a node's subtree size changes by c's
 subtree size exactly when it is on the old or the new path to the
 substation.
 */
module Reattach {
  import opened Sums
  import opened Tree

  /** Re-attaching turbine c under p keeps a tree: p is a node outside c's branch. */
  predicate LegalMove(parent: seq<nat>, c: nat, p: nat)
  {
    1 <= c < |parent| && p < |parent| && !InBranch(parent, c, p)
  }

  /** A walk that never meets c does not notice c's new parent. */
  lemma {:induction false} WalkAvoiding(parent: seq<nat>, c: nat, p: nat, x: nat, f: nat)
    requires c < |parent|
    requires c !in Walk(parent, x, f)
    ensures Walk(parent[c := p], x, f) == Walk(parent, x, f)
    decreases f
  {
    if x != 0 && f != 0 && x < |parent| {
      assert Walk(parent, x, f) == [x] + Walk(parent, parent[x], f - 1);
      WalkAvoiding(parent, c, p, parent[x], f - 1);
    }
  }

  /** Nodes outside c's branch keep their path to the substation. */
  lemma ChainOutside(parent: seq<nat>, c: nat, p: nat, x: nat)
    requires Proper(parent) && c < |parent| && x < |parent|
    requires !InBranch(parent, c, x)
    ensures Chain(parent[c := p], x) == Chain(parent, x)
  {
    WalkAvoiding(parent, c, p, x, |parent|);
  }

  /** The new parent's path read with any sufficient fuel in the new map. */
  lemma NewParentWalk(parent: seq<nat>, c: nat, p: nat, g: nat)
    requires Proper(parent) && LegalMove(parent, c, p)
    requires g >= |Chain(parent, p)| - 1
    ensures Walk(parent[c := p], p, g) == Chain(parent, p)
  {
    var n := |parent|;
    assert Reaches(parent, p, n);
    WalkHops(parent, p, n);
    var h := |Chain(parent, p)| - 1;
    WalkFuel(parent, p, h, g);
    WalkFuel(parent, p, h, n);
    WalkAvoiding(parent, c, p, p, g);
  }

  /**
   A walk that meets c first at position k: in the new map it follows the
   old walk up to c and then continues from p.
   */
  lemma {:induction false} WalkRedirect(parent: seq<nat>, c: nat, p: nat, v: nat, f: nat, k: nat)
    requires 1 <= c < |parent|
    requires k < |Walk(parent, v, f)| && Walk(parent, v, f)[k] == c && c !in Walk(parent, v, f)[..k]
    requires f > k
    ensures Walk(parent[c := p], v, f) == Walk(parent, v, f)[..k + 1] + Walk(parent[c := p], p, f - k - 1)
    decreases k
  {
    var w := Walk(parent, v, f);
    var q := parent[c := p];
    if k > 0 {
      assert w[0] == v && v != 0 && v < |parent| && v != c;
      var w' := Walk(parent, parent[v], f - 1);
      assert w == [v] + w';
      assert w[..k] == [v] + w'[..k - 1];
      WalkRedirect(parent, c, p, parent[v], f - 1, k - 1);
      assert Walk(q, v, f) == [v] + Walk(q, parent[v], f - 1);
      assert w[..k + 1] == [v] + w'[..k];
      var r := Walk(q, p, f - k - 1);
      assert Walk(q, parent[v], f - 1) == w'[..k] + r;
      assert [v] + (w'[..k] + r) == ([v] + w'[..k]) + r;
      assert Walk(q, v, f) == w[..k + 1] + r;
    } else {
      assert v == c && w[..1] == [c];
      assert Walk(q, c, f) == [c] + Walk(q, p, f - 1);
    }
  }

  /** Every node of x's path up to c lies in c's branch. */
  lemma PrefixInBranch(parent: seq<nat>, c: nat, x: nat, k: nat, j: nat)
    requires Proper(parent) && x < |parent|
    requires k < |Chain(parent, x)| && Chain(parent, x)[k] == c && j <= k
    ensures InBranch(parent, c, Chain(parent, x)[j])
  {
    ChainSuffix(parent, x, j);
    assert Chain(parent, x)[j..][k - j] == c;
  }

  /** The new path of a node in c's branch: its old path up to c, then p's path. */
  lemma ChainInside(parent: seq<nat>, c: nat, p: nat, x: nat, k: nat)
    requires Proper(parent) && LegalMove(parent, c, p) && x < |parent|
    requires k < |Chain(parent, x)| && Chain(parent, x)[k] == c
    ensures Chain(parent[c := p], x) == Chain(parent, x)[..k + 1] + Chain(parent, p)
  {
    var cx := Chain(parent, x);
    var cp := Chain(parent, p);
    var s := cx[..k + 1] + cp;
    ChainDistinct(parent, x);
    ChainDistinct(parent, p);
    ChainEnds(parent, x);
    ChainEnds(parent, p);
    forall i, j | 0 <= i < j < |s|
      ensures s[i] != s[j]
    {
      if i <= k && j > k {
        PrefixInBranch(parent, c, x, k, i);
        if s[i] == s[j] {
          InBranchTrans(parent, c, s[i], p);
        }
      }
    }
    DistinctBound(s, |parent|);
    assert c !in cx[..k];
    WalkRedirect(parent, c, p, x, |parent|, k);
    NewParentWalk(parent, c, p, |parent| - k - 1);
  }

  /** Re-attaching outside the moved branch keeps the layout a proper tree. */
  lemma MoveKeepsProper(parent: seq<nat>, c: nat, p: nat)
    requires Proper(parent) && LegalMove(parent, c, p)
    ensures Proper(parent[c := p])
  {
    var q := parent[c := p];
    forall x | 0 <= x < |q|
      ensures Reaches(q, x, |q|)
    {
      if InBranch(parent, c, x) {
        var k :| 0 <= k < |Chain(parent, x)| && Chain(parent, x)[k] == c;
        ChainInside(parent, c, p, x, k);
        ChainEnds(parent, p);
      } else {
        ChainOutside(parent, c, p, x);
        ChainEnds(parent, x);
      }
      WalkShape(q, x, |q|);
    }
  }

  /** Membership in c's branch is the same before and after the move. */
  lemma MoveKeepsBranch(parent: seq<nat>, c: nat, p: nat, x: nat)
    requires Proper(parent) && LegalMove(parent, c, p) && x < |parent|
    ensures InBranch(parent[c := p], c, x) <==> InBranch(parent, c, x)
  {
    if InBranch(parent, c, x) {
      var k :| 0 <= k < |Chain(parent, x)| && Chain(parent, x)[k] == c;
      ChainInside(parent, c, p, x, k);
      assert Chain(parent[c := p], x)[k] == c;
    } else {
      ChainOutside(parent, c, p, x);
    }
  }

  /**
   For a node u in c's branch, whose path meets c at position k: the nodes
   above u before the move are its path up to c and then c's old parent's
   path; after the move, its path up to c and then p's path.  The first part
   lies on neither of the other two.
   */
  lemma MoveInBranchInside(parent: seq<nat>, c: nat, p: nat, v: nat, u: nat, k: nat)
    requires Proper(parent) && LegalMove(parent, c, p) && u < |parent|
    requires k < |Chain(parent, u)| && Chain(parent, u)[k] == c
    ensures InBranch(parent[c := p], v, u) <==> v in Chain(parent, u)[..k + 1] || InBranch(parent, v, p)
    ensures InBranch(parent, v, u) <==> v in Chain(parent, u)[..k + 1] || InBranch(parent, v, parent[c])
    ensures v in Chain(parent, u)[..k + 1] ==> !InBranch(parent, v, p) && !InBranch(parent, v, parent[c])
  {
    var cu := Chain(parent, u);
    var pc := parent[c];
    ChainInside(parent, c, p, u, k);
    ChainSuffix(parent, u, k);
    ChainStep(parent, c);
    assert cu[k + 1..] == Chain(parent, pc);
    assert cu == cu[..k + 1] + cu[k + 1..];
    if v in cu[..k + 1] {
      var j :| 0 <= j <= k && cu[j] == v;
      PrefixInBranch(parent, c, u, k, j);
      InBranchParent(parent, c);
      if InBranch(parent, v, p) {
        InBranchTrans(parent, c, v, p);
      }
      if InBranch(parent, v, pc) {
        InBranchTrans(parent, c, v, pc);
      }
    }
  }

  /**
   Branch membership after the move, node by node: for every u,
   [v is above u afterwards] = [v is above u before] + [u in c's branch] * delta(v),
   where delta(v) is [v on p's path] - [v on c's old parent's path].
   */
  lemma MoveIndicator(parent: seq<nat>, c: nat, p: nat, v: nat, u: nat)
    requires Proper(parent) && LegalMove(parent, c, p) && u < |parent|
    ensures BranchIndicator(parent[c := p], v)(u)
         == BranchIndicator(parent, v)(u)
          + BranchIndicator(parent, c)(u) * (Ind(InBranch(parent, v, p)) - Ind(InBranch(parent, v, parent[c])))
  {
    if InBranch(parent, c, u) {
      var k :| 0 <= k < |Chain(parent, u)| && Chain(parent, u)[k] == c;
      MoveInBranchInside(parent, c, p, v, u, k);
    } else {
      ChainOutside(parent, c, p, u);
    }
  }

  function Ind(b: bool): int
  {
    if b then 1 else 0
  }

  /**
   Subtree sizes after re-attaching c under p: the nodes on c's old path
   lose c's subtree size, the nodes on p's path gain it (a node on both
   keeps its size).
   */
  lemma SubtreeSizeAfterMove(parent: seq<nat>, c: nat, p: nat, v: nat)
    requires Proper(parent) && LegalMove(parent, c, p)
    ensures SubtreeSize(parent[c := p], v)
         == SubtreeSize(parent, v)
          - (if InBranch(parent, v, parent[c]) then SubtreeSize(parent, c) else 0)
          + (if InBranch(parent, v, p) then SubtreeSize(parent, c) else 0)
  {
    var q := parent[c := p];
    var d := Ind(InBranch(parent, v, p)) - Ind(InBranch(parent, v, parent[c]));
    forall u | 0 <= u < |parent|
      ensures BranchIndicator(q, v)(u) == BranchIndicator(parent, v)(u) + d * BranchIndicator(parent, c)(u)
    {
      MoveIndicator(parent, c, p, v, u);
    }
    SumLinear(BranchIndicator(q, v), BranchIndicator(parent, v), BranchIndicator(parent, c), d, 0, |parent|);
  }
}

=== FILE: solution.dfy ===
/**
 A candidate layout with its cached cost components (the Solution class of
 src/solution.py): the parent map, the children sets, the power of every
 node, the cable cost, the number of substation connections and the number
 of crossings.  Build recomputes everything from an edge list; Move
 re-attaches one turbine and updates the caches incrementally; MoveBack
 restores a state saved by Move.
 */
module Solution {
  import opened Sums
  import opened Tree
  import opened Reattach
  import opened Branches
  import opened Power
  import opened Geometry
  import opened Instance
  import opened Costs

  datatype State = State(
    parent: seq<nat>,
    children: seq<set<nat>>,
    power: seq<int>,
    cableCost: int,
    fanIn: int,
    crossings: int)

  /** What move saves so that move_back can undo it: the moved turbine, its old parent and the caches. */
  datatype Snapshot = Snapshot(
    child: nat,
    parent: nat,
    power: seq<int>,
    cableCost: int,
    fanIn: int,
    crossings: int)

  /**
   A state whose layout is a tree over the instance's nodes, whose children
   sets match the parent map, and whose power, cable cost and connection
   count equal their from-scratch values.
   */
  predicate Consistent(inst: Instance, s: State)
  {
    && WellFormed(inst)
    && Fits(inst, s.parent)
    && Proper(s.parent)
    && ChildrenOf(s.parent, s.children)
    && |s.power| == |s.parent|
    && (forall v :: 0 <= v < |s.parent| ==> s.power[v] == SubtreeSize(s.parent, v))
    && s.cableCost == CableTotal(inst, s.parent, s.power)
    && s.fanIn == FanIn(s.parent)
  }

  /** The cached crossing count equals the from-scratch count. */
  predicate CrossingsExact(inst: Instance, s: State)
  {
    Fits(inst, s.parent) && s.crossings == Crossings(inst, s.parent)
  }

  /** cost: cables, plus the connection penalty, plus M3 per cached crossing unless crossings are ignored. */
  function Cost(inst: Instance, s: State, ignoreCrossings: bool): int
  {
    s.cableCost + FanInPenalty(inst, s.fanIn) + (if ignoreCrossings then 0 else M3 * s.crossings)
  }

  /** The cost of a tree layout computed from scratch. */
  function LayoutCost(inst: Instance, parent: seq<nat>): int
    requires WellFormed(inst) && Fits(inst, parent) && Proper(parent)
  {
    CableTotal(inst, parent, NodePowers(parent)) + FanInPenalty(inst, FanIn(parent)) + M3 * Crossings(inst, parent)
  }

  /** A consistent state with an exact crossing count prices its layout exactly. */
  lemma CostIsLayoutCost(inst: Instance, s: State)
    requires Consistent(inst, s) && CrossingsExact(inst, s)
    ensures Cost(inst, s, false) == LayoutCost(inst, s.parent)
  {
    assert s.power == NodePowers(s.parent);
  }

  /** get_edges: the edge (i, parent[i]) of every turbine, in turbine order. */
  function GetEdges(parent: seq<nat>): (edges: seq<(nat, nat)>)
    requires |parent| >= 1
    ensures |edges| == |parent| - 1
    ensures forall k :: 0 <= k < |edges| ==> edges[k] == (k + 1, parent[k + 1])
  {
    seq(|parent| - 1, (k: int) requires 0 <= k < |parent| - 1 => ((k + 1) as nat, parent[k + 1]))
  }

  /** _just_move on the children sets: c leaves its old parent's set and joins p's. */
  function JustMoveChildren(children: seq<set<nat>>, parent: seq<nat>, c: nat, p: nat): seq<set<nat>>
    requires c < |parent| && parent[c] < |children| && p < |children|
  {
    var removed := children[parent[c] := children[parent[c]] - {c}];
    removed[p := removed[p] + {c}]
  }

  /** After _just_move the children sets match the new parent map. */
  lemma JustMoveChildrenOf(children: seq<set<nat>>, parent: seq<nat>, c: nat, p: nat)
    requires ValidParents(parent) && ChildrenOf(parent, children) && 1 <= c < |parent| && p < |parent|
    ensures ChildrenOf(parent[c := p], JustMoveChildren(children, parent, c, p))
  {
    var q := parent[c := p];
    var ch := JustMoveChildren(children, parent, c, p);
    forall v | 0 <= v < |q|
      ensures forall u :: u in ch[v] ==> 1 <= u < |q| && q[u] == v
    {
    }
    forall u | 1 <= u < |q|
      ensures q[u] < |q| && u in ch[q[u]]
    {
      if u != c {
        assert u in children[parent[u]];
      }
    }
  }

  /**
   The layout after move(c, p) computed from scratch: the parent map
   parent[c := p], its children sets, powers, cable cost and connection
   count, and the crossing count with c's old crossings removed and its new
   ones added.
   */
  function Moved(inst: Instance, s: State, c: nat, p: nat): (r: State)
    requires Consistent(inst, s) && LegalMove(s.parent, c, p)
    ensures r.parent == s.parent[c := p]
  {
    var q := s.parent[c := p];
    MoveKeepsProper(s.parent, c, p);
    JustMoveChildrenOf(s.children, s.parent, c, p);
    var power := NodePowers(q);
    State(q, JustMoveChildren(s.children, s.parent, c, p), power, CableTotal(inst, q, power), FanIn(q),
          s.crossings - StarCrossings(inst, s.parent, c) + StarCrossings(inst, q, c))
  }

  /** A legal move keeps every cache consistent with the new layout. */
  lemma MovedConsistent(inst: Instance, s: State, c: nat, p: nat)
    requires Consistent(inst, s) && LegalMove(s.parent, c, p)
    ensures Consistent(inst, Moved(inst, s, c, p))
  {
    MoveKeepsProper(s.parent, c, p);
    JustMoveChildrenOf(s.children, s.parent, c, p);
  }

  /** move_back: undo the move recorded in the snapshot and restore the saved caches. */
  function MoveBack(s: State, snap: Snapshot): State
    requires snap.child < |s.parent| && s.parent[snap.child] < |s.children| && snap.parent < |s.children|
  {
    State(s.parent[snap.child := snap.parent],
          JustMoveChildren(s.children, s.parent, snap.child, snap.parent),
          snap.power, snap.cableCost, snap.fanIn, snap.crossings)
  }

  // ---------------------------------------------------------------------
  // Incremental cost updates

  /** Changing one turbine's power reprices exactly that turbine's edge. */
  lemma EdgeCostRepower(inst: Instance, parent: seq<nat>, power: seq<int>, v: nat, x: int)
    requires WellFormed(inst) && Fits(inst, parent) && |power| == |parent|
    requires 1 <= v < |parent| && power[v] >= 0 && x >= 0
    ensures Sum(EdgeCost(inst, parent, power[v := x]), 0, |parent|)
         == Sum(EdgeCost(inst, parent, power), 0, |parent|)
          - CableCost(inst, v, parent[v], power[v]) + CableCost(inst, v, parent[v], x)
  {
    SumOneChange(EdgeCost(inst, parent, power[v := x]), EdgeCost(inst, parent, power), 0, |parent|, v);
  }

  /** Changing one turbine's parent reprices exactly that turbine's edge. */
  lemma EdgeCostReparent(inst: Instance, parent: seq<nat>, power: seq<int>, c: nat, p: nat)
    requires WellFormed(inst) && Fits(inst, parent) && |power| == |parent|
    requires 1 <= c < |parent| && p < |parent| && power[c] >= 0
    ensures Sum(EdgeCost(inst, parent[c := p], power), 0, |parent|)
         == Sum(EdgeCost(inst, parent, power), 0, |parent|)
          - CableCost(inst, c, parent[c], power[c]) + CableCost(inst, c, p, power[c])
  {
    SumOneChange(EdgeCost(inst, parent[c := p], power), EdgeCost(inst, parent, power), 0, |parent|, c);
  }

  /** Every node above c, on its old parent's path, carries more power than c. */
  lemma AboveChildIsHeavier(parent: seq<nat>, c: nat, v: nat)
    requires Proper(parent) && 1 <= c < |parent| && v < |parent|
    requires InBranch(parent, v, parent[c])
    ensures SubtreeSize(parent, c) < SubtreeSize(parent, v)
  {
    InBranchParent(parent, c);
    InBranchTrans(parent, v, parent[c], c);
    if v == c {
      InBranchParent(parent, c);
    }
    BranchSmaller(parent, v, c);
  }

  /**
   The walk of move from a node up to the substation: every node on the
   path except the substation gains `delta` power, and the cable total is
   repriced edge by edge as it goes.  The path is that of the parent map
   given, which move keeps unchanged until both walks are done.
   */
  method AddAlongPath(inst: Instance, parent: seq<nat>, power: seq<int>, cable: int, from: nat, delta: int)
    returns (power': seq<int>, cable': int)
    requires WellFormed(inst) && Fits(inst, parent) && Proper(parent) && |power| == |parent| && from < |parent|
    requires forall v :: 1 <= v < |parent| && InBranch(parent, v, from) ==> power[v] >= 0 && power[v] + delta >= 0
    ensures |power'| == |parent|
    ensures forall v :: 0 <= v < |parent| ==>
      power'[v] == power[v] + (if v != 0 && InBranch(parent, v, from) then delta else 0)
    ensures cable' - Sum(EdgeCost(inst, parent, power'), 0, |parent|)
         == cable - Sum(EdgeCost(inst, parent, power), 0, |parent|)
  {
    var n := |parent|;
    power' := power;
    cable' := cable;
    var node := from;
    ghost var up := Chain(parent, from);
    ghost var k := 0;
    ChainEnds(parent, from);
    while node != 0
      invariant 0 <= k < |up| && node == up[k]
      invariant |power'| == n
      invariant forall v {:trigger power'[v]} :: 0 <= v < n ==> power'[v] == power[v] + (if v in up[..k] then delta else 0)
      invariant cable' - Sum(EdgeCost(inst, parent, power'), 0, n) == cable - Sum(EdgeCost(inst, parent, power), 0, n)
      decreases |up| - k
    {
      PathStep(parent, from, k);
      assert InBranch(parent, node, from) && power'[node] == power[node];
      ghost var before := power';
      power', cable' := Repower(inst, parent, power', cable', node, delta);
      forall v | 0 <= v < n
        ensures power'[v] == power[v] + (if v in up[..k + 1] then delta else 0)
      {
        assert power'[v] == before[v] + (if v == node then delta else 0);
      }
      node := parent[node];
      k := k + 1;
    }
    PathDone(parent, from, k);
  }

  /** One step of that walk: node gains `delta` power and its edge is repriced. */
  method Repower(inst: Instance, parent: seq<nat>, power: seq<int>, cable: int, node: nat, delta: int)
    returns (power': seq<int>, cable': int)
    requires WellFormed(inst) && Fits(inst, parent) && |power| == |parent|
    requires 1 <= node < |parent| && power[node] >= 0 && power[node] + delta >= 0
    ensures power' == power[node := power[node] + delta]
    ensures cable' - Sum(EdgeCost(inst, parent, power'), 0, |parent|)
         == cable - Sum(EdgeCost(inst, parent, power), 0, |parent|)
  {
    var next := parent[node];
    var before := CableCost(inst, node, next, power[node]);
    var after := CableCost(inst, node, next, power[node] + delta);
    EdgeCostRepower(inst, parent, power, node, power[node] + delta);
    cable' := cable - before + after;
    power' := power[node := power[node] + delta];
  }

  /** One step up the path from `from`: the next node is the parent, and no node repeats. */
  lemma PathStep(parent: seq<nat>, from: nat, k: nat)
    requires Proper(parent) && from < |parent|
    requires k < |Chain(parent, from)| && Chain(parent, from)[k] != 0
    ensures k + 1 < |Chain(parent, from)|
    ensures Chain(parent, from)[k] < |parent|
    ensures Chain(parent, from)[k + 1] == parent[Chain(parent, from)[k]]
    ensures Chain(parent, from)[k] !in Chain(parent, from)[..k]
    ensures Chain(parent, from)[..k + 1] == Chain(parent, from)[..k] + [Chain(parent, from)[k]]
  {
    ChainEnds(parent, from);
    ChainDistinct(parent, from);
  }

  /** Once the walk reaches the substation it has visited every turbine of the path. */
  lemma PathDone(parent: seq<nat>, from: nat, k: nat)
    requires Proper(parent) && from < |parent|
    requires k < |Chain(parent, from)| && Chain(parent, from)[k] == 0
    ensures forall v :: v in Chain(parent, from)[..k] <==> v != 0 && v in Chain(parent, from)
  {
    var up := Chain(parent, from);
    ChainEnds(parent, from);
    ChainDistinct(parent, from);
    assert up == up[..k] + [up[k]];
  }

  /**
   The two walks of move: take c's edge out of the cable total, walk from
   the old parent to the substation removing c's power (repricing each
   edge), put c's new edge in, and walk from p adding c's power.  Both walks
   follow the parent map from before the move.
   */
  method ShiftPower(inst: Instance, s: State, c: nat, p: nat) returns (power: seq<int>, cable: int)
    requires Consistent(inst, s) && LegalMove(s.parent, c, p)
    ensures power == Moved(inst, s, c, p).power
    ensures cable == Moved(inst, s, c, p).cableCost
  {
    var parent := s.parent;
    var pc := parent[c];
    var P := s.power[c];
    SubtreeSizeBounds(parent, c);
    cable := s.cableCost - CableCost(inst, c, pc, P);
    forall v | 1 <= v < |parent| && InBranch(parent, v, pc)
      ensures s.power[v] >= 0 && s.power[v] - P >= 0
    {
      AboveChildIsHeavier(parent, c, v);
    }
    var power1, cable1 := AddAlongPath(inst, parent, s.power, cable, pc, -P);
    cable := cable1 + CableCost(inst, c, p, P);
    forall v | 1 <= v < |parent| && InBranch(parent, v, p)
      ensures power1[v] >= 0 && power1[v] + P >= 0
    {
      if InBranch(parent, v, pc) {
        AboveChildIsHeavier(parent, c, v);
      } else {
        SubtreeSizeBounds(parent, v);
      }
    }
    power, cable := AddAlongPath(inst, parent, power1, cable, p, P);
    MoveResult(inst, s, c, p, power1, power, cable1, cable);
  }

  /**
   move(c, p): shift c's power and reprice the edges along both paths,
   adjust the connection count, re-attach c, and recount c's crossings
   before and after re-attaching it.  The snapshot is what save_state keeps.
   */
  method Move(inst: Instance, s: State, c: nat, p: nat) returns (r: State, snap: Snapshot)
    requires Consistent(inst, s) && LegalMove(s.parent, c, p)
    ensures snap.child == c && snap.parent == s.parent[c]
    ensures r == Moved(inst, s, c, p)
    ensures Consistent(inst, r)
    ensures MoveBack(r, snap) == s
    ensures DistinctSites(inst) && CrossingsExact(inst, s) ==> CrossingsExact(inst, r)
  {
    var parent := s.parent;
    var pc := parent[c];
    snap := Snapshot(c, pc, s.power, s.cableCost, s.fanIn, s.crossings);
    var power, cable := ShiftPower(inst, s, c, p);

    var fanIn := s.fanIn - (if parent[c] == 0 then 1 else 0);
    fanIn := fanIn + (if p == 0 then 1 else 0);
    FanInAfterMove(s.parent, c, p);

    var crossings := s.crossings;
    var before := StarCount(inst, parent, c);
    crossings := crossings - before;
    var children := JustMoveChildren(s.children, parent, c, p);
    parent := parent[c := p];
    MoveKeepsProper(s.parent, c, p);
    var after := StarCount(inst, parent, c);
    crossings := crossings + after;

    r := State(parent, children, power, cable, fanIn, crossings);
    ghost var m := Moved(inst, s, c, p);
    assert r.parent == m.parent && r.children == m.children && r.power == m.power;
    assert r.cableCost == m.cableCost && r.fanIn == m.fanIn && r.crossings == m.crossings;
    MoveBackChildren(s.children, s.parent, c, p);
    assert parent[c := pc] == s.parent;
    MovedConsistent(inst, s, c, p);
    if DistinctSites(inst) && CrossingsExact(inst, s) {
      MovedCrossingsExact(inst, s, c, p);
    }
  }

  /** With distinct sites, the incremental crossing update of Moved yields the exact count. */
  lemma MovedCrossingsExact(inst: Instance, s: State, c: nat, p: nat)
    requires Consistent(inst, s) && LegalMove(s.parent, c, p)
    requires DistinctSites(inst) && CrossingsExact(inst, s)
    ensures CrossingsExact(inst, Moved(inst, s, c, p))
  {
    CrossingsAfterMove(inst, s.parent, c, p);
  }

  /**
   The scan of move over every turbine i: count the pairs of c's edge and
   i's edge that share no end and cross.
   */
  method StarCount(inst: Instance, parent: seq<nat>, c: nat) returns (count: int)
    requires Fits(inst, parent) && c < |parent|
    ensures count == StarCrossings(inst, parent, c)
  {
    var pos := inst.position;
    count := 0;
    var i := 1;
    while i < |parent|
      invariant 1 <= i <= |parent|
      invariant count == Sum(StarTerms(inst, parent, c), 1, i)
    {
      SumLast(StarTerms(inst, parent, c), 1, i);
      if !(i == c || i == parent[c] || parent[i] == c || parent[i] == parent[c]) {
        count := count + (if Intersect(pos[c], pos[parent[c]], pos[i], pos[parent[i]]) then 1 else 0);
      }
      i := i + 1;
    }
  }

  /** The caches left by the two walks are the from-scratch values of the new layout. */
  lemma MoveResult(inst: Instance, s: State, c: nat, p: nat, power1: seq<int>, power: seq<int>,
                   cable1: int, cable: int)
    requires Consistent(inst, s) && LegalMove(s.parent, c, p)
    requires |power1| == |s.parent| && |power| == |s.parent|
    requires forall v :: 0 <= v < |s.parent| ==>
      power1[v] == s.power[v] - (if v != 0 && InBranch(s.parent, v, s.parent[c]) then s.power[c] else 0)
    requires forall v :: 0 <= v < |s.parent| ==>
      power[v] == power1[v] + (if v != 0 && InBranch(s.parent, v, p) then s.power[c] else 0)
    requires s.power[c] >= 0
    requires cable1 - Sum(EdgeCost(inst, s.parent, power1), 0, |s.parent|)
          == s.cableCost - CableCost(inst, c, s.parent[c], s.power[c]) - Sum(EdgeCost(inst, s.parent, s.power), 0, |s.parent|)
    requires cable - Sum(EdgeCost(inst, s.parent, power), 0, |s.parent|)
          == cable1 + CableCost(inst, c, p, s.power[c]) - Sum(EdgeCost(inst, s.parent, power1), 0, |s.parent|)
    ensures power == Moved(inst, s, c, p).power
    ensures cable == Moved(inst, s, c, p).cableCost
  {
    var q := s.parent[c := p];
    var pc := s.parent[c];
    MoveKeepsProper(s.parent, c, p);
    forall v | 0 <= v < |s.parent|
      ensures power[v] == SubtreeSize(q, v)
    {
      if v == 0 {
        SubtreeSizeRoot(s.parent);
        SubtreeSizeRoot(q);
      } else {
        SubtreeSizeAfterMove(s.parent, c, p, v);
      }
    }
    assert power == NodePowers(q);
    InBranchParent(s.parent, c);
    assert !InBranch(s.parent, c, p);
    assert power[c] == s.power[c];
    EdgeCostReparent(inst, s.parent, power, c, p);
  }

  /** _just_move back to the old parent restores the children sets. */
  lemma MoveBackChildren(children: seq<set<nat>>, parent: seq<nat>, c: nat, p: nat)
    requires ValidParents(parent) && ChildrenOf(parent, children) && 1 <= c < |parent| && p < |parent|
    ensures JustMoveChildren(JustMoveChildren(children, parent, c, p), parent[c := p], c, parent[c]) == children
  {
    var pc := parent[c];
    var once := JustMoveChildren(children, parent, c, p);
    var twice := JustMoveChildren(once, parent[c := p], c, pc);
    assert c in children[pc];
    forall v | 0 <= v < |children|
      ensures twice[v] == children[v]
    {
      if v == p && p != pc {
        assert c !in children[p];
      }
    }
  }

  /**
   Moving a turbine and then moving it back to its old parent with a plain
   move restores the state exactly, the crossing count included: the
   second move removes the crossings the first one added and adds back the
   ones it removed.
   */
  lemma MovedTwice(inst: Instance, s: State, c: nat, p: nat)
    requires Consistent(inst, s) && LegalMove(s.parent, c, p)
    ensures Consistent(inst, Moved(inst, s, c, p))
    ensures LegalMove(Moved(inst, s, c, p).parent, c, s.parent[c])
    ensures Moved(inst, Moved(inst, s, c, p), c, s.parent[c]) == s
  {
    var pc := s.parent[c];
    var m := Moved(inst, s, c, p);
    MovedConsistent(inst, s, c, p);
    InBranchParent(s.parent, c);
    MoveKeepsBranch(s.parent, c, p, pc);
    assert m.parent[c := pc] == s.parent;
    MoveBackChildren(s.children, s.parent, c, p);
    assert NodePowers(s.parent) == s.power;
  }

  // ---------------------------------------------------------------------
  // Rebuilding from an edge list

  /**
   An edge list naming every turbine exactly once as its child end and the
   substation never, with both ends among the n nodes.
   */
  predicate SpanningEdges(edges: seq<(nat, nat)>, n: nat)
  {
    && (forall k :: 0 <= k < |edges| ==> 1 <= edges[k].0 < n && edges[k].1 < n)
    && (forall k, l :: 0 <= k < l < |edges| ==> edges[k].0 != edges[l].0)
    && (forall v :: 1 <= v < n ==> Named(edges, v))
  }

  /** Some edge has v as its child end. */
  predicate Named(edges: seq<(nat, nat)>, v: nat)
  {
    exists k :: 0 <= k < |edges| && edges[k].0 == v
  }

  /** The parent map after parent[a] := b for each edge (a, b) in turn. */
  function ApplyEdges(base: seq<nat>, edges: seq<(nat, nat)>): (parent: seq<nat>)
    ensures |parent| == |base|
    decreases |edges|
  {
    if edges == [] then base
    else
      var prev := ApplyEdges(base, edges[..|edges| - 1]);
      var e := edges[|edges| - 1];
      if e.0 < |prev| then prev[e.0 := e.1] else prev
  }

  /** The children sets after adding a to the set of b for each edge (a, b) in turn, starting empty. */
  function EdgeChildren(n: nat, edges: seq<(nat, nat)>): (children: seq<set<nat>>)
    ensures |children| == n
    decreases |edges|
  {
    if edges == [] then seq(n, _ => {})
    else
      var prev := EdgeChildren(n, edges[..|edges| - 1]);
      var e := edges[|edges| - 1];
      if e.1 < n then prev[e.1 := prev[e.1] + {e.0}] else prev
  }

  /** The parent of a turbine named by an edge is that edge's other end; any other entry keeps its old value. */
  lemma {:induction false} ApplyEdgesAt(base: seq<nat>, edges: seq<(nat, nat)>, v: nat)
    requires v < |base|
    requires forall k, l :: 0 <= k < l < |edges| ==> edges[k].0 != edges[l].0
    ensures forall k :: 0 <= k < |edges| && edges[k].0 == v ==> ApplyEdges(base, edges)[v] == edges[k].1
    ensures (forall k :: 0 <= k < |edges| ==> edges[k].0 != v) ==> ApplyEdges(base, edges)[v] == base[v]
    decreases |edges|
  {
    if edges != [] {
      var front := edges[..|edges| - 1];
      ApplyEdgesAt(base, front, v);
      assert forall k :: 0 <= k < |front| ==> front[k] == edges[k];
    }
  }

  /** A turbine no edge names as a child keeps its entry of `base`. */
  lemma {:induction false} ApplyEdgesUnnamed(base: seq<nat>, edges: seq<(nat, nat)>, v: nat)
    requires v < |base|
    requires forall k :: 0 <= k < |edges| ==> edges[k].0 != v
    ensures ApplyEdges(base, edges)[v] == base[v]
    decreases |edges|
  {
    if edges != [] {
      var front := edges[..|edges| - 1];
      assert forall k :: 0 <= k < |front| ==> front[k] == edges[k];
      ApplyEdgesUnnamed(base, front, v);
    }
  }

  /** u is in the children set of v exactly when some edge is (u, v). */
  lemma {:induction false} EdgeChildrenMembers(n: nat, edges: seq<(nat, nat)>, v: nat, u: nat)
    requires v < n
    ensures u in EdgeChildren(n, edges)[v] <==> exists k :: 0 <= k < |edges| && edges[k] == (u, v)
    decreases |edges|
  {
    if edges != [] {
      var front := edges[..|edges| - 1];
      EdgeChildrenMembers(n, front, v, u);
      assert forall k :: 0 <= k < |front| ==> front[k] == edges[k];
      if u in EdgeChildren(n, front)[v] {
        var k :| 0 <= k < |front| && front[k] == (u, v);
        assert edges[k] == (u, v);
      }
    }
  }

  /** A spanning edge list determines the parent map: each turbine's parent is the other end of its edge. */
  lemma SpanningEdgesParent(base: seq<nat>, edges: seq<(nat, nat)>)
    requires |base| >= 1 && base[0] == 0 && SpanningEdges(edges, |base|)
    ensures forall k :: 0 <= k < |edges| ==> ApplyEdges(base, edges)[edges[k].0] == edges[k].1
    ensures ValidParents(ApplyEdges(base, edges))
  {
    var parent := ApplyEdges(base, edges);
    forall k | 0 <= k < |edges|
      ensures parent[edges[k].0] == edges[k].1
    {
      ApplyEdgesAt(base, edges, edges[k].0);
    }
    ApplyEdgesAt(base, edges, 0);
    forall v | 1 <= v < |base|
      ensures parent[v] < |base|
    {
      assert Named(edges, v);
    }
  }

  /** The children sets built from a spanning edge list match the parent map built from it. */
  lemma SpanningEdgesTree(base: seq<nat>, edges: seq<(nat, nat)>)
    requires |base| >= 1 && base[0] == 0 && SpanningEdges(edges, |base|)
    ensures ValidParents(ApplyEdges(base, edges))
    ensures ChildrenOf(ApplyEdges(base, edges), EdgeChildren(|base|, edges))
  {
    var n := |base|;
    var parent := ApplyEdges(base, edges);
    var children := EdgeChildren(n, edges);
    SpanningEdgesParent(base, edges);
    forall v | 1 <= v < n
      ensures v in children[parent[v]]
    {
      assert Named(edges, v);
      var k :| 0 <= k < |edges| && edges[k].0 == v;
      EdgeChildrenMembers(n, edges, parent[v], v);
    }
    forall v | 0 <= v < n
      ensures forall u :: u in children[v] ==> 1 <= u < n && parent[u] == v
    {
      forall u | u in children[v]
        ensures 1 <= u < n && parent[u] == v
      {
        EdgeChildrenMembers(n, edges, v, u);
      }
    }
  }

  /** The edges of a parent map, fed back in from any start, rebuild that parent map. */
  lemma GetEdgesRebuild(base: seq<nat>, parent: seq<nat>)
    requires ValidParents(parent) && |base| == |parent| && base[0] == 0
    ensures SpanningEdges(GetEdges(parent), |parent|)
    ensures ApplyEdges(base, GetEdges(parent)) == parent
  {
    var n := |parent|;
    var edges := GetEdges(parent);
    forall v | 1 <= v < n
      ensures Named(edges, v)
    {
      assert edges[v - 1].0 == v;
    }
    SpanningEdgesParent(base, edges);
    var q := ApplyEdges(base, edges);
    ApplyEdgesAt(base, edges, 0);
    forall v | 0 <= v < n
      ensures q[v] == parent[v]
    {
      if v > 0 {
        assert edges[v - 1].0 == v;
      }
    }
  }

  /** The edges of a tree, fed back in, rebuild its children sets too. */
  lemma GetEdgesRoundTrip(base: seq<nat>, parent: seq<nat>, children: seq<set<nat>>)
    requires ValidParents(parent) && ChildrenOf(parent, children)
    requires |base| == |parent| && base[0] == 0
    ensures SpanningEdges(GetEdges(parent), |parent|)
    ensures ApplyEdges(base, GetEdges(parent)) == parent
    ensures EdgeChildren(|parent|, GetEdges(parent)) == children
  {
    GetEdgesRebuild(base, parent);
    SpanningEdgesTree(base, GetEdges(parent));
    ChildrenOfUnique(parent, children, EdgeChildren(|parent|, GetEdges(parent)));
  }

  /** The children sets of a parent map are determined by it. */
  lemma ChildrenOfUnique(parent: seq<nat>, a: seq<set<nat>>, b: seq<set<nat>>)
    requires ChildrenOf(parent, a) && ChildrenOf(parent, b)
    ensures a == b
  {
    forall v | 0 <= v < |parent|
      ensures a[v] == b[v]
    {
      forall u | u in a[v]
        ensures u in b[v]
      {
      }
      forall u | u in b[v]
        ensures u in a[v]
      {
      }
    }
  }

  /** Two consistent states over the same tree with the same crossing count are equal. */
  lemma ConsistentUnique(inst: Instance, s: State, t: State)
    requires Consistent(inst, s) && Consistent(inst, t)
    requires s.parent == t.parent && s.crossings == t.crossings
    ensures s == t
  {
    ChildrenOfUnique(s.parent, s.children, t.children);
    assert s.power == t.power;
  }

  /** cost_for_cables with recalculate: the price of every edge of get_edges at its child's power. */
  method CableSum(inst: Instance, parent: seq<nat>, power: seq<int>) returns (cost: int)
    requires WellFormed(inst) && Fits(inst, parent) && |power| == |parent|
    requires forall v :: 0 <= v < |power| ==> power[v] >= 0
    ensures cost == CableTotal(inst, parent, power)
  {
    var edges := GetEdges(parent);
    cost := 0;
    var k := 0;
    while k < |edges|
      invariant 0 <= k <= |edges|
      invariant cost == Sum(EdgeCost(inst, parent, power), 0, k + 1)
    {
      var (a, b) := edges[k];
      SumLast(EdgeCost(inst, parent, power), 0, k + 1);
      cost := cost + CableCost(inst, a, b, power[a]);
      k := k + 1;
    }
  }

  /** connections_to_substation with recalculate: count the turbines whose parent is the substation. */
  method CountConnections(parent: seq<nat>) returns (count: int)
    requires |parent| >= 1
    ensures count == FanIn(parent)
  {
    count := 0;
    var v := 1;
    while v < |parent|
      invariant 1 <= v <= |parent|
      invariant count == Sum(SubstationLink(parent), 0, v)
    {
      SumLast(SubstationLink(parent), 0, v);
      if parent[v] == 0 {
        count := count + 1;
      }
      v := v + 1;
    }
  }

  /**
   number_of_crossings with recalculate: every pair of edges i < j of
   get_edges whose four ends are pairwise distinct and whose segments
   intersect.
   */
  method CountCrossings(inst: Instance, parent: seq<nat>) returns (count: int)
    requires Fits(inst, parent)
    ensures count == Crossings(inst, parent)
  {
    var n := |parent|;
    var edges := GetEdges(parent);
    var pos := inst.position;
    ghost var f := CrossingPairs(inst, parent);
    count := 0;
    var i := 0;
    while i < |edges|
      invariant 0 <= i <= |edges|
      invariant count + RowMajor(f, i + 1, n) == RowMajor(f, 1, n)
    {
      var j := i + 1;
      while j < |edges|
        invariant i + 1 <= j <= |edges|
        invariant count + Tail(f, i + 1, j + 1, n) + RowMajor(f, i + 2, n) == RowMajor(f, 1, n)
      {
        if edges[i].0 != edges[j].0 && edges[i].0 != edges[j].1 && edges[i].1 != edges[j].0 && edges[i].1 != edges[j].1 {
          count := count + (if Intersect(pos[edges[i].0], pos[edges[i].1], pos[edges[j].0], pos[edges[j].1]) then 1 else 0);
        }
        j := j + 1;
      }
      i := i + 1;
    }
    RowMajorIsPairSum(f, 1, n);
  }

  /** The edge loop of build: write each edge (a, b) as parent[a] := b and add a to the children of b. */
  method WriteEdges(base: seq<nat>, edges: seq<(nat, nat)>) returns (parent: seq<nat>, children: seq<set<nat>>)
    requires forall k :: 0 <= k < |edges| ==> edges[k].0 < |base| && edges[k].1 < |base|
    ensures parent == ApplyEdges(base, edges)
    ensures children == EdgeChildren(|base|, edges)
  {
    var n := |base|;
    parent := base;
    children := seq(n, _ => {});
    var k := 0;
    while k < |edges|
      invariant 0 <= k <= |edges|
      invariant parent == ApplyEdges(base, edges[..k])
      invariant children == EdgeChildren(n, edges[..k])
    {
      var (a, b) := edges[k];
      assert edges[..k + 1][..k] == edges[..k];
      parent := parent[a := b];
      children := children[b := children[b] + {a}];
      k := k + 1;
    }
    assert edges[..k] == edges;
  }

  /** Every end of every edge is one of the n nodes. */
  predicate EdgesInRange(edges: seq<(nat, nat)>, n: nat)
  {
    forall k :: 0 <= k < |edges| ==> edges[k].0 < n && edges[k].1 < n
  }

  /**
   build with a list that leaves turbine v unnamed: v's parent entry is
   kept, but v sits in no children set, so the children sets stop being the
   inverse of the parent map.
   */
  lemma UnnamedLeavesChildren(base: seq<nat>, edges: seq<(nat, nat)>, v: nat)
    requires 1 <= v < |base| && !Named(edges, v)
    ensures ApplyEdges(base, edges)[v] == base[v]
    ensures forall w :: 0 <= w < |base| ==> v !in EdgeChildren(|base|, edges)[w]
    ensures !ChildrenOf(ApplyEdges(base, edges), EdgeChildren(|base|, edges))
  {
    ApplyEdgesUnnamed(base, edges, v);
    forall w | 0 <= w < |base|
      ensures v !in EdgeChildren(|base|, edges)[w]
    {
      EdgeChildrenMembers(|base|, edges, w, v);
    }
  }

  /**
   What build's write loop leaves for any in-range list: unnamed entries
   keep their old parent, named ones (when each is named once) take their
   edge's other end, and the children sets hold exactly the listed edges;
   for a list naming every turbine once they are the inverse of the parent
   map.
   */
  lemma WrittenEdges(base: seq<nat>, edges: seq<(nat, nat)>)
    requires |base| >= 1 && base[0] == 0 && EdgesInRange(edges, |base|)
    ensures forall v :: 0 <= v < |base| && !Named(edges, v) ==> ApplyEdges(base, edges)[v] == base[v]
    ensures (forall k, l :: 0 <= k < l < |edges| ==> edges[k].0 != edges[l].0) ==>
              forall k :: 0 <= k < |edges| ==> ApplyEdges(base, edges)[edges[k].0] == edges[k].1
    ensures forall v, u: nat :: 0 <= v < |base| ==> (u in EdgeChildren(|base|, edges)[v] <==> exists k :: 0 <= k < |edges| && edges[k] == (u, v))
    ensures SpanningEdges(edges, |base|) ==> ValidParents(ApplyEdges(base, edges)) && ChildrenOf(ApplyEdges(base, edges), EdgeChildren(|base|, edges))
  {
    forall v | 0 <= v < |base| && !Named(edges, v)
      ensures ApplyEdges(base, edges)[v] == base[v]
    {
      ApplyEdgesUnnamed(base, edges, v);
    }
    if forall k, l :: 0 <= k < l < |edges| ==> edges[k].0 != edges[l].0 {
      forall k | 0 <= k < |edges|
        ensures ApplyEdges(base, edges)[edges[k].0] == edges[k].1
      {
        ApplyEdgesAt(base, edges, edges[k].0);
      }
    }
    forall v, u: nat | 0 <= v < |base|
      ensures u in EdgeChildren(|base|, edges)[v] <==> exists k :: 0 <= k < |edges| && edges[k] == (u, v)
    {
      EdgeChildrenMembers(|base|, edges, v, u);
    }
    if SpanningEdges(edges, |base|) {
      SpanningEdgesTree(base, edges);
    }
  }

  /**
   build's write loop with what it leaves behind, for any in-range list
   over a map whose entry 0 is the substation.
   */
  method Rewire(base: seq<nat>, edges: seq<(nat, nat)>) returns (parent: seq<nat>, children: seq<set<nat>>)
    requires |base| >= 1 && base[0] == 0 && EdgesInRange(edges, |base|)
    ensures parent == ApplyEdges(base, edges) && |children| == |base|
    ensures forall v :: 0 <= v < |base| && !Named(edges, v) ==> parent[v] == base[v]
    ensures (forall k, l :: 0 <= k < l < |edges| ==> edges[k].0 != edges[l].0) ==>
              forall k :: 0 <= k < |edges| ==> parent[edges[k].0] == edges[k].1
    ensures forall v, u: nat :: 0 <= v < |base| ==> (u in children[v] <==> exists k :: 0 <= k < |edges| && edges[k] == (u, v))
    ensures SpanningEdges(edges, |base|) ==> ChildrenOf(parent, children)
    ensures children == EdgeChildren(|base|, edges)
  {
    parent, children := WriteEdges(base, edges);
    WrittenEdges(base, edges);
  }

  /**
   build: clear the children sets, write every edge into the parent map and
   the children sets, then recompute the powers, the cable cost, the
   connection count and, unless crossings are ignored, the crossing count,
   and return the cost.  The powers, cable cost and connection count are
   read off the parent map, so they are exact for any list; the children
   sets hold the listed edges only, which is the inverse of the parent map
   when every turbine is named once.  With crossings ignored the old
   crossing count is kept but not charged.  Rebuilding a consistent state
   from its own edges gives the state back.
   */
  method Build(inst: Instance, s: State, edges: seq<(nat, nat)>, ignoreCrossings: bool) returns (r: State, cost: int)
    requires WellFormed(inst) && Fits(inst, s.parent)
    requires EdgesInRange(edges, |s.parent|)
    requires Proper(ApplyEdges(s.parent, edges))
    ensures r.parent == ApplyEdges(s.parent, edges)
    ensures forall v :: 0 <= v < |s.parent| && !Named(edges, v) ==> r.parent[v] == s.parent[v]
    ensures (forall k, l :: 0 <= k < l < |edges| ==> edges[k].0 != edges[l].0) ==>
              forall k :: 0 <= k < |edges| ==> r.parent[edges[k].0] == edges[k].1
    ensures |r.children| == |r.power| == |s.parent|
    ensures forall v, u: nat :: 0 <= v < |s.parent| ==> (u in r.children[v] <==> exists k :: 0 <= k < |edges| && edges[k] == (u, v))
    ensures forall v :: 0 <= v < |s.parent| ==> r.power[v] == SubtreeSize(r.parent, v)
    ensures r.cableCost == CableTotal(inst, r.parent, r.power) && r.fanIn == FanIn(r.parent)
    ensures SpanningEdges(edges, |s.parent|) ==> Consistent(inst, r)
    ensures ignoreCrossings ==> r.crossings == s.crossings
    ensures !ignoreCrossings ==> CrossingsExact(inst, r)
    ensures cost == Cost(inst, r, ignoreCrossings)
    ensures Consistent(inst, s) && CrossingsExact(inst, s) && edges == GetEdges(s.parent) ==> r == s
  {
    var parent, children := Rewire(s.parent, edges);
    var power, cable, fanIn, crossings := Recount(inst, parent, s.crossings, ignoreCrossings);
    r := State(parent, children, power, cable, fanIn, crossings);
    assert r.parent == parent && r.children == children && r.power == power;
    cost := cable + FanInPenalty(inst, fanIn) + (if ignoreCrossings then 0 else M3 * crossings);
    if Consistent(inst, s) && CrossingsExact(inst, s) && edges == GetEdges(s.parent) {
      RebuildOwn(inst, s, r);
    }
  }

  /** A state rebuilt from a consistent state's own edges, keeping or recounting its crossings, is that state. */
  lemma RebuildOwn(inst: Instance, s: State, r: State)
    requires Consistent(inst, s)
    requires r.parent == ApplyEdges(s.parent, GetEdges(s.parent))
    requires r.children == EdgeChildren(|s.parent|, GetEdges(s.parent))
    requires |r.power| == |r.parent| && forall v :: 0 <= v < |r.parent| ==> r.power[v] == SubtreeSize(r.parent, v)
    requires r.cableCost == CableTotal(inst, r.parent, r.power) && r.fanIn == FanIn(r.parent)
    requires CrossingsExact(inst, s) && (r.crossings == s.crossings || CrossingsExact(inst, r))
    ensures r == s
  {
    GetEdgesRoundTrip(s.parent, s.parent, s.children);
    assert r.crossings == s.crossings;
    ConsistentUnique(inst, r, s);
  }

  /**
   cost with recalculate, as build calls it: every cached component read
   off the parent map from scratch; with crossings ignored the old count is
   kept.
   */
  method Recount(inst: Instance, parent: seq<nat>, oldCrossings: int, ignoreCrossings: bool)
    returns (power: seq<int>, cable: int, fanIn: int, crossings: int)
    requires WellFormed(inst) && Fits(inst, parent) && Proper(parent)
    ensures |power| == |parent| && forall v :: 0 <= v < |parent| ==> power[v] == SubtreeSize(parent, v)
    ensures cable == CableTotal(inst, parent, power) && fanIn == FanIn(parent)
    ensures ignoreCrossings ==> crossings == oldCrossings
    ensures !ignoreCrossings ==> crossings == Crossings(inst, parent)
  {
    power := NodePowers(parent);
    SubtreeSizesPositive(parent);
    cable := CableSum(inst, parent, power);
    fanIn := CountConnections(parent);
    crossings := oldCrossings;
    if !ignoreCrossings {
      crossings := CountCrossings(inst, parent);
    }
  }

  lemma SubtreeSizesPositive(parent: seq<nat>)
    requires Proper(parent)
    ensures forall v :: 0 <= v < |parent| ==> NodePowers(parent)[v] >= 0
  {
    forall v | 0 <= v < |parent|
      ensures SubtreeSize(parent, v) >= 1
    {
      SubtreeSizeBounds(parent, v);
    }
  }

  /**
   The constructor: a parent map of zeros and empty children sets, then
   build with crossings counted.  A turbine the list leaves out keeps parent
   0 and joins no children set.
   */
  method New(inst: Instance, edges: seq<(nat, nat)>) returns (r: State)
    requires WellFormed(inst)
    requires EdgesInRange(edges, Size(inst))
    requires Proper(ApplyEdges(seq(Size(inst), _ => 0), edges))
    ensures r.parent == ApplyEdges(seq(Size(inst), _ => 0), edges) && CrossingsExact(inst, r)
    ensures forall v :: 0 <= v < Size(inst) && !Named(edges, v) ==> r.parent[v] == 0
    ensures |r.children| == |r.power| == Size(inst)
    ensures forall v, u: nat :: 0 <= v < Size(inst) ==> (u in r.children[v] <==> exists k :: 0 <= k < |edges| && edges[k] == (u, v))
    ensures forall v :: 0 <= v < Size(inst) ==> r.power[v] == SubtreeSize(r.parent, v)
    ensures SpanningEdges(edges, Size(inst)) ==> Consistent(inst, r)
    ensures SpanningEdges(edges, Size(inst)) ==> forall k :: 0 <= k < |edges| ==> r.parent[edges[k].0] == edges[k].1
  {
    var n := Size(inst);
    var blank := State(seq(n, _ => 0), seq(n, _ => {}), seq(n, _ => 0), 0, 0, 0);
    var cost;
    r, cost := Build(inst, blank, edges, false);
  }
}

=== FILE: sorting.dfy ===
/**
 Stable sorting under a total preorder, for the two sorts of the system:
 the cable list sorted by its (capacity, cost per meter, availability)
 tuples, and a group of turbines sorted by distance to the substation.
 Elements that compare equal keep their input order.
 */
module Sorting {

  /** `le` is total and transitive: a valid "sorts no later than" relation. */
  ghost predicate TotalPreorder<T(!new)>(le: (T, T) -> bool)
  {
    && (forall a, b :: le(a, b) || le(b, a))
    && (forall a, b, c :: le(a, b) && le(b, c) ==> le(a, c))
  }

  predicate SortedBy<T>(s: seq<T>, le: (T, T) -> bool)
  {
    forall i, j :: 0 <= i < j < |s| ==> le(s[i], s[j])
  }

  /**
   Inserts x into a sorted sequence after every element that sorts no later
   than it, i.e. behind the last of its equals.
   */
  function Insert<T(!new)>(s: seq<T>, x: T, le: (T, T) -> bool): (r: seq<T>)
    requires TotalPreorder(le) && SortedBy(s, le)
    ensures SortedBy(r, le)
    ensures multiset(r) == multiset(s) + multiset{x}
    ensures |r| == |s| + 1
    decreases |s|
  {
    if |s| == 0 then [x]
    else if le(s[|s| - 1], x) then s + [x]
    else
      var t := Insert(s[..|s| - 1], x, le);
      assert s == s[..|s| - 1] + [s[|s| - 1]];
      BelowLast(s, x, le, t);
      t + [s[|s| - 1]]
  }

  /** Whatever Insert builds from the front sorts no later than a last element that sorts after x. */
  lemma BelowLast<T(!new)>(s: seq<T>, x: T, le: (T, T) -> bool, t: seq<T>)
    requires TotalPreorder(le) && SortedBy(s, le) && |s| > 0 && !le(s[|s| - 1], x)
    requires SortedBy(t, le) && multiset(t) == multiset(s[..|s| - 1]) + multiset{x}
    ensures SortedBy(t + [s[|s| - 1]], le)
  {
    var last := s[|s| - 1];
    forall i | 0 <= i < |t|
      ensures le(t[i], last)
    {
      assert t[i] in multiset(t);
      assert t[i] == x || t[i] in multiset(s[..|s| - 1]);
    }
    var r := t + [last];
    forall i, j | 0 <= i < j < |r|
      ensures le(r[i], r[j])
    {
      if j < |t| {
        assert r[i] == t[i] && r[j] == t[j];
      }
    }
  }

  /** Insertion sort, left to right: a stable sort under `le`. */
  function Sort<T(!new)>(s: seq<T>, le: (T, T) -> bool): (r: seq<T>)
    requires TotalPreorder(le)
    ensures SortedBy(r, le)
    ensures multiset(r) == multiset(s)
    ensures |r| == |s|
    decreases |s|
  {
    if |s| == 0 then []
    else
      assert s == s[..|s| - 1] + [s[|s| - 1]];
      Insert(Sort(s[..|s| - 1], le), s[|s| - 1], le)
  }

  /** The elements of s that sort equal to a under `le`, in their order in s. */
  function Ties<T>(s: seq<T>, le: (T, T) -> bool, a: T): seq<T>
    decreases |s|
  {
    if s == [] then []
    else
      var x := s[|s| - 1];
      Ties(s[..|s| - 1], le, a) + (if le(x, a) && le(a, x) then [x] else [])
  }

  /** Ties of a sequence with one more element at the end. */
  lemma TiesSnoc<T>(s: seq<T>, y: T, le: (T, T) -> bool, a: T)
    ensures Ties(s + [y], le, a) == Ties(s, le, a) + (if le(y, a) && le(a, y) then [y] else [])
  {
    assert (s + [y])[..|s|] == s;
  }

  /** Insert behind the last element when that sorts no later than x, and before it otherwise. */
  lemma InsertLast<T(!new)>(s: seq<T>, x: T, le: (T, T) -> bool)
    requires TotalPreorder(le) && SortedBy(s, le) && |s| > 0
    ensures SortedBy(s[..|s| - 1], le)
    ensures le(s[|s| - 1], x) ==> Insert(s, x, le) == s + [x]
    ensures !le(s[|s| - 1], x) ==> Insert(s, x, le) == Insert(s[..|s| - 1], x, le) + [s[|s| - 1]]
  {
  }

  /** Inserting x puts it behind every element that sorts equal to it. */
  lemma {:induction false} InsertStable<T(!new)>(s: seq<T>, x: T, le: (T, T) -> bool, a: T)
    requires TotalPreorder(le) && SortedBy(s, le)
    ensures Ties(Insert(s, x, le), le, a) == Ties(s, le, a) + (if le(x, a) && le(a, x) then [x] else [])
    decreases |s|
  {
    if |s| == 0 {
      assert Insert(s, x, le) == [] + [x];
      TiesSnoc([], x, le, a);
    } else {
      var front, last := s[..|s| - 1], s[|s| - 1];
      InsertLast(s, x, le);
      if le(last, x) {
        TiesSnoc(s, x, le, a);
      } else {
        assert s == front + [last];
        InsertStable(front, x, le, a);
        TiesApart(le, x, last, a);
        TiesBehind(Insert(front, x, le), front, last, x, le, a);
      }
    }
  }

  /** Appending the same last element to both sides keeps x's tie accounting, when last does not tie with x. */
  lemma TiesBehind<T>(u: seq<T>, front: seq<T>, last: T, x: T, le: (T, T) -> bool, a: T)
    requires Ties(u, le, a) == Ties(front, le, a) + (if le(x, a) && le(a, x) then [x] else [])
    requires le(x, a) && le(a, x) ==> !(le(last, a) && le(a, last))
    ensures Ties(u + [last], le, a) == Ties(front + [last], le, a) + (if le(x, a) && le(a, x) then [x] else [])
  {
    TiesSnoc(u, last, le, a);
    TiesSnoc(front, last, le, a);
  }

  /** An element that sorts strictly after x is not a tie of anything x ties with. */
  lemma TiesApart<T(!new)>(le: (T, T) -> bool, x: T, y: T, a: T)
    requires TotalPreorder(le) && !le(y, x)
    ensures le(x, a) && le(a, x) ==> !(le(y, a) && le(a, y))
  {
  }

  /** The sort is stable: elements that sort equal keep their input order. */
  lemma {:induction false} SortStable<T(!new)>(s: seq<T>, le: (T, T) -> bool, a: T)
    requires TotalPreorder(le)
    ensures Ties(Sort(s, le), le, a) == Ties(s, le, a)
    decreases |s|
  {
    if |s| > 0 {
      var front := s[..|s| - 1];
      SortStable(front, le, a);
      InsertStable(Sort(front, le), s[|s| - 1], le, a);
    }
  }
}

=== FILE: sums.dfy ===
/**
 Finite sums over index ranges.  Every cached cost component of a layout
 (cable cost, substation fan-in, subtree sizes, crossing count) is a sum of
 per-node or per-pair terms; the lemmas here say how such a sum moves when
 some of its terms change.
 */
module Sums {

  /** f(lo) + f(lo + 1) + ... + f(hi - 1); zero for an empty range. */
  function Sum(f: nat -> int, lo: nat, hi: nat): int
    decreases hi - lo
  {
    if lo >= hi then 0 else f(lo) + Sum(f, lo + 1, hi)
  }

  /** Sum of f(i, j) over all pairs lo <= i < j < hi. */
  function PairSum(f: (nat, nat) -> int, lo: nat, hi: nat): int
    decreases hi
  {
    if hi <= lo then 0 else PairSum(f, lo, hi - 1) + RowSum(f, lo, hi - 1, hi - 1)
  }

  /** Sum of f(i, j) over lo <= i < k, for a fixed column j. */
  function RowSum(f: (nat, nat) -> int, lo: nat, k: nat, j: nat): int
    decreases k
  {
    if k <= lo then 0 else RowSum(f, lo, k - 1, j) + f(k - 1, j)
  }

  lemma {:induction false} SumExt(f: nat -> int, g: nat -> int, lo: nat, hi: nat)
    requires forall i :: lo <= i < hi ==> f(i) == g(i)
    ensures Sum(f, lo, hi) == Sum(g, lo, hi)
    decreases hi - lo
  {
    if lo < hi {
      SumExt(f, g, lo + 1, hi);
    }
  }

  lemma {:induction false} SumLast(f: nat -> int, lo: nat, hi: nat)
    requires lo <= hi
    ensures Sum(f, lo, hi + 1) == Sum(f, lo, hi) + f(hi)
    decreases hi - lo
  {
    if lo < hi {
      SumLast(f, lo + 1, hi);
    }
  }

  /** Changing one term of a sum changes the sum by exactly that term's change. */
  lemma {:induction false} SumOneChange(f: nat -> int, g: nat -> int, lo: nat, hi: nat, k: nat)
    requires lo <= k < hi
    requires forall i :: lo <= i < hi && i != k ==> f(i) == g(i)
    ensures Sum(f, lo, hi) - f(k) == Sum(g, lo, hi) - g(k)
    decreases hi - lo
  {
    if lo == k {
      SumExt(f, g, lo + 1, hi);
    } else {
      SumOneChange(f, g, lo + 1, hi, k);
    }
  }

  /** Pointwise f = g + a * h gives the same relation between the sums. */
  lemma {:induction false} SumLinear(f: nat -> int, g: nat -> int, h: nat -> int, a: int, lo: nat, hi: nat)
    requires forall i :: lo <= i < hi ==> f(i) == g(i) + a * h(i)
    ensures Sum(f, lo, hi) == Sum(g, lo, hi) + a * Sum(h, lo, hi)
    decreases hi - lo
  {
    if lo < hi {
      SumLinear(f, g, h, a, lo + 1, hi);
      assert a * Sum(h, lo, hi) == a * h(lo) + a * Sum(h, lo + 1, hi);
    }
  }

  /** A sum of terms bounded by 0 and 1 lies between 0 and the number of terms. */
  lemma {:induction false} SumBounds01(f: nat -> int, lo: nat, hi: nat)
    requires forall i :: lo <= i < hi ==> 0 <= f(i) <= 1
    ensures 0 <= Sum(f, lo, hi)
    ensures lo <= hi ==> Sum(f, lo, hi) <= hi - lo
    decreases hi - lo
  {
    if lo < hi {
      SumBounds01(f, lo + 1, hi);
    }
  }

  /** A sum of ones counts the range. */
  lemma {:induction false} SumOnes(f: nat -> int, lo: nat, hi: nat)
    requires lo <= hi
    requires forall i :: lo <= i < hi ==> f(i) == 1
    ensures Sum(f, lo, hi) == hi - lo
    decreases hi - lo
  {
    if lo < hi {
      SumOnes(f, lo + 1, hi);
    }
  }

  /** Pointwise f <= g with one strict term gives a strictly smaller sum. */
  lemma {:induction false} SumStrict(f: nat -> int, g: nat -> int, lo: nat, hi: nat, k: nat)
    requires lo <= k < hi
    requires forall i :: lo <= i < hi ==> f(i) <= g(i)
    requires f(k) < g(k)
    ensures Sum(f, lo, hi) < Sum(g, lo, hi)
    decreases hi - lo
  {
    if lo == k {
      SumMono(f, g, lo + 1, hi);
    } else {
      SumStrict(f, g, lo + 1, hi, k);
    }
  }

  lemma {:induction false} SumMono(f: nat -> int, g: nat -> int, lo: nat, hi: nat)
    requires forall i :: lo <= i < hi ==> f(i) <= g(i)
    ensures Sum(f, lo, hi) <= Sum(g, lo, hi)
    decreases hi - lo
  {
    if lo < hi {
      SumMono(f, g, lo + 1, hi);
    }
  }

  /** A sum of non-negative terms with one term equal to 1 and the others 0 is 1. */
  lemma {:induction false} SumSingle(f: nat -> int, lo: nat, hi: nat, k: nat)
    requires lo <= k < hi
    requires f(k) == 1
    requires forall i :: lo <= i < hi && i != k ==> f(i) == 0
    ensures Sum(f, lo, hi) == 1
    decreases hi - lo
  {
    if lo == k {
      SumZero(f, lo + 1, hi);
    } else {
      SumSingle(f, lo + 1, hi, k);
    }
  }

  lemma {:induction false} SumZero(f: nat -> int, lo: nat, hi: nat)
    requires forall i :: lo <= i < hi ==> f(i) == 0
    ensures Sum(f, lo, hi) == 0
    decreases hi - lo
  {
    if lo < hi {
      SumZero(f, lo + 1, hi);
    }
  }

  /** The column sums of g over rows 0..n: x maps to g(0, x) + ... + g(n - 1, x). */
  function ColumnSums(g: (nat, nat) -> int, n: nat): nat -> int
  {
    (x: nat) => Sum((u: nat) => g(u, x), 0, n)
  }

  /** The row sums of g over columns 0..m: u maps to g(u, 0) + ... + g(u, m - 1). */
  function RowSums(g: (nat, nat) -> int, m: nat): nat -> int
  {
    (u: nat) => Sum((x: nat) => g(u, x), 0, m)
  }

  /** The order of a double sum over a rectangle does not matter. */
  lemma {:induction false} SumSwap(g: (nat, nat) -> int, n: nat, m: nat)
    ensures Sum(ColumnSums(g, n), 0, m) == Sum(RowSums(g, m), 0, n)
    decreases m
  {
    if m == 0 {
      SumZero(RowSums(g, 0), 0, n);
    } else {
      SumSwap(g, n, m - 1);
      SumLast(ColumnSums(g, n), 0, m - 1);
      var last: nat -> int := (u: nat) => g(u, m - 1);
      forall u | 0 <= u < n
        ensures RowSums(g, m)(u) == RowSums(g, m - 1)(u) + 1 * last(u)
      {
        SumLast((x: nat) => g(u, x), 0, m - 1);
      }
      SumLinear(RowSums(g, m), RowSums(g, m - 1), last, 1, 0, n);
      assert ColumnSums(g, n)(m - 1) == Sum(last, 0, n);
    }
  }

  lemma {:induction false} RowSumExt(f: (nat, nat) -> int, g: (nat, nat) -> int, lo: nat, k: nat, j: nat)
    requires forall i :: lo <= i < k ==> f(i, j) == g(i, j)
    ensures RowSum(f, lo, k, j) == RowSum(g, lo, k, j)
    decreases k
  {
    if lo < k {
      RowSumExt(f, g, lo, k - 1, j);
    }
  }

  /** A row whose terms differ from another row's only at i = c. */
  lemma {:induction false} RowSumOneChange(f: (nat, nat) -> int, g: (nat, nat) -> int, lo: nat, k: nat, j: nat, c: nat)
    requires lo <= c < k
    requires forall i :: lo <= i < k && i != c ==> f(i, j) == g(i, j)
    ensures RowSum(f, lo, k, j) - RowSum(g, lo, k, j) == f(c, j) - g(c, j)
    decreases k
  {
    if c == k - 1 {
      RowSumExt(f, g, lo, k - 1, j);
    } else {
      RowSumOneChange(f, g, lo, k - 1, j, c);
    }
  }

  /** A row read as a plain sum of its terms. */
  lemma {:induction false} RowSumAsSum(f: (nat, nat) -> int, h: nat -> int, lo: nat, k: nat, j: nat)
    requires forall i :: lo <= i < k ==> h(i) == f(i, j)
    ensures RowSum(f, lo, k, j) == Sum(h, lo, k)
    decreases k
  {
    if lo < k {
      RowSumAsSum(f, h, lo, k - 1, j);
      SumLast(h, lo, k - 1);
    }
  }

  /**
   Two pair sums whose terms agree on every pair that avoids c differ by the
   change of the terms that pair c with the other indices, read through
   `fc` and `gc` (the terms seen from c, which must match both orders of
   each pair).
   */
  lemma {:induction false} PairSumOneChange(
    f: (nat, nat) -> int, g: (nat, nat) -> int, fc: nat -> int, gc: nat -> int,
    lo: nat, hi: nat, c: nat)
    requires lo <= c
    requires forall i, j :: lo <= i < j < hi && i != c && j != c ==> f(i, j) == g(i, j)
    requires forall i :: lo <= i < hi && i < c ==> fc(i) == f(i, c) && gc(i) == g(i, c)
    requires forall j :: lo <= j < hi && c < j ==> fc(j) == f(c, j) && gc(j) == g(c, j)
    requires fc(c) == gc(c)
    ensures c < hi ==> PairSum(f, lo, hi) - PairSum(g, lo, hi) == Sum(fc, lo, hi) - Sum(gc, lo, hi)
    ensures hi <= c ==> PairSum(f, lo, hi) == PairSum(g, lo, hi)
    decreases hi
  {
    if hi <= lo {
    } else {
      var j := hi - 1;
      PairSumOneChange(f, g, fc, gc, lo, j, c);
      if j < c {
        RowSumExt(f, g, lo, j, j);
      } else if j == c {
        // the row of c: every term pairs c with a smaller index
        RowSumAsSum(f, fc, lo, j, j);
        RowSumAsSum(g, gc, lo, j, j);
        SumLast(fc, lo, j);
        SumLast(gc, lo, j);
      } else {
        RowSumOneChange(f, g, lo, j, j, c);
        SumLast(fc, lo, j);
        SumLast(gc, lo, j);
      }
    }
  }

  /** The terms f(i, k) of row i for j <= k < hi. */
  function Tail(f: (nat, nat) -> int, i: nat, j: nat, hi: nat): int
    decreases hi - j
  {
    if j >= hi then 0 else f(i, j) + Tail(f, i, j + 1, hi)
  }

  /** The pairs lo <= i < j < hi summed row by row: i ascending, then j ascending. */
  function RowMajor(f: (nat, nat) -> int, lo: nat, hi: nat): int
    decreases hi - lo
  {
    if lo >= hi then 0 else Tail(f, lo, lo + 1, hi) + RowMajor(f, lo + 1, hi)
  }

  lemma {:induction false} TailLast(f: (nat, nat) -> int, i: nat, j: nat, hi: nat)
    requires j <= hi
    ensures Tail(f, i, j, hi + 1) == Tail(f, i, j, hi) + f(i, hi)
    decreases hi - j
  {
    if j < hi {
      TailLast(f, i, j + 1, hi);
    }
  }

  lemma {:induction false} RowSumFirst(f: (nat, nat) -> int, lo: nat, k: nat, j: nat)
    requires lo < k
    ensures RowSum(f, lo, k, j) == f(lo, j) + RowSum(f, lo + 1, k, j)
    decreases k
  {
    if lo < k - 1 {
      RowSumFirst(f, lo, k - 1, j);
    }
  }

  /** Extending the range by one index adds the column of that index. */
  lemma {:induction false} RowMajorLast(f: (nat, nat) -> int, lo: nat, hi: nat)
    requires lo <= hi
    ensures RowMajor(f, lo, hi + 1) == RowMajor(f, lo, hi) + RowSum(f, lo, hi, hi)
    decreases hi - lo
  {
    if lo < hi {
      TailLast(f, lo, lo + 1, hi);
      RowMajorLast(f, lo + 1, hi);
      RowSumFirst(f, lo, hi, hi);
    }
  }

  /** Summing the pairs row by row gives the same total as column by column. */
  lemma {:induction false} RowMajorIsPairSum(f: (nat, nat) -> int, lo: nat, hi: nat)
    ensures RowMajor(f, lo, hi) == PairSum(f, lo, hi)
    decreases hi
  {
    if lo < hi {
      RowMajorIsPairSum(f, lo, hi - 1);
      RowMajorLast(f, lo, hi - 1);
    }
  }

  /** A column of zero terms sums to zero. */
  lemma {:induction false} RowSumZero(f: (nat, nat) -> int, lo: nat, k: nat, j: nat)
    requires forall i :: lo <= i < k ==> f(i, j) == 0
    ensures RowSum(f, lo, k, j) == 0
    decreases k
  {
    if k > lo {
      RowSumZero(f, lo, k - 1, j);
    }
  }

  /** Pairs of zero terms sum to zero. */
  lemma {:induction false} PairSumZero(f: (nat, nat) -> int, lo: nat, hi: nat)
    requires forall i, j :: lo <= i < j < hi ==> f(i, j) == 0
    ensures PairSum(f, lo, hi) == 0
    decreases hi
  {
    if hi > lo {
      PairSumZero(f, lo, hi - 1);
      RowSumZero(f, lo, hi - 1, hi - 1);
    }
  }
}

=== FILE: transposons.dfy ===
/**
 The local-search operators of src/transgenetic.py that try re-attachments
 on a solution and keep the cheapest: the single-branch transposon (moves
 inside the branch of one first-layer turbine), the between-branches
 transposon (moves of a branch's nodes to anywhere outside that branch) and
 move-to-better (the first strictly best legal move over all turbines).
 Every trial is undone before the next one, so all trials start from the
 solution the operator was given.
 */
module Transposons {
  import opened Tree
  import opened Reattach
  import opened Branches
  import opened Instance
  import opened Costs
  import opened Solution

  datatype Option<T> = None | Some(value: T)

  /**
   A trial of single_branch_transposon: r is attached to the substation,
   a and b both lie in r's branch, and b is outside a's branch.
   */
  predicate SameBranchMove(parent: seq<nat>, r: nat, a: nat, b: nat)
  {
    && 1 <= r < |parent| && parent[r] == 0
    && 1 <= a < |parent| && b < |parent|
    && InBranch(parent, r, a) && InBranch(parent, r, b)
    && !InBranch(parent, a, b)
  }

  /**
   A trial of between_branches_transposon: r is attached to the
   substation, a lies in r's branch, and b lies outside it (and hence
   outside a's branch).
   */
  predicate CrossBranchMove(parent: seq<nat>, r: nat, a: nat, b: nat)
  {
    && 1 <= r < |parent| && parent[r] == 0
    && 1 <= a < |parent| && b < |parent|
    && InBranch(parent, r, a) && !InBranch(parent, r, b)
    && !InBranch(parent, a, b)
  }

  /** A member of a first-layer branch is a turbine. */
  lemma FirstLayerMember(parent: seq<nat>, r: nat, a: nat)
    requires 1 <= r && InBranch(parent, r, a)
    ensures a != 0
  {
  }

  /** Outside r's branch means outside the branch of every member of r's branch. */
  lemma OutsideBranch(parent: seq<nat>, r: nat, a: nat, b: nat)
    requires Proper(parent) && b < |parent|
    requires InBranch(parent, r, a) && !InBranch(parent, r, b)
    ensures !InBranch(parent, a, b)
  {
    if InBranch(parent, a, b) {
      InBranchTrans(parent, r, a, b);
    }
  }

  /** Every turbine attached to the substation is in the first layer. */
  lemma FirstLayerAll(s: State, firstLayer: seq<nat>)
    requires ValidParents(s.parent) && ChildrenOf(s.parent, s.children)
    requires firstLayer == ChildList(s.parent, s.children, 0)
    ensures forall r :: 1 <= r < |s.parent| && s.parent[r] == 0 ==> r in firstLayer
  {
  }

  /** The cached cost of the layout after the legal move (a, b). */
  function TrialCost(inst: Instance, s: State, a: nat, b: nat): int
    requires Consistent(inst, s) && LegalMove(s.parent, a, b)
  {
    Cost(inst, Moved(inst, s, a, b), false)
  }

  /**
   tc holds the cost of every legal trial from s.  The scans below speak of
   tc rather than TrialCost, so that their bookkeeping never has to look
   inside a trial.
   */
  ghost predicate TrialTable(inst: Instance, s: State, tc: (nat, nat) -> int)
  {
    Consistent(inst, s)
    && forall a, b {:trigger TrialCost(inst, s, a, b)} :: LegalMove(s.parent, a, b) ==> tc(a, b) == TrialCost(inst, s, a, b)
  }

  /** The table of trial costs from a consistent state. */
  ghost function TrialCosts(inst: Instance, s: State): (tc: (nat, nat) -> int)
    requires Consistent(inst, s)
    ensures TrialTable(inst, s, tc)
  {
    (a: nat, b: nat) => if LegalMove(s.parent, a, b) then TrialCost(inst, s, a, b) else 0
  }

  /**
   What a transposon remembers while it scans: the best trial so far (None
   while no trial has beaten the start), the edges of its layout and its
   cached cost, which is strictly below the starting cost once a trial has
   been kept.  A trial (r, a, b) moves a under b while scanning the branch
   of the first-layer turbine r, and is one the transposon makes (ok).
   */
  ghost predicate Record(inst: Instance, s: State, tc: (nat, nat) -> int, ok: (nat, nat, nat) -> bool,
                         m: Option<(nat, nat, nat)>, bestEdges: seq<(nat, nat)>, bestCost: int)
  {
    match m
    case None => |s.parent| >= 1 && bestEdges == GetEdges(s.parent) && bestCost == Cost(inst, s, false)
    case Some((r, a, b)) =>
      && ok(r, a, b) && 1 <= a < |s.parent|
      && bestEdges == GetEdges(s.parent[a := b])
      && bestCost == tc(a, b) && bestCost < Cost(inst, s, false)
  }

  /** The layout a record stands for. */
  ghost function Chosen(s: State, m: Option<(nat, nat, nat)>): seq<nat>
    requires m.Some? ==> m.value.1 < |s.parent|
  {
    if m.None? then s.parent else s.parent[m.value.1 := m.value.2]
  }

  /**
   The best layout a transposon rebuilds: a tree over the instance's nodes
   given by its edges, with a cached cost no more than the starting cost.
   With distinct sites and an exact crossing count at the start, that cost
   is the layout's from-scratch cost.
   */
  predicate Best(inst: Instance, s: State, bestParent: seq<nat>, bestEdges: seq<(nat, nat)>, bestCost: int)
  {
    && WellFormed(inst) && Fits(inst, bestParent) && Proper(bestParent)
    && bestEdges == GetEdges(bestParent)
    && bestCost <= Cost(inst, s, false)
    && (DistinctSites(inst) && CrossingsExact(inst, s) ==> bestCost == LayoutCost(inst, bestParent))
  }

  /** Whatever a scan of legal trials kept, its record describes a best layout. */
  lemma RecordIsBest(inst: Instance, s: State, tc: (nat, nat) -> int, ok: (nat, nat, nat) -> bool,
                     m: Option<(nat, nat, nat)>, bestEdges: seq<(nat, nat)>, bestCost: int)
    requires TrialTable(inst, s, tc) && Record(inst, s, tc, ok, m, bestEdges, bestCost)
    requires m.Some? ==> LegalMove(s.parent, m.value.1, m.value.2)
    ensures Best(inst, s, Chosen(s, m), bestEdges, bestCost)
  {
    match m
    case None =>
      if DistinctSites(inst) && CrossingsExact(inst, s) {
        CostIsLayoutCost(inst, s);
      }
    case Some((_, a, b)) =>
      MovedConsistent(inst, s, a, b);
      assert bestCost == TrialCost(inst, s, a, b);
      if DistinctSites(inst) && CrossingsExact(inst, s) {
        MovedCrossingsExact(inst, s, a, b);
        CostIsLayoutCost(inst, Moved(inst, s, a, b));
      }
  }

  /**
   Compare the cached cost of the trial t, the legal move (a, b) from s,
   with the best so far: a strictly cheaper trial replaces it, so on a tie
   the earlier layout stays.
   */
  method Keep(inst: Instance, s: State, t: State, ghost a: nat, ghost b: nat,
              bestEdges: seq<(nat, nat)>, bestCost: int)
    returns (edges': seq<(nat, nat)>, cost': int)
    requires Consistent(inst, s) && LegalMove(s.parent, a, b) && t == Moved(inst, s, a, b)
    ensures cost' <= bestCost && cost' <= TrialCost(inst, s, a, b)
    ensures cost' < bestCost ==> edges' == GetEdges(t.parent) && cost' == TrialCost(inst, s, a, b)
    ensures cost' == bestCost ==> edges' == bestEdges
  {
    var cost := Cost(inst, t, false);
    if cost < bestCost {
      edges', cost' := GetEdges(t.parent), cost;
    } else {
      edges', cost' := bestEdges, bestCost;
    }
  }

  /** The last step of a transposon: rebuild the solution from the best edges seen. */
  method Finish(inst: Instance, s: State, bestEdges: seq<(nat, nat)>, bestCost: int, ghost bestParent: seq<nat>)
    returns (r: State)
    requires Consistent(inst, s) && Best(inst, s, bestParent, bestEdges, bestCost)
    ensures Consistent(inst, r) && CrossingsExact(inst, r) && r.parent == bestParent
    ensures DistinctSites(inst) && CrossingsExact(inst, s) ==> Cost(inst, r, false) == bestCost
  {
    GetEdgesRebuild(s.parent, bestParent);
    var cost;
    r, cost := Build(inst, s, bestEdges, false);
    CostIsLayoutCost(inst, r);
  }

  // ---------------------------------------------------------------------
  // single_branch_transposon

  /**
   ok names exactly the trials of single_branch_transposon.  Like tc, it keeps the
   scans below from looking inside the branch relation.
   */
  ghost predicate SameBranchTable(s: State, ok: (nat, nat, nat) -> bool)
  {
    forall r, a, b {:trigger SameBranchMove(s.parent, r, a, b)} :: ok(r, a, b) == SameBranchMove(s.parent, r, a, b)
  }

  /** The trials of single_branch_transposon from s. */
  ghost function SameBranchMoves(s: State): (ok: (nat, nat, nat) -> bool)
    ensures SameBranchTable(s, ok)
  {
    (r: nat, a: nat, b: nat) => SameBranchMove(s.parent, r, a, b)
  }

  /**
   single_branch_transposon: for each first-layer turbine, taken from the
   end of the list of the substation's children, try every re-attachment
   of a node of its branch under another node of the same branch outside
   the node's own branch, undoing each with a plain move back to the old
   parent; finally rebuild the cheapest layout seen.  The result is the
   starting layout or a trial strictly cheaper than it (a tie keeps the
   start), never costs more than the start, and costs no more than any
   trial.
   */
  method SingleBranchTransposon(inst: Instance, s: State) returns (r: State)
    requires Consistent(inst, s)
    ensures Consistent(inst, r) && CrossingsExact(inst, r)
    ensures r.parent == s.parent || exists root: nat, a: nat, b: nat ::
      SameBranchMove(s.parent, root, a, b) && r.parent == s.parent[a := b] && TrialCost(inst, s, a, b) < Cost(inst, s, false)
    ensures DistinctSites(inst) && CrossingsExact(inst, s) ==> Cost(inst, r, false) <= Cost(inst, s, false)
    ensures DistinctSites(inst) && CrossingsExact(inst, s) ==>
      forall root, a, b :: SameBranchMove(s.parent, root, a, b) ==>
        Cost(inst, r, false) <= TrialCost(inst, s, a, b)
  {
    ghost var tc := TrialCosts(inst, s);
    ghost var ok := SameBranchMoves(s);
    var bestEdges, bestCost, bestMove := SameBranchScan(inst, s, tc, ok);
    if bestMove.Some? {
      var (root, a, b) := bestMove.value;
      assert SameBranchMove(s.parent, root, a, b);
      assert TrialCost(inst, s, a, b) == bestCost < Cost(inst, s, false);
    }
    RecordIsBest(inst, s, tc, ok, bestMove, bestEdges, bestCost);
    r := Finish(inst, s, bestEdges, bestCost, Chosen(s, bestMove));
    if DistinctSites(inst) && CrossingsExact(inst, s) {
      forall root, a, b | SameBranchMove(s.parent, root, a, b)
        ensures Cost(inst, r, false) <= TrialCost(inst, s, a, b)
      {
        assert ok(root, a, b) && bestCost <= tc(a, b);
      }
    }
  }

  /** The loop of single_branch_transposon over the first layer, from the last turbine down. */
  method SameBranchScan(inst: Instance, s: State, ghost tc: (nat, nat) -> int, ghost ok: (nat, nat, nat) -> bool)
    returns (bestEdges: seq<(nat, nat)>, bestCost: int, ghost bestMove: Option<(nat, nat, nat)>)
    requires TrialTable(inst, s, tc) && SameBranchTable(s, ok)
    ensures Record(inst, s, tc, ok, bestMove, bestEdges, bestCost)
    ensures forall root, a, b :: ok(root, a, b) ==> bestCost <= tc(a, b)
  {
    var firstLayer := ChildList(s.parent, s.children, 0);
    bestEdges := GetEdges(s.parent);
    bestCost := Cost(inst, s, false);
    bestMove := None;
    var i := |firstLayer|;
    while i > 0
      invariant 0 <= i <= |firstLayer|
      invariant Record(inst, s, tc, ok, bestMove, bestEdges, bestCost)
      invariant LayersBeat(tc, ok, firstLayer, i, bestCost)
    {
      i := i - 1;
      var root := firstLayer[i];
      ghost var before := bestCost;
      bestEdges, bestCost, bestMove := SameBranchTrials(inst, s, tc, ok, root, bestEdges, bestCost, bestMove);
      LayersBeatStep(tc, ok, firstLayer, i, before, bestCost);
    }
    FirstLayerAll(s, firstLayer);
    forall root, a, b | ok(root, a, b)
      ensures bestCost <= tc(a, b)
    {
      assert SameBranchMove(s.parent, root, a, b);
      var k :| 0 <= k < |firstLayer| && firstLayer[k] == root;
    }
  }

  /** The trials of single_branch_transposon for the branch of one first-layer turbine. */
  method SameBranchTrials(inst: Instance, s: State, ghost tc: (nat, nat) -> int, ghost ok: (nat, nat, nat) -> bool, root: nat,
                     bestEdges: seq<(nat, nat)>, bestCost: int, ghost bestMove: Option<(nat, nat, nat)>)
    returns (edges': seq<(nat, nat)>, cost': int, ghost move': Option<(nat, nat, nat)>)
    requires TrialTable(inst, s, tc) && SameBranchTable(s, ok) && root in s.children[0]
    requires Record(inst, s, tc, ok, bestMove, bestEdges, bestCost)
    ensures Record(inst, s, tc, ok, move', edges', cost')
    ensures cost' <= bestCost
    ensures forall a, b :: ok(root, a, b) ==> cost' <= tc(a, b)
  {
    edges', cost', move' := bestEdges, bestCost, bestMove;
    var branch := BranchNodes(s.parent, s.children, root);
    var i := 0;
    while i < |branch|
      invariant 0 <= i <= |branch|
      invariant Record(inst, s, tc, ok, move', edges', cost')
      invariant cost' <= bestCost
      invariant RowsBeat(tc, ok, root, branch, i, cost')
    {
      var a := branch[i];
      BranchNodesMembers(s.parent, s.children, root, a);
      ghost var before := cost';
      edges', cost', move' := SameBranchRow(inst, s, tc, ok, root, a, edges', cost', move');
      RowsBeatStep(tc, ok, root, branch, i, before, cost');
      i := i + 1;
    }
    forall a, b | ok(root, a, b)
      ensures cost' <= tc(a, b)
    {
      assert SameBranchMove(s.parent, root, a, b);
      BranchNodesMembers(s.parent, s.children, root, a);
      var k :| 0 <= k < |branch| && branch[k] == a;
    }
  }

  /** The trials of single_branch_transposon that move one node a of the branch. */
  method SameBranchRow(inst: Instance, s: State, ghost tc: (nat, nat) -> int, ghost ok: (nat, nat, nat) -> bool, root: nat, a: nat,
                       bestEdges: seq<(nat, nat)>, bestCost: int, ghost bestMove: Option<(nat, nat, nat)>)
    returns (edges': seq<(nat, nat)>, cost': int, ghost move': Option<(nat, nat, nat)>)
    requires TrialTable(inst, s, tc) && SameBranchTable(s, ok) && root in s.children[0]
    requires a < |s.parent| && InBranch(s.parent, root, a)
    requires Record(inst, s, tc, ok, bestMove, bestEdges, bestCost)
    ensures Record(inst, s, tc, ok, move', edges', cost')
    ensures cost' <= bestCost
    ensures forall b :: ok(root, a, b) ==> cost' <= tc(a, b)
  {
    edges', cost', move' := bestEdges, bestCost, bestMove;
    var branch := BranchNodes(s.parent, s.children, root);
    var j := 0;
    while j < |branch|
      invariant 0 <= j <= |branch|
      invariant Record(inst, s, tc, ok, move', edges', cost')
      invariant cost' <= bestCost
      invariant Beats(tc, ok, root, a, branch, j, cost')
    {
      var b := branch[j];
      BranchNodesMembers(s.parent, s.children, root, b);
      ghost var before := cost';
      edges', cost', move' := SameBranchStep(inst, s, tc, ok, root, a, b, edges', cost', move');
      BeatsStep(tc, ok, root, a, branch, j, before, cost');
      j := j + 1;
    }
    forall b | ok(root, a, b)
      ensures cost' <= tc(a, b)
    {
      assert SameBranchMove(s.parent, root, a, b);
      BranchNodesMembers(s.parent, s.children, root, b);
      var i :| 0 <= i < |branch| && branch[i] == b;
    }
  }

  /** The cost is no worse than any allowed trial in the branch of a first-layer turbine from index i on. */
  ghost predicate LayersBeat(tc: (nat, nat) -> int, ok: (nat, nat, nat) -> bool, layer: seq<nat>, i: nat, cost: int)
  {
    forall k, a, b :: i <= k < |layer| && ok(layer[k], a, b) ==> cost <= tc(a, b)
  }

  /** A cost that beats every trial in branch i and is no worse than before beats those from i on. */
  lemma LayersBeatStep(tc: (nat, nat) -> int, ok: (nat, nat, nat) -> bool, layer: seq<nat>, i: nat, cost: int, cost': int)
    requires i < |layer| && LayersBeat(tc, ok, layer, i + 1, cost) && cost' <= cost
    requires forall a, b :: ok(layer[i], a, b) ==> cost' <= tc(a, b)
    ensures LayersBeat(tc, ok, layer, i, cost')
  {
  }

  /** The cost is no worse than any allowed trial that moves one of the first i candidates. */
  ghost predicate RowsBeat(tc: (nat, nat) -> int, ok: (nat, nat, nat) -> bool, root: nat, cands: seq<nat>, i: nat, cost: int)
  {
    forall k, b :: 0 <= k < i && k < |cands| && ok(root, cands[k], b) ==> cost <= tc(cands[k], b)
  }

  /** A cost that beats every trial moving candidate i and is no worse than before beats the first i + 1. */
  lemma RowsBeatStep(tc: (nat, nat) -> int, ok: (nat, nat, nat) -> bool, root: nat, cands: seq<nat>, i: nat,
                     cost: int, cost': int)
    requires i < |cands| && RowsBeat(tc, ok, root, cands, i, cost) && cost' <= cost
    requires forall b :: ok(root, cands[i], b) ==> cost' <= tc(cands[i], b)
    ensures RowsBeat(tc, ok, root, cands, i + 1, cost')
  {
  }

  /** The cost is no worse than any allowed trial of a under the first j candidates. */
  ghost predicate Beats(tc: (nat, nat) -> int, ok: (nat, nat, nat) -> bool, root: nat, a: nat, cands: seq<nat>, j: nat, cost: int)
  {
    forall i :: 0 <= i < j && i < |cands| && ok(root, a, cands[i]) ==> cost <= tc(a, cands[i])
  }

  /** A cost that beats candidate j and is no worse than before beats the first j + 1. */
  lemma BeatsStep(tc: (nat, nat) -> int, ok: (nat, nat, nat) -> bool, root: nat, a: nat, cands: seq<nat>, j: nat,
                  cost: int, cost': int)
    requires j < |cands| && Beats(tc, ok, root, a, cands, j, cost) && cost' <= cost
    requires ok(root, a, cands[j]) ==> cost' <= tc(a, cands[j])
    ensures Beats(tc, ok, root, a, cands, j + 1, cost')
  {
  }

  /** The pair (a, b) of single_branch_transposon: tried unless b lies in a's branch. */
  method SameBranchStep(inst: Instance, s: State, ghost tc: (nat, nat) -> int, ghost ok: (nat, nat, nat) -> bool, root: nat, a: nat, b: nat,
                   bestEdges: seq<(nat, nat)>, bestCost: int, ghost bestMove: Option<(nat, nat, nat)>)
    returns (edges': seq<(nat, nat)>, cost': int, ghost move': Option<(nat, nat, nat)>)
    requires TrialTable(inst, s, tc) && SameBranchTable(s, ok) && root in s.children[0]
    requires a < |s.parent| && InBranch(s.parent, root, a)
    requires b < |s.parent| && InBranch(s.parent, root, b)
    requires Record(inst, s, tc, ok, bestMove, bestEdges, bestCost)
    ensures Record(inst, s, tc, ok, move', edges', cost')
    ensures cost' <= bestCost
    ensures ok(root, a, b) ==> cost' <= tc(a, b)
  {
    assert ok(root, a, b) == SameBranchMove(s.parent, root, a, b);
    IsNodeInBranchCorrect(s.parent, s.children, a, b);
    if !IsNodeInBranch(s.parent, s.children, a, b) {
      FirstLayerMember(s.parent, root, a);
      edges', cost', move' := SameBranchTrial(inst, s, tc, ok, root, a, b, bestEdges, bestCost, bestMove);
    } else {
      edges', cost', move' := bestEdges, bestCost, bestMove;
    }
  }

  /**
   One trial of single_branch_transposon: move a under b, compare the
   cost, and move a back under its old parent, which restores the solution
   exactly.
   */
  method SameBranchTrial(inst: Instance, s: State, ghost tc: (nat, nat) -> int, ghost ok: (nat, nat, nat) -> bool, root: nat, a: nat, b: nat,
                    bestEdges: seq<(nat, nat)>, bestCost: int, ghost bestMove: Option<(nat, nat, nat)>)
    returns (edges': seq<(nat, nat)>, cost': int, ghost move': Option<(nat, nat, nat)>)
    requires TrialTable(inst, s, tc) && SameBranchTable(s, ok) && SameBranchMove(s.parent, root, a, b)
    requires Record(inst, s, tc, ok, bestMove, bestEdges, bestCost)
    ensures Record(inst, s, tc, ok, move', edges', cost')
    ensures cost' <= bestCost && cost' <= tc(a, b)
  {
    var parentA := s.parent[a];
    var t, snap := Move(inst, s, a, b);
    edges', cost' := Keep(inst, s, t, a, b, bestEdges, bestCost);
    move' := if cost' < bestCost then Some((root, a, b)) else bestMove;
    assert ok(root, a, b);
    MovedTwice(inst, s, a, b);
    var back, snap' := Move(inst, t, a, parentA);
    assert back == s;
  }

  // ---------------------------------------------------------------------
  // between_branches_transposon

  /**
   ok names exactly the trials of between_branches_transposon.  Like tc, it keeps the
   scans below from looking inside the branch relation.
   */
  ghost predicate CrossBranchTable(s: State, ok: (nat, nat, nat) -> bool)
  {
    forall r, a, b {:trigger CrossBranchMove(s.parent, r, a, b)} :: ok(r, a, b) == CrossBranchMove(s.parent, r, a, b)
  }

  /** The trials of between_branches_transposon from s. */
  ghost function CrossBranchMoves(s: State): (ok: (nat, nat, nat) -> bool)
    ensures CrossBranchTable(s, ok)
  {
    (r: nat, a: nat, b: nat) => CrossBranchMove(s.parent, r, a, b)
  }

  /**
   between_branches_transposon: for each first-layer turbine, taken from
   the end of the list of the substation's children, try every
   re-attachment of a node of its branch under a node outside that branch
   (the substation included), undoing each with move_back; finally rebuild
   the cheapest layout seen.  The result is the starting layout or a trial
   strictly cheaper than it (a tie keeps the start), never costs more than
   the start, and costs no more than any trial.
   */
  method BetweenBranchesTransposon(inst: Instance, s: State) returns (r: State)
    requires Consistent(inst, s)
    ensures Consistent(inst, r) && CrossingsExact(inst, r)
    ensures r.parent == s.parent || exists root: nat, a: nat, b: nat ::
      CrossBranchMove(s.parent, root, a, b) && r.parent == s.parent[a := b] && TrialCost(inst, s, a, b) < Cost(inst, s, false)
    ensures DistinctSites(inst) && CrossingsExact(inst, s) ==> Cost(inst, r, false) <= Cost(inst, s, false)
    ensures DistinctSites(inst) && CrossingsExact(inst, s) ==>
      forall root, a, b :: CrossBranchMove(s.parent, root, a, b) ==>
        Cost(inst, r, false) <= TrialCost(inst, s, a, b)
  {
    ghost var tc := TrialCosts(inst, s);
    ghost var ok := CrossBranchMoves(s);
    var bestEdges, bestCost, bestMove := CrossBranchScan(inst, s, tc, ok);
    if bestMove.Some? {
      var (root, a, b) := bestMove.value;
      assert CrossBranchMove(s.parent, root, a, b);
      assert TrialCost(inst, s, a, b) == bestCost < Cost(inst, s, false);
    }
    RecordIsBest(inst, s, tc, ok, bestMove, bestEdges, bestCost);
    r := Finish(inst, s, bestEdges, bestCost, Chosen(s, bestMove));
    if DistinctSites(inst) && CrossingsExact(inst, s) {
      forall root, a, b | CrossBranchMove(s.parent, root, a, b)
        ensures Cost(inst, r, false) <= TrialCost(inst, s, a, b)
      {
        assert ok(root, a, b) && bestCost <= tc(a, b);
      }
    }
  }

  /** The loop of between_branches_transposon over the first layer, from the last turbine down. */
  method CrossBranchScan(inst: Instance, s: State, ghost tc: (nat, nat) -> int, ghost ok: (nat, nat, nat) -> bool)
    returns (bestEdges: seq<(nat, nat)>, bestCost: int, ghost bestMove: Option<(nat, nat, nat)>)
    requires TrialTable(inst, s, tc) && CrossBranchTable(s, ok)
    ensures Record(inst, s, tc, ok, bestMove, bestEdges, bestCost)
    ensures forall root, a, b :: ok(root, a, b) ==> bestCost <= tc(a, b)
  {
    var firstLayer := ChildList(s.parent, s.children, 0);
    bestEdges := GetEdges(s.parent);
    bestCost := Cost(inst, s, false);
    bestMove := None;
    var i := |firstLayer|;
    while i > 0
      invariant 0 <= i <= |firstLayer|
      invariant Record(inst, s, tc, ok, bestMove, bestEdges, bestCost)
      invariant LayersBeat(tc, ok, firstLayer, i, bestCost)
    {
      i := i - 1;
      var root := firstLayer[i];
      ghost var before := bestCost;
      bestEdges, bestCost, bestMove := CrossBranchTrials(inst, s, tc, ok, root, bestEdges, bestCost, bestMove);
      LayersBeatStep(tc, ok, firstLayer, i, before, bestCost);
    }
    FirstLayerAll(s, firstLayer);
    forall root, a, b | ok(root, a, b)
      ensures bestCost <= tc(a, b)
    {
      assert CrossBranchMove(s.parent, root, a, b);
      var k :| 0 <= k < |firstLayer| && firstLayer[k] == root;
    }
  }

  /** The trials of between_branches_transposon for the branch of one first-layer turbine. */
  method CrossBranchTrials(inst: Instance, s: State, ghost tc: (nat, nat) -> int, ghost ok: (nat, nat, nat) -> bool, root: nat,
                     bestEdges: seq<(nat, nat)>, bestCost: int, ghost bestMove: Option<(nat, nat, nat)>)
    returns (edges': seq<(nat, nat)>, cost': int, ghost move': Option<(nat, nat, nat)>)
    requires TrialTable(inst, s, tc) && CrossBranchTable(s, ok) && root in s.children[0]
    requires Record(inst, s, tc, ok, bestMove, bestEdges, bestCost)
    ensures Record(inst, s, tc, ok, move', edges', cost')
    ensures cost' <= bestCost
    ensures forall a, b :: ok(root, a, b) ==> cost' <= tc(a, b)
  {
    edges', cost', move' := bestEdges, bestCost, bestMove;
    var branch := BranchNodes(s.parent, s.children, root);
    var i := 0;
    while i < |branch|
      invariant 0 <= i <= |branch|
      invariant Record(inst, s, tc, ok, move', edges', cost')
      invariant cost' <= bestCost
      invariant RowsBeat(tc, ok, root, branch, i, cost')
    {
      var a := branch[i];
      BranchNodesMembers(s.parent, s.children, root, a);
      ghost var before := cost';
      edges', cost', move' := CrossBranchRow(inst, s, tc, ok, root, a, edges', cost', move');
      RowsBeatStep(tc, ok, root, branch, i, before, cost');
      i := i + 1;
    }
    forall a, b | ok(root, a, b)
      ensures cost' <= tc(a, b)
    {
      assert CrossBranchMove(s.parent, root, a, b);
      BranchNodesMembers(s.parent, s.children, root, a);
      var k :| 0 <= k < |branch| && branch[k] == a;
    }
  }

  /** The trials of between_branches_transposon that move one node a of the branch, b over all nodes. */
  method CrossBranchRow(inst: Instance, s: State, ghost tc: (nat, nat) -> int, ghost ok: (nat, nat, nat) -> bool, root: nat, a: nat,
                        bestEdges: seq<(nat, nat)>, bestCost: int, ghost bestMove: Option<(nat, nat, nat)>)
    returns (edges': seq<(nat, nat)>, cost': int, ghost move': Option<(nat, nat, nat)>)
    requires TrialTable(inst, s, tc) && CrossBranchTable(s, ok) && root in s.children[0]
    requires a < |s.parent| && InBranch(s.parent, root, a)
    requires Record(inst, s, tc, ok, bestMove, bestEdges, bestCost)
    ensures Record(inst, s, tc, ok, move', edges', cost')
    ensures cost' <= bestCost
    ensures forall b :: ok(root, a, b) ==> cost' <= tc(a, b)
  {
    edges', cost', move' := bestEdges, bestCost, bestMove;
    var n := |s.parent|;
    var b := 0;
    while b < n
      invariant 0 <= b <= n
      invariant Record(inst, s, tc, ok, move', edges', cost')
      invariant cost' <= bestCost
      invariant forall b': nat :: b' < b && ok(root, a, b') ==> cost' <= tc(a, b')
    {
      edges', cost', move' := CrossBranchStep(inst, s, tc, ok, root, a, b, edges', cost', move');
      b := b + 1;
    }
    forall b: nat | ok(root, a, b)
      ensures b < n
    {
      assert CrossBranchMove(s.parent, root, a, b);
    }
  }

  /** The pair (a, b) of between_branches_transposon: tried unless b lies in root's branch. */
  method CrossBranchStep(inst: Instance, s: State, ghost tc: (nat, nat) -> int, ghost ok: (nat, nat, nat) -> bool, root: nat, a: nat, b: nat,
                   bestEdges: seq<(nat, nat)>, bestCost: int, ghost bestMove: Option<(nat, nat, nat)>)
    returns (edges': seq<(nat, nat)>, cost': int, ghost move': Option<(nat, nat, nat)>)
    requires TrialTable(inst, s, tc) && CrossBranchTable(s, ok) && root in s.children[0]
    requires a < |s.parent| && InBranch(s.parent, root, a)
    requires b < |s.parent|
    requires Record(inst, s, tc, ok, bestMove, bestEdges, bestCost)
    ensures Record(inst, s, tc, ok, move', edges', cost')
    ensures cost' <= bestCost
    ensures ok(root, a, b) ==> cost' <= tc(a, b)
  {
    assert ok(root, a, b) == CrossBranchMove(s.parent, root, a, b);
    IsNodeInBranchCorrect(s.parent, s.children, root, b);
    if !IsNodeInBranch(s.parent, s.children, root, b) {
      FirstLayerMember(s.parent, root, a);
      OutsideBranch(s.parent, root, a, b);
      edges', cost', move' := CrossBranchTrial(inst, s, tc, ok, root, a, b, bestEdges, bestCost, bestMove);
    } else {
      edges', cost', move' := bestEdges, bestCost, bestMove;
    }
  }

  /**
   One trial of between_branches_transposon: move a under b with the state
   saved, compare the cost, and move_back, which restores the solution
   exactly.
   */
  method CrossBranchTrial(inst: Instance, s: State, ghost tc: (nat, nat) -> int, ghost ok: (nat, nat, nat) -> bool, root: nat, a: nat, b: nat,
                    bestEdges: seq<(nat, nat)>, bestCost: int, ghost bestMove: Option<(nat, nat, nat)>)
    returns (edges': seq<(nat, nat)>, cost': int, ghost move': Option<(nat, nat, nat)>)
    requires TrialTable(inst, s, tc) && CrossBranchTable(s, ok) && CrossBranchMove(s.parent, root, a, b)
    requires Record(inst, s, tc, ok, bestMove, bestEdges, bestCost)
    ensures Record(inst, s, tc, ok, move', edges', cost')
    ensures cost' <= bestCost && cost' <= tc(a, b)
  {
    var t, snap := Move(inst, s, a, b);
    edges', cost' := Keep(inst, s, t, a, b, bestEdges, bestCost);
    move' := if cost' < bestCost then Some((root, a, b)) else bestMove;
    assert ok(root, a, b);
    var back := MoveBack(t, snap);
    assert back == s;
  }

  // ---------------------------------------------------------------------
  // move_to_better_trasposon

  /** (a', b') comes before (a, b) in the scan: turbines ascending, then destinations ascending. */
  predicate ScannedBefore(a': nat, b': nat, a: nat, b: nat)
  {
    a' < a || (a' == a && b' < b)
  }

  /** The best trial so far and what the scan up to (a, b) has established about it. */
  ghost predicate ScanState(s: State, tc: (nat, nat) -> int, startCost: int, m: Option<(nat, nat)>, bestCost: int, a: nat, b: nat)
  {
    && (m.None? ==> bestCost == startCost)
    && (m.Some? ==>
          && LegalMove(s.parent, m.value.0, m.value.1)
          && ScannedBefore(m.value.0, m.value.1, a, b)
          && bestCost == tc(m.value.0, m.value.1)
          && bestCost < startCost
          && forall a', b' :: LegalMove(s.parent, a', b') && ScannedBefore(a', b', m.value.0, m.value.1) ==>
               bestCost < tc(a', b'))
    && forall a', b' :: LegalMove(s.parent, a', b') && ScannedBefore(a', b', a, b) ==> bestCost <= tc(a', b')
  }

  /**
   move_to_better_trasposon: scan every legal move (turbine a ascending,
   destination b ascending), trying each and undoing it with move_back, and
   remember the first one whose cost is strictly below the best so far.
   Without an improving move the solution is unchanged and the answer is
   false; otherwise the remembered move is applied, the answer is true, the
   cost drops strictly, no legal move is cheaper, and every move scanned
   before it is strictly dearer.
   */
  method MoveToBetter(inst: Instance, s: State) returns (r: State, moved: bool)
    requires Consistent(inst, s)
    ensures Consistent(inst, r)
    ensures !moved <==> r == s
    ensures !moved ==> forall a, b :: LegalMove(s.parent, a, b) ==> Cost(inst, s, false) <= TrialCost(inst, s, a, b)
    ensures moved ==> Cost(inst, r, false) < Cost(inst, s, false)
    ensures moved ==> exists a, b ::
      && LegalMove(s.parent, a, b) && r == Moved(inst, s, a, b)
      && (forall a', b' :: LegalMove(s.parent, a', b') ==> Cost(inst, r, false) <= TrialCost(inst, s, a', b'))
      && (forall a', b' :: LegalMove(s.parent, a', b') && ScannedBefore(a', b', a, b) ==> Cost(inst, r, false) < TrialCost(inst, s, a', b'))
  {
    ghost var tc := TrialCosts(inst, s);
    var bestMove, bestCost := ScanAll(inst, s, tc);
    if bestMove.None? {
      r, moved := s, false;
      forall a, b | LegalMove(s.parent, a, b)
        ensures Cost(inst, s, false) <= TrialCost(inst, s, a, b)
      {
        assert bestCost <= tc(a, b);
      }
    } else {
      var (a, b) := bestMove.value;
      var snap;
      r, snap := Move(inst, s, a, b);
      moved := true;
      assert Cost(inst, r, false) == TrialCost(inst, s, a, b) == bestCost;
      assert r != s by {
        assert r.parent[a] == b;
        InBranchParent(s.parent, a);
        InBranchSelf(s.parent, a);
      }
      forall a', b' | LegalMove(s.parent, a', b')
        ensures Cost(inst, r, false) <= TrialCost(inst, s, a', b')
      {
        assert bestCost <= tc(a', b');
      }
      forall a', b' | LegalMove(s.parent, a', b') && ScannedBefore(a', b', a, b)
        ensures Cost(inst, r, false) < TrialCost(inst, s, a', b')
      {
        assert bestCost < tc(a', b');
      }
    }
  }

  /** The scan of move_to_better_trasposon over every turbine, ascending. */
  method ScanAll(inst: Instance, s: State, ghost tc: (nat, nat) -> int) returns (bestMove: Option<(nat, nat)>, bestCost: int)
    requires TrialTable(inst, s, tc)
    ensures ScanState(s, tc, Cost(inst, s, false), bestMove, bestCost, |s.parent|, 0)
    ensures forall a', b' :: LegalMove(s.parent, a', b') ==> ScannedBefore(a', b', |s.parent|, 0)
  {
    var n := |s.parent|;
    bestMove := None;
    bestCost := Cost(inst, s, false);
    var a := 1;
    while a < n
      invariant 1 <= a <= n || n == 1
      invariant ScanState(s, tc, Cost(inst, s, false), bestMove, bestCost, a, 0)
    {
      bestMove, bestCost := ScanTurbine(inst, s, tc, a, bestMove, bestCost);
      a := a + 1;
    }
    if n == 1 {
      ScanRestart(s, tc, Cost(inst, s, false), bestMove, bestCost, 1, n);
    }
  }

  /** Legal moves only involve turbines, so a scan at turbine 1 and one at n agree. */
  lemma ScanRestart(s: State, tc: (nat, nat) -> int, startCost: int, m: Option<(nat, nat)>, bestCost: int, a: nat, n: nat)
    requires n == |s.parent| == 1 && a == 1
    requires ScanState(s, tc, startCost, m, bestCost, a, 0)
    ensures ScanState(s, tc, startCost, m, bestCost, n, 0)
  {
  }

  /** The scan of move_to_better_trasposon over the destinations of one turbine. */
  method ScanTurbine(inst: Instance, s: State, ghost tc: (nat, nat) -> int, a: nat, bestMove: Option<(nat, nat)>, bestCost: int)
    returns (move': Option<(nat, nat)>, cost': int)
    requires TrialTable(inst, s, tc) && 1 <= a < |s.parent|
    requires ScanState(s, tc, Cost(inst, s, false), bestMove, bestCost, a, 0)
    ensures ScanState(s, tc, Cost(inst, s, false), move', cost', a + 1, 0)
  {
    var n := |s.parent|;
    move', cost' := bestMove, bestCost;
    var b := 0;
    while b < n
      invariant 0 <= b <= n
      invariant ScanState(s, tc, Cost(inst, s, false), move', cost', a, b)
    {
      move', cost' := ScanPair(inst, s, tc, a, b, move', cost');
      b := b + 1;
    }
    ScanNextTurbine(s, tc, Cost(inst, s, false), a, move', cost');
  }

  /** The pair (a, b) of move_to_better_trasposon: tried unless b lies in a's branch. */
  method ScanPair(inst: Instance, s: State, ghost tc: (nat, nat) -> int, a: nat, b: nat, bestMove: Option<(nat, nat)>, bestCost: int)
    returns (move': Option<(nat, nat)>, cost': int)
    requires TrialTable(inst, s, tc) && 1 <= a < |s.parent| && b < |s.parent|
    requires ScanState(s, tc, Cost(inst, s, false), bestMove, bestCost, a, b)
    ensures ScanState(s, tc, Cost(inst, s, false), move', cost', a, b + 1)
  {
    IsNodeInBranchCorrect(s.parent, s.children, a, b);
    if !IsNodeInBranch(s.parent, s.children, a, b) {
      move', cost' := ScanTrial(inst, s, tc, a, b, bestMove, bestCost);
    } else {
      move', cost' := bestMove, bestCost;
      ScanSkip(s, tc, Cost(inst, s, false), a, b, move', cost');
    }
  }

  /** One trial of move_to_better_trasposon: move a under b with the state saved, compare, move_back. */
  method ScanTrial(inst: Instance, s: State, ghost tc: (nat, nat) -> int, a: nat, b: nat, bestMove: Option<(nat, nat)>, bestCost: int)
    returns (move': Option<(nat, nat)>, cost': int)
    requires TrialTable(inst, s, tc) && LegalMove(s.parent, a, b)
    requires ScanState(s, tc, Cost(inst, s, false), bestMove, bestCost, a, b)
    ensures ScanState(s, tc, Cost(inst, s, false), move', cost', a, b + 1)
  {
    var t, snap := Move(inst, s, a, b);
    var cost := Cost(inst, t, false);
    assert cost == TrialCost(inst, s, a, b);
    if cost < bestCost {
      move', cost' := Some((a, b)), cost;
    } else {
      move', cost' := bestMove, bestCost;
    }
    var back := MoveBack(t, snap);
    assert back == s;
    ScanStep(s, tc, Cost(inst, s, false), a, b, bestMove, bestCost, move', cost');
  }

  /** The bookkeeping of one scanned legal move: a strictly cheaper trial becomes the best. */
  lemma ScanStep(s: State, tc: (nat, nat) -> int, startCost: int, a: nat, b: nat,
                 m: Option<(nat, nat)>, bestCost: int, m': Option<(nat, nat)>, cost': int)
    requires LegalMove(s.parent, a, b)
    requires ScanState(s, tc, startCost, m, bestCost, a, b)
    requires tc(a, b) < bestCost ==> m' == Some((a, b)) && cost' == tc(a, b)
    requires !(tc(a, b) < bestCost) ==> m' == m && cost' == bestCost
    ensures ScanState(s, tc, startCost, m', cost', a, b + 1)
  {
    forall a', b' | LegalMove(s.parent, a', b') && ScannedBefore(a', b', a, b + 1)
      ensures cost' <= tc(a', b')
    {
      if a' == a && b' == b {
      } else {
        assert ScannedBefore(a', b', a, b);
      }
    }
    if tc(a, b) < bestCost {
      forall a', b' | LegalMove(s.parent, a', b') && ScannedBefore(a', b', a, b)
        ensures cost' < tc(a', b')
      {
      }
    }
  }

  /** An illegal destination is skipped. */
  lemma ScanSkip(s: State, tc: (nat, nat) -> int, startCost: int, a: nat, b: nat, m: Option<(nat, nat)>, bestCost: int)
    requires !LegalMove(s.parent, a, b)
    requires ScanState(s, tc, startCost, m, bestCost, a, b)
    ensures ScanState(s, tc, startCost, m, bestCost, a, b + 1)
  {
    forall a', b' | LegalMove(s.parent, a', b') && ScannedBefore(a', b', a, b + 1)
      ensures bestCost <= tc(a', b')
    {
      assert ScannedBefore(a', b', a, b);
    }
  }

  /** After the last destination the scan moves on to the next turbine. */
  lemma ScanNextTurbine(s: State, tc: (nat, nat) -> int, startCost: int, a: nat, m: Option<(nat, nat)>, bestCost: int)
    requires ScanState(s, tc, startCost, m, bestCost, a, |s.parent|)
    ensures ScanState(s, tc, startCost, m, bestCost, a + 1, 0)
  {
    forall a', b' | LegalMove(s.parent, a', b') && ScannedBefore(a', b', a + 1, 0)
      ensures bestCost <= tc(a', b')
    {
      assert ScannedBefore(a', b', a, |s.parent|);
    }
  }
}

=== FILE: tree.dfy ===
/**
 Rooted cable trees as parent maps.  A layout over the substation (node 0)
 and turbines 1..n is the sequence `parent` of length n + 1; `parent[v]` is
 the node turbine v sends its power to, and the substation's own entry is 0.
 The layout is a proper tree when every node reaches the substation by
 following parents.  Branch membership and subtree sizes are defined here
 from the paths to the substation, independently of any traversal order.
 */
module Tree {
  import opened Sums

  /** Node 0 is the substation, its entry is 0, and every entry names a node. */
  predicate ValidParents(parent: seq<nat>)
  {
    && |parent| >= 1
    && parent[0] == 0
    && forall v :: 0 <= v < |parent| ==> parent[v] < |parent|
  }

  /** v reaches the substation within `fuel` hops. */
  predicate Reaches(parent: seq<nat>, v: nat, fuel: nat)
    decreases fuel
  {
    v == 0 || (fuel > 0 && v < |parent| && Reaches(parent, parent[v], fuel - 1))
  }

  /**
   The nodes met walking from v towards the substation in at most `fuel`
   hops, v first; the walk stops at node 0.
   */
  function Walk(parent: seq<nat>, v: nat, fuel: nat): (w: seq<nat>)
    ensures |w| >= 1 && w[0] == v && |w| <= fuel + 1
    decreases fuel
  {
    if v == 0 || fuel == 0 || v >= |parent| then [v] else [v] + Walk(parent, parent[v], fuel - 1)
  }

  /**
   A walk climbs the parent map one hop per step through turbines only, and
   ends at the substation exactly when the substation is reached within the
   fuel.
   */
  lemma {:induction false} WalkShape(parent: seq<nat>, v: nat, fuel: nat)
    ensures var w := Walk(parent, v, fuel);
      && (forall i :: 0 <= i < |w| - 1 ==> w[i] != 0 && w[i] < |parent| && w[i + 1] == parent[w[i]])
      && (Reaches(parent, v, fuel) <==> w[|w| - 1] == 0)
      && (ValidParents(parent) && v < |parent| ==> forall i :: 0 <= i < |w| ==> w[i] < |parent|)
    decreases fuel
  {
    if v != 0 && fuel != 0 && v < |parent| {
      WalkShape(parent, parent[v], fuel - 1);
      var w := Walk(parent, v, fuel);
      var w' := Walk(parent, parent[v], fuel - 1);
      assert w == [v] + w';
      assert forall i :: 1 <= i < |w| ==> w[i] == w'[i - 1];
    }
  }

  /** The parent map is a tree rooted at the substation. */
  predicate Proper(parent: seq<nat>)
  {
    ValidParents(parent) && forall v :: 0 <= v < |parent| ==> Reaches(parent, v, |parent|)
  }

  /** The path from v up to and including the substation. */
  function Chain(parent: seq<nat>, v: nat): seq<nat>
  {
    Walk(parent, v, |parent|)
  }

  /** x lies in the branch rooted at r: r is x itself or one of x's ancestors. */
  predicate InBranch(parent: seq<nat>, r: nat, x: nat)
  {
    r in Chain(parent, x)
  }

  /** 1 for the nodes of r's branch, 0 elsewhere. */
  function BranchIndicator(parent: seq<nat>, r: nat): nat -> int
  {
    (u: nat) => if u < |parent| && InBranch(parent, r, u) then 1 else 0
  }

  /** Number of nodes in the branch rooted at r, r included. */
  function SubtreeSize(parent: seq<nat>, r: nat): int
  {
    Sum(BranchIndicator(parent, r), 0, |parent|)
  }

  /** A sequence without repeated elements. */
  predicate Distinct(s: seq<nat>)
  {
    forall i, j :: 0 <= i < j < |s| ==> s[i] != s[j]
  }

  // ---------------------------------------------------------------------
  // Walks and chains

  lemma {:induction false} ReachesMono(parent: seq<nat>, v: nat, f: nat, g: nat)
    requires Reaches(parent, v, f) && f <= g
    ensures Reaches(parent, v, g)
    decreases f
  {
    if v != 0 {
      ReachesMono(parent, parent[v], f - 1, g - 1);
    }
  }

  /** Once the substation is reached, more fuel does not lengthen a walk. */
  lemma {:induction false} WalkFuel(parent: seq<nat>, v: nat, f: nat, g: nat)
    requires Reaches(parent, v, f) && f <= g
    ensures Walk(parent, v, f) == Walk(parent, v, g)
    decreases f
  {
    if v != 0 {
      WalkFuel(parent, parent[v], f - 1, g - 1);
    }
  }

  /** A walk that ends at the substation shows it is reached in |w| - 1 hops. */
  lemma {:induction false} WalkHops(parent: seq<nat>, v: nat, f: nat)
    requires Reaches(parent, v, f)
    ensures Reaches(parent, v, |Walk(parent, v, f)| - 1)
    decreases f
  {
    if v != 0 {
      WalkHops(parent, parent[v], f - 1);
    }
  }

  /** Walking up one step: the chain of a turbine is the turbine followed by its parent's chain. */
  lemma ChainStep(parent: seq<nat>, v: nat)
    requires Proper(parent) && 1 <= v < |parent|
    ensures Chain(parent, v) == [v] + Chain(parent, parent[v])
    ensures |Chain(parent, v)| >= 2
  {
    var n := |parent|;
    assert Reaches(parent, v, n);
    WalkFuel(parent, parent[v], n - 1, n);
  }

  /** Every chain ends at the substation and stays inside the node range. */
  lemma ChainEnds(parent: seq<nat>, v: nat)
    requires Proper(parent) && v < |parent|
    ensures Chain(parent, v)[|Chain(parent, v)| - 1] == 0
    ensures forall i :: 0 <= i < |Chain(parent, v)| ==> Chain(parent, v)[i] < |parent|
    ensures forall i :: 0 <= i < |Chain(parent, v)| - 1 ==> Chain(parent, v)[i] != 0
    ensures forall i :: 0 <= i < |Chain(parent, v)| - 1 ==> Chain(parent, v)[i + 1] == parent[Chain(parent, v)[i]]
  {
    assert Reaches(parent, v, |parent|);
    WalkShape(parent, v, |parent|);
  }

  /** The part of a chain from position k on is the chain of the node at k. */
  lemma {:induction false} ChainSuffix(parent: seq<nat>, v: nat, k: nat)
    requires Proper(parent) && v < |parent| && k < |Chain(parent, v)|
    ensures Chain(parent, v)[k] < |parent|
    ensures Chain(parent, v)[k..] == Chain(parent, Chain(parent, v)[k])
    decreases k
  {
    ChainEnds(parent, v);
    if k > 0 {
      assert v != 0;
      ChainStep(parent, v);
      ChainSuffix(parent, parent[v], k - 1);
      assert Chain(parent, v)[k..] == Chain(parent, parent[v])[k - 1..];
    }
  }

  /** No node repeats on a chain: a proper tree has no cycles. */
  lemma ChainDistinct(parent: seq<nat>, v: nat)
    requires Proper(parent) && v < |parent|
    ensures Distinct(Chain(parent, v))
  {
    var c := Chain(parent, v);
    forall i, j | 0 <= i < j < |c|
      ensures c[i] != c[j]
    {
      ChainSuffix(parent, v, i);
      ChainSuffix(parent, v, j);
    }
  }

  lemma InBranchSelf(parent: seq<nat>, v: nat)
    ensures InBranch(parent, v, v)
  {
    assert Chain(parent, v)[0] == v;
  }

  /** Every node is in the substation's branch. */
  lemma InBranchRoot(parent: seq<nat>, x: nat)
    requires Proper(parent) && x < |parent|
    ensures InBranch(parent, 0, x)
  {
    ChainEnds(parent, x);
  }

  lemma InBranchTrans(parent: seq<nat>, a: nat, b: nat, c: nat)
    requires Proper(parent) && c < |parent|
    requires InBranch(parent, a, b) && InBranch(parent, b, c)
    ensures InBranch(parent, a, c)
  {
    var k :| 0 <= k < |Chain(parent, c)| && Chain(parent, c)[k] == b;
    ChainSuffix(parent, c, k);
    assert Chain(parent, c)[k..] == Chain(parent, b);
    var i :| 0 <= i < |Chain(parent, b)| && Chain(parent, b)[i] == a;
    assert Chain(parent, c)[k + i] == a;
  }

  lemma InBranchAntisym(parent: seq<nat>, a: nat, b: nat)
    requires Proper(parent) && b < |parent|
    requires InBranch(parent, a, b) && InBranch(parent, b, a)
    ensures a == b
  {
    var cb := Chain(parent, b);
    var i :| 0 <= i < |cb| && cb[i] == a;
    ChainSuffix(parent, b, i);
    var j :| 0 <= j < |Chain(parent, a)| && Chain(parent, a)[j] == b;
    assert cb[i + j] == b == cb[0];
    ChainDistinct(parent, b);
  }

  /** A turbine lies in its parent's branch, and its parent does not lie in its branch. */
  lemma InBranchParent(parent: seq<nat>, v: nat)
    requires Proper(parent) && 1 <= v < |parent|
    ensures InBranch(parent, parent[v], v)
    ensures !InBranch(parent, v, parent[v])
    ensures parent[v] != v
  {
    ChainStep(parent, v);
    assert Chain(parent, v)[1] == parent[v];
    ChainDistinct(parent, v);
    if InBranch(parent, v, parent[v]) {
      InBranchAntisym(parent, v, parent[v]);
    }
  }

  /** Leaving a branch's root: a proper member's parent is still in the branch. */
  lemma InBranchUp(parent: seq<nat>, r: nat, x: nat)
    requires Proper(parent) && x < |parent|
    requires InBranch(parent, r, x) && x != r
    ensures x != 0 && InBranch(parent, r, parent[x])
  {
    ChainEnds(parent, x);
    if x != 0 {
      ChainStep(parent, x);
    }
  }

  /**
   A proper member x of r's branch hangs below exactly one child of r:
   the node just before r on x's chain.
   */
  lemma ChildOnPath(parent: seq<nat>, r: nat, x: nat) returns (ch: nat)
    requires Proper(parent) && x < |parent|
    requires InBranch(parent, r, x) && x != r
    ensures 1 <= ch < |parent| && parent[ch] == r && InBranch(parent, ch, x)
  {
    var c := Chain(parent, x);
    ChainEnds(parent, x);
    var k :| 0 <= k < |c| && c[k] == r;
    assert k > 0;
    ch := c[k - 1];
    assert c[k] == parent[ch];
  }

  lemma ChildOnPathUnique(parent: seq<nat>, x: nat, ch1: nat, ch2: nat)
    requires Proper(parent) && x < |parent|
    requires 1 <= ch1 < |parent| && 1 <= ch2 < |parent| && parent[ch1] == parent[ch2]
    requires InBranch(parent, ch1, x) && InBranch(parent, ch2, x)
    ensures ch1 == ch2
  {
    var c := Chain(parent, x);
    ChainEnds(parent, x);
    ChainDistinct(parent, x);
    var i :| 0 <= i < |c| && c[i] == ch1;
    var j :| 0 <= j < |c| && c[j] == ch2;
    assert c[i + 1] == parent[ch1];
    assert c[j + 1] == parent[ch2];
  }

  /** Pigeonhole: a repetition-free sequence of nodes below n has at most n elements. */
  lemma {:induction false} DistinctBound(s: seq<nat>, n: nat)
    requires Distinct(s)
    requires forall i :: 0 <= i < |s| ==> s[i] < n
    ensures |s| <= n
    decreases n
  {
    if |s| > 0 {
      assert s[0] < n;
      if k :| 0 <= k < |s| && s[k] == n - 1 {
        var t := s[..k] + s[k + 1..];
        assert forall i :: 0 <= i < |t| ==> t[i] == (if i < k then s[i] else s[i + 1]);
        DistinctBound(t, n - 1);
      } else {
        DistinctBound(s, n - 1);
      }
    }
  }

  /** A chain holds at most every node once. */
  lemma ChainLength(parent: seq<nat>, v: nat)
    requires Proper(parent) && v < |parent|
    ensures |Chain(parent, v)| <= |parent|
  {
    ChainDistinct(parent, v);
    ChainEnds(parent, v);
    DistinctBound(Chain(parent, v), |parent|);
  }

  // ---------------------------------------------------------------------
  // Subtree sizes

  /** The substation's branch is the whole layout. */
  lemma SubtreeSizeRoot(parent: seq<nat>)
    requires Proper(parent)
    ensures SubtreeSize(parent, 0) == |parent|
  {
    forall u | 0 <= u < |parent|
      ensures BranchIndicator(parent, 0)(u) == 1
    {
      InBranchRoot(parent, u);
    }
    SumOnes(BranchIndicator(parent, 0), 0, |parent|);
  }

  lemma SubtreeSizeBounds(parent: seq<nat>, r: nat)
    requires Proper(parent) && r < |parent|
    ensures 1 <= SubtreeSize(parent, r) <= |parent|
  {
    var f := BranchIndicator(parent, r);
    SumBounds01(f, 0, |parent|);
    InBranchSelf(parent, r);
    var zero: nat -> int := u => 0;
    SumStrict(zero, f, 0, |parent|, r);
    SumZero(zero, 0, |parent|);
  }

  /** A child's branch is strictly smaller than its parent's. */
  lemma ChildSmaller(parent: seq<nat>, ch: nat)
    requires Proper(parent) && 1 <= ch < |parent|
    ensures SubtreeSize(parent, ch) < SubtreeSize(parent, parent[ch])
  {
    var r := parent[ch];
    var f := BranchIndicator(parent, ch);
    var g := BranchIndicator(parent, r);
    InBranchParent(parent, ch);
    forall u | 0 <= u < |parent|
      ensures f(u) <= g(u)
    {
      if InBranch(parent, ch, u) {
        InBranchTrans(parent, r, ch, u);
      }
    }
    InBranchSelf(parent, r);
    SumStrict(f, g, 0, |parent|, r);
  }

  /** A proper descendant's branch is strictly smaller than its ancestor's. */
  lemma BranchSmaller(parent: seq<nat>, a: nat, x: nat)
    requires Proper(parent) && a < |parent| && x < |parent|
    requires InBranch(parent, a, x) && a != x
    ensures SubtreeSize(parent, x) < SubtreeSize(parent, a)
  {
    var f := BranchIndicator(parent, x);
    var g := BranchIndicator(parent, a);
    forall u | 0 <= u < |parent|
      ensures f(u) <= g(u)
    {
      if InBranch(parent, x, u) {
        InBranchTrans(parent, a, x, u);
      }
    }
    InBranchSelf(parent, a);
    if InBranch(parent, x, a) {
      InBranchAntisym(parent, a, x);
    }
    SumStrict(f, g, 0, |parent|, a);
  }
}
